=== FILE: README.md ===
# A Dafny model of a small Lox-style interpreter

This project models the language pipeline of a tree-walking interpreter for a small
Lox-like scripting language, written in C#. It covers the pipeline from the character
cursor to the evaluator, and proves properties of each stage.

| module | models |
|---|---|
| `Text` | decimal rendering of counts and line numbers, with its inverse |
| `Tokens` | the `TokenType` enumeration, the `Token` record and its `ToString` |
| `Diagnostics` | the three error kinds of `ErrorThrower`, plus two host exceptions the code lets escape |
| `InputStream` | the character cursor (`Next`, `Peek`, `PeekNext`, `Eof`) with its line and column counters |
| `Scanner` | `TokenStream`: the character classes, the keyword table, the sub-scanners and the main `ReadTokens` loop |
| `ScannerProperties` | cursor validity across the scanner, the line numbers it stamps on tokens, and how the tokens trace the input |
| `Ast` | the eight expression and seven statement node kinds |
| `Parser` | the recursive-descent parser: cursor helpers, every statement and expression rule, `Synchronize` |
| `ParserProperties` | precedence, associativity, assignment targets, dangling `else`, `for` desugaring, error propagation |
| `Values` | runtime values, truthiness, equality and `Stringify` |
| `Environment` | the scope chain with `Define`, `Get`, `Assign` and `Clear` |
| `Interpreter` | the `Visit*` methods, `ExecuteBlock`, `FunctionObject.Call`, native registration, `Interpret` |
| `InterpreterProperties` | short-circuit logic, declarations, block scoping, calls, and how a runtime error stops a program |

The model is functional:
- The cursor is a record of input, position, line and column.
- Each scanner routine takes a cursor and returns the tokens it produced and the cursor after them.
- The parser is a family of functions from a token sequence and a position to a node and the next position.
- A thrown .NET exception becomes an `Err` in a `Result`.
- The interpreter's current environment is a sequence of scopes:
  - `scopes[0]` is the innermost scope and the last one is the global scope.
  - This is exact for this code. No function value keeps its defining environment, because a call always runs in a fresh scope whose parent is the global one. So no scope outlives the block or call that made it.
- Evaluation threads a `State` through. It holds:
  - the scopes;
  - a counter that gives each new function object an identity;
  - the value `clock` reads;
  - the `HadRuntimeError` flag.

## Quirks of the code

The model does what the code does in each of these places. In several of them, names or unreachable branches in the code itself point to a different intent.

- **Backslash is not an escape.** The string scanner keeps an `escape` flag, and the routine is named `ReadStringWithEscape`, but it compares a `char` with the *string* `"\\"` (`Interpreter/TokenStream.cs:101`). That comparison is always false. So a string ends at the first `"`, and backslashes are kept verbatim.
- **Unterminated strings give no lexical error.** The string loop calls `Peek` before it tests `Eof` (`Interpreter/TokenStream.cs:93`). So an unterminated string ends in an index-out-of-range exception, and the "Unterminated string!" error can never be raised. `Scanner.ScanString` fails exactly when no `"` follows, and it fails with `IndexOutOfRange`.
- **Some input endings fail the scan.** After skipping whitespace, the main loop peeks without testing for the end (`Interpreter/TokenStream.cs:171-172`). Two-character operators also peek at the following character (`Interpreter/TokenStream.cs:158`). So these inputs fail with `IndexOutOfRange`:
  - input ending in whitespace, unless that whitespace is inside a final `//` comment. A comment stops before the newline that ends it, so input ending in a newline always fails, while `// ` on its own scans;
  - input ending in `!`, `=`, `<` or `>`.
- **Syntax errors are not recovered from.** `ErrorThrower.SyntaxError` throws a plain `Exception`, while `Declaration` catches only `ParseError`. So the first syntax error aborts the whole parse, and `Parser.Parse` returns that error. `Synchronize` is unreachable; it is modelled on its own as `Parser.Synchronize`.
- **No closures.** A call's environment always has the global environment as its parent (`Interpreter/AST/FunctionObject.cs:26`). Every call returns null, and there is no `return` keyword: `"return"` is missing from the keyword table, so a `Return` token is never produced.
- **A duplicate definition is not a runtime error.** `Dictionary.Add` throws, and `Interpret` does not catch that exception. The model calls it `DuplicateKey`. A function with two parameters of the same name fails the same way when it is called.
- **The runtime-error flag is never reset.** It is process-wide in the code. Here it is a field of `State`, and neither `Restart` nor `Interpret` clears it.
- **`clock` returns a `long`.** That is not a `double`, so arithmetic on it fails the number checks. The model has a separate `Long` value for it.

## Model

| member | source | states |
|---|---|---|
| InputStream.Next | Interpreter/InputStream.cs:16-28 | returns the character under the cursor and advances the position by exactly one; a newline increments the line and resets the column to 0, any other character increments only the column |
| InputStream.NextPreservesValid | Interpreter/InputStream.cs:16-28 | `Next` keeps the cursor invariant: the line is one plus the newlines consumed, the column counts characters since the last newline, the position stays within the input |
| InputStream.PeekNextIsPeekAfterNext | Interpreter/InputStream.cs:35-41 | `PeekNext` is what `Peek` would see after one `Next`, and `'\0'` exactly when that would be past the end |
| InputStream.EofIffNothingLeft | Interpreter/InputStream.cs:43-46 | the end is reached exactly when no input remains after the cursor |
| Scanner.ReadWhile | Interpreter/TokenStream.cs:78-84 | returns the longest run of characters satisfying the predicate, which is exactly the input between the old and new cursor |
| Scanner.ScanString | Interpreter/TokenStream.cs:86-120 | fails, with an index-out-of-range error, exactly when no closing quote follows; otherwise the lexeme runs through the first closing quote and the literal is the text strictly between the quotes |
| Scanner.ScanNumber | Interpreter/TokenStream.cs:122-136 | the lexeme is a maximal digit run, extended by a fraction only when a digit follows the `.`; a `.` without a following digit is left unconsumed |
| Scanner.ScanIdentifier | Interpreter/TokenStream.cs:138-151 | the lexeme is a maximal identifier run; a keyword gets its keyword kind, anything else is an `Identifier` |
| Scanner.ScanOperator | Interpreter/TokenStream.cs:153-162 | fails exactly when the operator is the last character; otherwise a following `=` gives the two-character kind and lexeme, anything else the one-character kind and lexeme |
| Scanner.SkipComment | Interpreter/TokenStream.cs:201-206 | a `//` comment consumes everything up to, but not including, the next newline and yields no token; the text it consumes is text the main loop skips |
| Scanner.ScanOne | Interpreter/TokenStream.cs:174-215 | one main-loop step consumes at least one character; it yields no token exactly when the cursor is on `//`, and otherwise one well-formed token whose lexeme is exactly the text consumed and whose kind is fixed by the first character and the lexeme (for `! = < >` by the lexeme's length, for a word through the keyword table); how far the lexeme reaches is stated per case by the three rows below; an unknown character raises an input error naming the character, its line and its column |
| ScannerProperties.OperatorMunchesEquals | Interpreter/TokenStream.cs:189-200 | a step on `! = < >` takes the following `=` exactly when the next character is `=`, and has the two-character kind exactly then; it never stops short of an `=` that follows |
| ScannerProperties.NumberMunchesDigits | Interpreter/TokenStream.cs:122-136 | a step on a digit yields one number token and stops where no digit follows; a number without a fraction is never followed by `.` and a digit |
| ScannerProperties.WordMunchesLetters | Interpreter/TokenStream.cs:138-151 | a step on a letter or `_` yields one token and stops where no letter, digit or `_` follows |
| Scanner.ScanFrom | Interpreter/TokenStream.cs:166-221 | on success the tokens already read are kept as a prefix, and the result ends in exactly one EOF token with no EOF before it |
| Scanner.Scan | Interpreter/TokenStream.cs:166-221 | a successful scan ends in exactly one EOF token, every other token is well formed, and the input did not end in a newline; a failure is an input error or an index-out-of-range error |
| ScannerProperties.ScanOneKeepsValid | Interpreter/TokenStream.cs:174-215 | every scanner step leaves the cursor's line and column consistent with the characters it consumed |
| ScannerProperties.ScanLines | Interpreter/TokenStream.cs:166-221 | the line numbers of the tokens never decrease, all lie between 1 and the input's line count, and the EOF token carries the last line |
| ScannerProperties.ScanFromSegments | Interpreter/TokenStream.cs:166-221 | from any cursor, the tokens a successful loop adds before EOF are, in order, exact slices of the input after the cursor, with only whitespace and `//` comments before, between and after them |
| ScannerProperties.ScanTracesInput | Interpreter/TokenStream.cs:166-221 | the tokens of a successful scan, except EOF, are in order exact slices of the input, and everything else in the input is whitespace or `//` comments |
| ScannerProperties.ScanNeverReturns | Interpreter/TokenStream.cs:15-30 | a successful scan never yields a `Return` or `Boolean` token: `"return"` is missing from the keyword table and no rule produces a boolean |
| Tokens.KindNameInjective | Interpreter/Token.cs:26-76 | distinct token kinds have distinct printed names |
| Tokens.KindNamedFinds | Interpreter/Token.cs:26-76 | every token kind can be read back from its printed name |
| Tokens.RenderRecoversKind | Interpreter/Token.cs:18-21 | the kind of a token can be read back from its `ToString` text |
| Tokens.RenderRecoversLine | Interpreter/Token.cs:18-21 | the line of a token can be read back from the end of its `ToString` text |
| Text.NatToStringRoundTrip | Interpreter/Token.cs:18-21 | reading back the decimal rendering of a count gives the count |
| Diagnostics.SyntaxErrorReportsLine | Interpreter/ErrorThrower.cs:9-12 | the line of the offending token can be read back from a syntax error's message |
| Diagnostics.InputErrorReportsColumn | Interpreter/ErrorThrower.cs:14-17 | the column can be read back from an input error's message |
| Parser.Expect | Interpreter/Parser.cs:81-86 | succeeds exactly when the current token has the expected kind and is not EOF, consuming exactly that token; otherwise it fails with the given message at that token |
| Parser.Arguments | Interpreter/Parser.cs:492-506 | keeps the arguments already read as a prefix and never yields more than 255; a 256th argument fails with "Can't have more than 255 arguments." |
| Parser.Parameters | Interpreter/Parser.cs:231-254 | keeps the parameters already read as a prefix, accepts only identifiers and never more than 255; a 256th parameter fails with "Can't have more than 255 parameters." |
| Parser.Primary | Interpreter/Parser.cs:508-530 | `false`, `true` and `null` become the matching literal, a number or string token a literal carrying its scanned value, and an identifier a variable node, each consuming exactly that token; `(` yields a grouping that ends at a `)`; any other token fails with "Expected expression." at that token |
| Parser.Synchronize | Interpreter/Parser.cs:173-192 | skips to the first statement boundary after the cursor (just past a `;`, or a token that starts a statement); it fails exactly when the cursor is already at EOF |
| Parser.ParseFrom | Interpreter/Parser.cs:20-30 | keeps the statements already parsed as a prefix, stops at EOF, and only ever fails with a syntax error |
| Parser.Parse | Interpreter/Parser.cs:20-30 | yields well-formed statements or a syntax error; a program of only EOF parses to no statements |
| ParserProperties.ParseFromFails | Interpreter/Parser.cs:198-213 | the first declaration that fails makes the whole parse fail with its error, so nothing is recovered |
| ParserProperties.ExpressionFails | Interpreter/Parser.cs:349-354 | an expression statement fails with the error of its expression |
| ParserProperties.ProductBindsTighter | Interpreter/Parser.cs:438-464 | `1 + 2 * 3;`, with any three numbers, parses as `1 + (2 * 3)` |
| ParserProperties.MinusIsLeftAssociative | Interpreter/Parser.cs:438-450 | `1 - 2 - 3;`, with any three numbers, parses as `(1 - 2) - 3` |
| ParserProperties.AssignmentGroupsRight | Interpreter/Parser.cs:364-380 | `a = b = c;` parses as `a = (b = c)` |
| ParserProperties.InvalidAssignmentTarget | Interpreter/Parser.cs:364-380 | assigning to anything but a variable fails with "Invalid assignment target." at the `=` |
| ParserProperties.NumberIsNoTarget | Interpreter/Parser.cs:364-380 | the program `1 = 2;` fails to parse with "Invalid assignment target." |
| ParserProperties.ElseBindsNearest | Interpreter/Parser.cs:255-269 | when an `if` directly follows another `if`'s condition, the outer `if` gets an `else` only if the inner one has one, so a single `else` goes to the nearest `if` |
| ParserProperties.EmptyForIsWhileTrue | Interpreter/Parser.cs:294-328 | `for (;;) body` becomes a `while (true) body` loop |
| ParserProperties.FullForIsBlockWithWhile | Interpreter/Parser.cs:294-327 | when the tokens after `for` hold `(`, an initializer, a condition closed by `;` and an increment closed by `)`, all present, the loop becomes a block that runs `init` once and then `while (cond)` over a block of `body` followed by `increment` as a statement, and ends where the body ends |
| ParserProperties.DesugarForRules | Interpreter/Parser.cs:315-325 | the three rewrite rules: no initializer means no outer block, and one means a block running it once before the loop; a missing condition loops on the literal `true`; a missing increment leaves the body unchanged, and a present one runs after the body in a block |
| ParserProperties.ForIsDesugaredHeader | Interpreter/Parser.cs:294-327 | whatever mix of clauses the tokens hold, `for` parses to the rewrite of exactly those clauses and the body that follows the `)` |
| ParserProperties.ConditionOnlyForIsWhile | Interpreter/Parser.cs:294-327 | `for (; cond;) body` is exactly `while (cond) body`, with no block around the loop or inside it |
| ParserProperties.MissingConditionForIsWhileTrue | Interpreter/Parser.cs:294-327 | `for (init;; increment) body` is a block running `init` once and then a loop on the literal `true` over `body` followed by `increment` |
| ParserProperties.ForClausesRead | Interpreter/Parser.cs:296-313 | `(`, an initializer, a clause closed by `;` and a clause closed by `)`, read in turn, give the header whose initializer, condition and increment are those three, in that order |
| Parser.OptionalClause | Interpreter/Parser.cs:305-313 | a loop clause succeeds only by consuming its closing token; it is empty exactly when that token comes first, and otherwise holds an expression of parser shape; failures are syntax errors |
| ParserProperties.ClauseRead | Interpreter/Parser.cs:305-313 | a loop clause reads as its optional expression followed by exactly one closing token, whichever that is |
| Parser.ForClauses | Interpreter/Parser.cs:296-313 | the header of a `for` loop ends past its start, with every clause present of parser shape; the initializer, condition and increment it returns are what the tokens after `(` hold, the condition being the clause closed by `;` and the increment the one closed by `)`, and tokens that hold a header always parse to exactly that header; failures are syntax errors |
| Values.FalsyValues | Interpreter/Interpreter.cs:310-317 | null and false are exactly the falsy values; 0, the empty string and a `long` are truthy |
| Values.IsEqualIsEquivalence | Interpreter/Interpreter.cs:319-327 | equality is reflexive, symmetric and transitive |
| Values.IsEqualMeansSameValue | Interpreter/Interpreter.cs:319-327 | two values are equal exactly when they are the same value; two functions are equal exactly when they are the same object; null equals only null |
| Values.StringifyNumber | Interpreter/Interpreter.cs:90-106 | a number is displayed as the host's formatting with one trailing `.0` removed |
| Environment.Define | Interpreter/Environment.cs:29-32 | fails exactly when the innermost scope already binds the name; otherwise it binds the name there and leaves every other scope unchanged |
| Environment.GetFindsInnermost | Interpreter/Environment.cs:34-46 | a lookup fails exactly when no scope binds the name, and otherwise returns the binding of the innermost scope that binds it |
| Environment.AssignUpdatesInnermost | Interpreter/Environment.cs:48-58 | assignment fails exactly when lookup does; otherwise it changes only the innermost scope binding the name, adds no name anywhere, and a following lookup sees the new value |
| Environment.GetAfterDefine | Interpreter/Environment.cs:29-46 | after a definition the name reads back as the new value, and every other name reads as before |
| Environment.ClearUnbindsAll | Interpreter/Environment.cs:24-27 | clearing the global scope leaves no name bound |
| Interpreter.ApplyUnary | Interpreter/Interpreter.cs:240-254 | `-` fails exactly on a non-number and otherwise yields its negation; `!` yields the opposite of truthiness |
| Interpreter.ApplyBinary | Interpreter/Interpreter.cs:186-228 | the comparisons and `- * /` fail exactly when an operand is not a number, and on two numbers give what `Arithmetic` computes; `+` succeeds exactly on two numbers (adding) or two strings (concatenating); `==` and `!=` never fail; any other operator gives null |
| Interpreter.Arithmetic | Interpreter/Interpreter.cs:193-217 | on two numbers `>`, `>=`, `<` and `<=` give the comparison of the left operand with the right one, `-` and `*` their difference and product, and `/` their quotient, failing exactly on a zero divisor |
| InterpreterProperties.ComparisonsAgree | Interpreter/Interpreter.cs:193-204 | on any two numbers `<` is `>` with the operands swapped, and `<=` and `>=` are the negations of `>` and `<` |
| InterpreterProperties.SumAndProductCommute | Interpreter/Interpreter.cs:215-220 | on any two numbers `+` and `*` give the same result in either operand order |
| InterpreterProperties.DifferenceSwapNegates | Interpreter/Interpreter.cs:209-211 | on any two numbers `-` with the operands swapped gives the unary negation of the difference |
| Interpreter.BindParams | Interpreter/AST/FunctionObject.cs:24-34 | binding the parameters succeeds exactly when their names are distinct, and then binds exactly those names |
| Interpreter.BindParamsBinds | Interpreter/AST/FunctionObject.cs:27-30 | parameter `i` is bound to argument `i` |
| Interpreter.DistinctMeansNoRepeats | Interpreter/AST/FunctionObject.cs:27-30 | parameters bind without a duplicate-key failure exactly when no two of them have the same name |
| Interpreter.Eval | Interpreter/Interpreter.cs:186-303 | evaluating an expression binds or removes no name in any scope and never rewinds the object counter |
| Interpreter.Invoke | Interpreter/AST/FunctionObject.cs:24-34 | a call leaves the caller's non-global scopes exactly as they were; only the global scope can change, and only in its values |
| Interpreter.ExecBlock | Interpreter/Interpreter.cs:108-124 | a block's declarations vanish with its scope: afterwards the caller's scopes bind the same names as before |
| Interpreter.Exec | Interpreter/Interpreter.cs:127-181 | a statement can add names only to the innermost scope and never removes one |
| Interpreter.Restart | Interpreter/Interpreter.cs:27-34 | the scope chain becomes the single native scope: `clock`, `write` and `writeLine` bound to three new function objects numbered from the counter, which moves on by three |
| Interpreter.Interpret | Interpreter/Interpreter.cs:73-84 | the run keeps the single global scope, and the error flag ends up set exactly when it was set before or the program stopped on a runtime error |
| InterpreterProperties.ShortCircuitSkipsRight | Interpreter/Interpreter.cs:289-303 | when the left operand decides `or`/`and`, the result is the left operand's value and the right operand is never evaluated |
| InterpreterProperties.OrIsDisjunction | Interpreter/Interpreter.cs:289-303 | an `or` is truthy exactly when its left operand is, or else its right operand is; a truthy left operand is returned as is, and otherwise the result is exactly the right operand's outcome, evaluated in the state the left one left behind |
| InterpreterProperties.AndIsConjunction | Interpreter/Interpreter.cs:289-303 | an `and` is truthy exactly when both operands are; a falsy left operand is returned as is, and otherwise the result is exactly the right operand's outcome, evaluated in the state the left one left behind |
| InterpreterProperties.EqualityOperators | Interpreter/Interpreter.cs:205-208 | `==` is symmetric and `!=` is always its negation |
| InterpreterProperties.ArityMismatchNamesBothCounts | Interpreter/Interpreter.cs:270-271 | the arity error's message determines both the expected and the actual count, and ends in the actual count |
| InterpreterProperties.VarDeclares | Interpreter/Interpreter.cs:149-156 | `var x = e;` binds `x` to the value of `e`, and `var x;` binds it to null, unless the innermost scope already binds `x`, which raises a duplicate-key error |
| InterpreterProperties.BlockForgetsDeclarations | Interpreter/Interpreter.cs:158-162 | a name unbound before a block is unbound after it |
| InterpreterProperties.WhileIsIfThenLoop | Interpreter/Interpreter.cs:132-139 | one round of `while (cond) body` agrees with `if (cond) body`: a falsy condition runs nothing and ends both where the condition left the state, an abrupt end of the condition or body ends both alike, and after a normal body the loop goes on from the state the `if` leaves (one unit of fuel less, or out of fuel when none is left) |
| InterpreterProperties.FunctionDeclares | Interpreter/Interpreter.cs:176-181 | a function declaration binds its name to a new function object whose arity is its parameter count |
| InterpreterProperties.EachDeclarationIsANewObject | Interpreter/Interpreter.cs:176-181 | executing the same declaration twice creates two function objects that are not equal |
| InterpreterProperties.CallsYieldNull | Interpreter/AST/FunctionObject.cs:24-34 | every call that completes returns null, except `clock`, which returns the clock |
| InterpreterProperties.CallIgnoresCallerScopes | Interpreter/AST/FunctionObject.cs:24-34 | two calls whose callers agree on the global scope, the object counter, the clock and the error flag return the same value or signal and leave the same global scope, counter and flag, whatever the callers' other scopes hold |
| InterpreterProperties.CallChecksAfterArguments | Interpreter/Interpreter.cs:256-275 | the callee and all arguments are evaluated first; then a non-function fails with "Can only call functions." and a wrong argument count fails with the arity error |
| InterpreterProperties.LiteralCalleeRunsArgumentsThenFails | Interpreter/Interpreter.cs:256-275 | calling a literal always ends in an error, but only after every argument has run, so the arguments' effects (an assignment in `"s"(a = 1)`) stay in effect; when the arguments complete the error is "Can only call functions." at the closing parenthesis |
| InterpreterProperties.ExecAllAppend | Interpreter/Interpreter.cs:73-84 | running two statement lists in sequence is running the first, then the second unless the first stopped |
| InterpreterProperties.RuntimeErrorStopsProgram | Interpreter/Interpreter.cs:73-84 | the first runtime error stops the program, keeps the effects before it, and sets the error flag |
| InterpreterProperties.RestartForgetsGlobals | Interpreter/Interpreter.cs:27-34 | after a restart only the three natives are bound, each as a new object |

## Left out

- Numbers are exact reals rather than IEEE doubles. `Double.Parse` of a lexeme is its exact decimal value.
- Division by zero stops evaluation with a `NonFinite` signal instead of producing an infinity or NaN.
- `double.ToString` is a parameter (`formatNumber`) of `Stringify` and of token rendering.
- Values.StringifyNumber: states only the trailing-`.0` rule, because the host's number formatting is not modelled.
- Non-termination is bounded by fuel. The evaluator takes a `fuel` argument that only user-function calls and loop iterations spend, and it stops with `OutOfFuel` when the fuel runs out. A program that would run longer is not modelled past that point.
- Host stack overflow from deep recursion is not modelled.
- The output of `print`, `write` and `writeLine` is not modelled. In the code, `print` has its output commented out and the two natives only return null, so the model evaluates their arguments and has no other effect.
- The wall clock is a field of `State` that `clock` returns unchanged.
- Interpreter.Eval: the contract does not state that the object counter only counts up to ids not yet in use.
- The evaluator is not proved to be monotone in fuel.
- `Stringify` is modelled, but the interpreter never calls it, because printing is disabled.
- The parser's `Previous`/`Next`/`Peek` cursor helpers are folded into explicit token positions.
- The visitor interfaces `IExpressionVisitor`, `IStatementVisitor` and `ICallable`, and the `Accept` dispatch, carry no behaviour. They become exhaustive `match` expressions.
- The `Regex`-based character tests are plain character predicates.
- The unused `IsOperator` and `IsPunctuation` helpers are not modelled.
- Characters are Unicode scalar values, while a C# `char` is a UTF-16 code unit. A character outside the Basic Multilingual Plane is one column here and two in the code, and an unknown such character is named whole in the input error instead of as its first surrogate.
- A read past the end of the token list raises `ArgumentOutOfRangeException` in the code, not `IndexOutOfRangeException`. Both are the one `IndexOutOfRange` error here, described with the string's message. Only `Synchronize`, started at EOF, makes that read, and the parser never calls it.
- Reporting errors to the console is not modelled. `ErrorThrower` only formats the message, and the runtime-error handler only sets the flag, which is a field of `State`.

=== FILE: ast.dfy ===
/** The syntax tree: eight expression kinds and seven statement kinds, all
    immutable. The visitor double dispatch of the C# code becomes an
    exhaustive `match` on these datatypes. */
module Ast {
  import opened Tokens

  /** An optional child: the else branch of an `if`, the initializer of a
      `var`. */
  datatype Option<+T> = None | Some(value: T)

  datatype Expr =
    | Assign(name: Token, value: Expr)
    | Binary(left: Expr, op: Token, right: Expr)
    | Unary(op: Token, right: Expr)
    /** A call keeps its arguments in source order and the closing
        parenthesis, whose line is reported by call errors. */
    | Call(callee: Expr, paren: Token, args: seq<Expr>)
    | Grouping(inner: Expr)
    | Literal(lit: Lit)
    | Variable(name: Token)
    | Logical(left: Expr, op: Token, right: Expr)

  datatype Stmt =
    | Block(statements: seq<Stmt>)
    | ExpressionStatement(expr: Expr)
    | Print(expr: Expr)
    | Function(name: Token, params: seq<Token>, body: seq<Stmt>)
    | If(cond: Expr, thenBranch: Stmt, elseBranch: Option<Stmt>)
    | Var(name: Token, init: Option<Expr>)
    | While(cond: Expr, loopBody: Stmt)

  /** The most arguments a call, or parameters a function, may have. */
  const MaxArity := 255

  /** Operator kinds of `Binary` nodes, by precedence level. */
  const EqualityOps: set<Kind> := {ExclamationEqual, EqualEqual}
  const ComparisonOps: set<Kind> := {Greater, GreaterEqual, Less, LessEqual}
  const TermOps: set<Kind> := {Plus, Minus}
  const FactorOps: set<Kind> := {Star, Slash}
  const UnaryOps: set<Kind> := {Exclamation, Minus}

  /** The shapes the parser builds: operators of the right kinds, names that
      are identifiers, and at most `MaxArity` arguments per call. */
  predicate ValidExpr(e: Expr) {
    match e
    case Assign(name, value) => name.kind == Identifier && ValidExpr(value)
    case Binary(l, op, r) =>
      && op.kind in EqualityOps + ComparisonOps + TermOps + FactorOps
      && ValidExpr(l) && ValidExpr(r)
    case Unary(op, r) => op.kind in UnaryOps && ValidExpr(r)
    case Call(callee, paren, args) =>
      && paren.kind == RightParenthesis && |args| <= MaxArity
      && ValidExpr(callee) && (forall a :: a in args ==> ValidExpr(a))
    case Grouping(inner) => ValidExpr(inner)
    case Literal(_) => true
    case Variable(name) => name.kind == Identifier
    case Logical(l, op, r) => op.kind in {Kind.Or, Kind.And} && ValidExpr(l) && ValidExpr(r)
  }

  predicate ValidStmt(s: Stmt) {
    match s
    case Block(body) => forall b :: b in body ==> ValidStmt(b)
    case ExpressionStatement(e) => ValidExpr(e)
    case Print(e) => ValidExpr(e)
    case Function(name, params, body) =>
      && name.kind == Identifier
      && |params| <= MaxArity && (forall p :: p in params ==> p.kind == Identifier)
      && (forall b :: b in body ==> ValidStmt(b))
    case If(c, t, e) => ValidExpr(c) && ValidStmt(t) && (e.Some? ==> ValidStmt(e.value))
    case Var(name, init) => name.kind == Identifier && (init.Some? ==> ValidExpr(init.value))
    case While(c, b) => ValidExpr(c) && ValidStmt(b)
  }

  predicate ValidStmts(ss: seq<Stmt>) {
    forall s :: s in ss ==> ValidStmt(s)
  }
}

=== FILE: diagnostics.dfy ===
/** The failures a stage can end in: the three error kinds the interpreter
    reports itself (input, syntax, runtime), and the two host exceptions the
    code lets escape (a read past the end of a string or list, and a
    duplicate key added to a dictionary). */
module Diagnostics {
  import Text
  import opened Tokens

  datatype Error =
    /** A lexical error with the position the scanner was at. */
    | InputError(message: string, line: nat, column: nat)
    /** A syntax error at a token. */
    | SyntaxError(token: Token, message: string)
    /** A runtime error carrying the offending token for position reporting. */
    | RuntimeError(token: Token, message: string)
    /** A read past the end: of the input string (IndexOutOfRangeException)
        or of the token list (ArgumentOutOfRangeException). The two are one
        error here, and `Describe` gives the string's message for both. */
    | IndexOutOfRange
    /** ArgumentException from Dictionary.Add: the name is already bound in
        that scope. */
    | DuplicateKey(name: string)

  /** A stage's result: a value, or the failure that ended it. */
  datatype Result<+T> = Ok(value: T) | Err(error: Error) {
    predicate IsFailure() {
      Err?
    }

    function PropagateFailure<U>(): Result<U>
      requires Err?
    {
      Err(error)
    }

    function Extract(): T
      requires Ok?
    {
      value
    }
  }

  /** The text of the exception each error raises: syntax errors add the
      token's line, input errors the line and column. A runtime error is only
      recorded, so its text is its message. */
  function Describe(e: Error): string {
    match e
    case InputError(m, l, c) =>
      m + " (line: " + Text.NatToString(l) + ", column: " + Text.NatToString(c) + ")"
    case SyntaxError(t, m) => m + " (line: " + Text.NatToString(t.line) + ")"
    case RuntimeError(_, m) => m
    case IndexOutOfRange => "Index was outside the bounds of the array."
    case DuplicateKey(n) => "An item with the same key has already been added. Key: " + n
  }

  /** The number written just before the closing parenthesis of a message. */
  function NumberBeforeParen(s: string): nat {
    if |s| > 0 && s[|s| - 1] == ')' then Text.TrailingNumber(s[..|s| - 1]) else 0
  }

  /** A syntax error's text ends with the line of the token it was raised at,
      so the position survives the conversion to an exception message. */
  lemma SyntaxErrorReportsLine(t: Token, m: string)
    ensures NumberBeforeParen(Describe(SyntaxError(t, m))) == t.line
  {
    var p := m + " (line: ";
    var s := Describe(SyntaxError(t, m));
    assert s == p + Text.NatToString(t.line) + ")";
    assert s[..|s| - 1] == p + Text.NatToString(t.line);
    Text.TrailingNumberOfRendered(p, t.line);
  }

  /** An input error's text ends with the column it was raised at. */
  lemma InputErrorReportsColumn(m: string, line: nat, column: nat)
    ensures NumberBeforeParen(Describe(InputError(m, line, column))) == column
  {
    var p := m + " (line: " + Text.NatToString(line) + ", column: ";
    var s := Describe(InputError(m, line, column));
    assert s == p + Text.NatToString(column) + ")";
    assert s[..|s| - 1] == p + Text.NatToString(column);
    Text.TrailingNumberOfRendered(p, column);
  }
}

=== FILE: environment.dfy ===
/** The scope chain. Environments are linked to their enclosing one, and
    since no function value keeps its defining environment alive, the chain
    visible at any point is a stack: `chain[0]` is the innermost scope and
    the last element is the global scope. Names are looked up by lexeme. */
module Environment {
  import opened Tokens
  import opened Diagnostics
  import opened Values

  type Scope = map<string, Value>
  type Chain = seq<Scope>

  /** The position of the innermost scope binding `name`, if any. */
  function Binder(chain: Chain, name: string): (k: int)
    ensures -1 <= k < |chain|
    ensures k >= 0 ==> name in chain[k]
    ensures forall j :: 0 <= j < |chain| && (k < 0 || j < k) ==> name !in chain[j]
  {
    if chain == [] then -1
    else if name in chain[0] then 0
    else
      var k := Binder(chain[1..], name);
      if k < 0 then -1 else k + 1
  }

  /** The error a lookup or assignment of an unbound name raises. */
  function Undefined(name: Token): Error {
    RuntimeError(name, "Undefined variable '" + name.lexeme + "'.")
  }

  /** Binds `name` in the innermost scope; `Dictionary.Add` throws when that
      scope already binds it. */
  function Define(chain: Chain, name: string, v: Value): (r: Result<Chain>)
    requires |chain| > 0
    ensures r.Err? <==> name in chain[0]
    ensures r.Err? ==> r.error == DuplicateKey(name)
    ensures r.Ok? ==> |r.value| == |chain| && r.value[0] == chain[0][name := v]
    ensures r.Ok? ==> forall i :: 1 <= i < |chain| ==> r.value[i] == chain[i]
  {
    if name in chain[0] then Err(DuplicateKey(name)) else Ok(chain[0 := chain[0][name := v]])
  }

  /** The value bound to `name` in the innermost scope that binds it. */
  function Get(chain: Chain, name: Token): (r: Result<Value>)
    ensures r.Err? ==> r.error == Undefined(name)
  {
    var k := Binder(chain, name.lexeme);
    if k < 0 then Err(Undefined(name)) else Ok(chain[k][name.lexeme])
  }

  /** Rebinds `name` in the innermost scope that binds it; never creates a
      binding. */
  function Assign(chain: Chain, name: Token, v: Value): (r: Result<Chain>)
    ensures r.Err? ==> r.error == Undefined(name)
    ensures r.Ok? ==> |r.value| == |chain| && forall i :: 0 <= i < |chain| ==> r.value[i].Keys == chain[i].Keys
  {
    var k := Binder(chain, name.lexeme);
    if k < 0 then Err(Undefined(name)) else Ok(chain[k := chain[k][name.lexeme := v]])
  }

  /** Empties the innermost scope and keeps the ones around it. */
  function Clear(chain: Chain): (r: Chain)
    requires |chain| > 0
    ensures |r| == |chain| && r[0] == map[] && r[1..] == chain[1..]
  {
    chain[0 := map[]]
  }

  /* ---------------- properties ---------------- */

  /** Lookup fails exactly when no scope binds the name, and otherwise
      returns the binding of the innermost scope that has one. */
  lemma GetFindsInnermost(chain: Chain, name: Token)
    ensures Get(chain, name).Err? <==> forall i :: 0 <= i < |chain| ==> name.lexeme !in chain[i]
    ensures forall k ::
      (0 <= k < |chain| && name.lexeme in chain[k] && forall j :: 0 <= j < k ==> name.lexeme !in chain[j])
      ==> Get(chain, name) == Ok(chain[k][name.lexeme])
  {
    var k := Binder(chain, name.lexeme);
    forall k' | 0 <= k' < |chain| && name.lexeme in chain[k'] && (forall j :: 0 <= j < k' ==> name.lexeme !in chain[j])
      ensures Get(chain, name) == Ok(chain[k'][name.lexeme])
    {
      assert k >= 0 && k == k';
    }
  }

  /** Assignment fails exactly when lookup does; otherwise it changes only
      the innermost scope binding the name, binds no new name anywhere, and
      a following lookup sees the new value. */
  lemma AssignUpdatesInnermost(chain: Chain, name: Token, v: Value)
    ensures Assign(chain, name, v).Err? <==> Get(chain, name).Err?
    ensures Assign(chain, name, v).Ok? ==>
      var r := Assign(chain, name, v).value;
      var k := Binder(chain, name.lexeme);
      && |r| == |chain|
      && r[k] == chain[k][name.lexeme := v]
      && (forall i :: 0 <= i < |chain| && i != k ==> r[i] == chain[i])
      && (forall i :: 0 <= i < |chain| ==> r[i].Keys == chain[i].Keys)
      && Get(r, name) == Ok(v)
  {
    if Assign(chain, name, v).Ok? {
      var r := Assign(chain, name, v).value;
      var k := Binder(chain, name.lexeme);
      GetFindsInnermost(r, name);
      assert forall j :: 0 <= j < k ==> name.lexeme !in r[j];
    }
  }

  /** After a successful definition the name reads back as the defined
      value, and every other name reads as before. */
  lemma GetAfterDefine(chain: Chain, name: Token, v: Value, other: Token)
    requires |chain| > 0 && Define(chain, name.lexeme, v).Ok?
    ensures Get(Define(chain, name.lexeme, v).value, name) == Ok(v)
    ensures other.lexeme != name.lexeme ==>
      Get(Define(chain, name.lexeme, v).value, other) == Get(chain, other)
  {
    var r := Define(chain, name.lexeme, v).value;
    GetFindsInnermost(r, name);
    if other.lexeme != name.lexeme {
      assert Binder(r, other.lexeme) == Binder(chain, other.lexeme) by {
        BinderOfSameNames(chain, r, other.lexeme);
      }
    }
  }

  /** Two chains that agree on which scopes bind `name` agree on its binder. */
  lemma {:induction false} BinderOfSameNames(a: Chain, b: Chain, name: string)
    requires |a| == |b| && forall i :: 0 <= i < |a| ==> (name in a[i] <==> name in b[i])
    ensures Binder(a, name) == Binder(b, name)
    decreases |a|
  {
    if a != [] && name !in a[0] {
      BinderOfSameNames(a[1..], b[1..], name);
    }
  }

  /** Clearing the global scope of a one-scope chain leaves no name bound. */
  lemma ClearUnbindsAll(chain: Chain, name: Token)
    requires |chain| == 1
    ensures Get(Clear(chain), name) == Err(Undefined(name))
  {
    assert Binder(Clear(chain), name.lexeme) == -1 by {
      assert name.lexeme !in Clear(chain)[0];
    }
  }
}

=== FILE: input_stream.dfy ===
/** The character cursor the scanner reads from: a position into the input
    plus the line and column counters that follow it. */
module InputStream {

  datatype Stream = Stream(input: string, position: nat, line: nat, column: nat)

  /** A fresh cursor: position 0, line 1, column 0. */
  function Start(input: string): (s: Stream)
    ensures Valid(s)
  {
    Stream(input, 0, 1, 0)
  }

  /** Number of newline characters in `s`. */
  ghost function Newlines(s: string): nat {
    if s == [] then 0 else Newlines(s[..|s| - 1]) + (if s[|s| - 1] == '\n' then 1 else 0)
  }

  /** Number of characters after the last newline of `s` (all of `s` if it
      has none). */
  ghost function CharsSinceNewline(s: string): nat {
    if s == [] then 0
    else if s[|s| - 1] == '\n' then 0
    else CharsSinceNewline(s[..|s| - 1]) + 1
  }

  /** The position is within the input (at most one past the last character). */
  predicate InBounds(s: Stream) {
    s.position <= |s.input|
  }

  /** The cursor invariant: the position is within the input, the line is one
      more than the newlines consumed, and the column counts the characters
      consumed since the last newline. */
  ghost predicate Valid(s: Stream) {
    && s.position <= |s.input|
    && s.line == 1 + Newlines(s.input[..s.position])
    && s.column == CharsSinceNewline(s.input[..s.position])
  }

  /** Whether every character has been consumed. */
  function Eof(s: Stream): bool {
    s.position >= |s.input|
  }

  /** The character under the cursor; reading it past the end is an
      IndexOutOfRangeException, which callers test for with `Eof` first. */
  function Peek(s: Stream): char
    requires !Eof(s)
  {
    s.input[s.position]
  }

  /** The character after the one under the cursor, or NUL when there is none. */
  function PeekNext(s: Stream): char {
    if s.position + 1 >= |s.input| then '\0' else s.input[s.position + 1]
  }

  /** Consumes the character under the cursor: a newline moves to the next
      line and resets the column, anything else moves one column right. */
  function Next(s: Stream): (r: (char, Stream))
    requires !Eof(s)
    ensures r.0 == s.input[s.position]
    ensures r.1.input == s.input && r.1.position == s.position + 1 && InBounds(r.1)
    ensures r.0 == '\n' ==> r.1.line == s.line + 1 && r.1.column == 0
    ensures r.0 != '\n' ==> r.1.line == s.line && r.1.column == s.column + 1
  {
    var ch := s.input[s.position];
    if ch == '\n' then (ch, s.(position := s.position + 1, line := s.line + 1, column := 0))
    else (ch, s.(position := s.position + 1, column := s.column + 1))
  }

  /** `Next` keeps the cursor invariant. */
  lemma NextPreservesValid(s: Stream)
    requires Valid(s) && !Eof(s)
    ensures Valid(Next(s).1)
  {
    var t := Next(s).1;
    assert t.input[..t.position][..s.position] == s.input[..s.position];
  }

  /** `PeekNext` looks one character further than `Peek`: it sees what
      `Peek` would see after one `Next`, and NUL exactly when nothing is left
      after the current character. */
  lemma PeekNextIsPeekAfterNext(s: Stream)
    requires !Eof(s)
    ensures !Eof(Next(s).1) ==> PeekNext(s) == Peek(Next(s).1)
    ensures Eof(Next(s).1) <==> s.position + 1 >= |s.input|
    ensures Eof(Next(s).1) ==> PeekNext(s) == '\0'
  {
  }

  /** Under the invariant, the cursor is at the end exactly when the
      unconsumed remainder is empty. */
  lemma EofIffNothingLeft(s: Stream)
    requires Valid(s)
    ensures Eof(s) <==> s.input[s.position..] == []
  {
  }
}

=== FILE: interpreter.dfy ===
/** The tree-walking evaluator. Evaluation is a function from a tree and an
    interpreter state to an outcome: either a value and the state after it,
    or an abrupt stop (a thrown error) together with the state reached when
    it was thrown, since assignments and definitions made before an error
    stay in effect. A `fuel` budget, spent on every user function call and
    every loop iteration, makes the evaluator total; running out of it is a
    signal of its own that no run of the C# interpreter can produce. */
module Interpreter {
  import Text
  import opened Tokens
  import opened Diagnostics
  import opened Ast
  import opened Values
  import opened Environment

  /** The interpreter's state: the scope chain visible now (last element:
      the global scope), the number the next function object will get, the
      reading `clock()` returns, and the runtime error flag. */
  datatype State = State(scopes: Chain, nextId: nat, clock: int, hadRuntimeError: bool)

  /** Why evaluation stopped early: a thrown error; a division by zero,
      whose infinite or NaN double the model does not represent; or an
      exhausted fuel budget. */
  datatype Signal = Thrown(error: Error) | NonFinite | OutOfFuel

  datatype Outcome<+T> = Normal(value: T, state: State) | Abrupt(signal: Signal, state: State)

  /** The result of applying an operator to values that are already known. */
  datatype Try<+T> = Success(value: T) | Failure(signal: Signal)

  /** Two chains of the same depth whose scopes bind the same names. */
  predicate SameNames(a: Chain, b: Chain) {
    |a| == |b| && forall i :: 0 <= i < |a| ==> a[i].Keys == b[i].Keys
  }

  /** `b` is `a` with possibly more names in the innermost scope. */
  predicate GrowsInnermost(a: Chain, b: Chain) {
    && |a| == |b| && |a| > 0
    && a[0].Keys <= b[0].Keys
    && forall i :: 1 <= i < |a| ==> a[i].Keys == b[i].Keys
  }

  /** What evaluating an expression may change: the values of bound names
      and the allocation counter, which only grows. */
  predicate EvalFrame(st: State, st': State) {
    && SameNames(st.scopes, st'.scopes)
    && st.nextId <= st'.nextId
    && st'.clock == st.clock && st'.hadRuntimeError == st.hadRuntimeError
  }

  /** What executing a statement may change: additionally, it may bind new
      names in the innermost scope. */
  predicate ExecFrame(st: State, st': State) {
    && GrowsInnermost(st.scopes, st'.scopes)
    && st.nextId <= st'.nextId
    && st'.clock == st.clock && st'.hadRuntimeError == st.hadRuntimeError
  }

  function OperandsMustBeNumbers(op: Token): Signal {
    Thrown(RuntimeError(op, "Operands must be numbers."))
  }

  /** Unary operators: `-` negates a number, `!` negates truthiness, and any
      other operator gives null. */
  function ApplyUnary(op: Token, v: Value): (r: Try<Value>)
    ensures op.kind == Minus ==>
      (r.Failure? <==> !v.Num?) &&
      (r.Failure? ==> r.signal == Thrown(RuntimeError(op, "Operand must be a number."))) &&
      (r.Success? ==> r.value.Num? && r.value.n + v.n == 0.0)
    ensures op.kind == Minus && v.Num? ==> r == Success(Num(-v.n))
    ensures op.kind == Exclamation ==> r == Success(Bool(!IsTruthy(v)))
    ensures op.kind !in {Minus, Exclamation} ==> r == Success(Nil)
  {
    match op.kind
    case Minus => if v.Num? then Success(Num(-v.n)) else Failure(Thrown(RuntimeError(op, "Operand must be a number.")))
    case Exclamation => Success(Bool(!IsTruthy(v)))
    case _ => Success(Nil)
  }

  /** The arithmetic and comparison operators on two numbers: each computes
      its operation on the operands, left operand first, and only `/` can
      fail, on a zero divisor. */
  function Arithmetic(op: Token, x: real, y: real): (r: Try<Value>)
    requires op.kind in NumericOps
    ensures op.kind == Greater ==> r == Success(Bool(x > y))
    ensures op.kind == GreaterEqual ==> r == Success(Bool(x >= y))
    ensures op.kind == Less ==> r == Success(Bool(x < y))
    ensures op.kind == LessEqual ==> r == Success(Bool(x <= y))
    ensures op.kind == Minus ==> r == Success(Num(x - y))
    ensures op.kind == Star ==> r == Success(Num(x * y))
    ensures op.kind == Slash ==> (r == Failure(NonFinite) <==> y == 0.0)
    ensures op.kind == Slash && y != 0.0 ==> r == Success(Num(x / y))
  {
    match op.kind
    case Greater => Success(Bool(x > y))
    case GreaterEqual => Success(Bool(x >= y))
    case Less => Success(Bool(x < y))
    case LessEqual => Success(Bool(x <= y))
    case Minus => Success(Num(x - y))
    case Star => Success(Num(x * y))
    case _ => if y == 0.0 then Failure(NonFinite) else Success(Num(x / y))
  }

  const NumericOps: set<Kind> := {Greater, GreaterEqual, Less, LessEqual, Minus, Star, Slash}

  /** Binary operators on evaluated operands. */
  function ApplyBinary(op: Token, a: Value, b: Value): (r: Try<Value>)
    ensures op.kind in NumericOps ==>
      (!(a.Num? && b.Num?) <==> r == Failure(OperandsMustBeNumbers(op)))
    ensures op.kind == Plus ==>
      (r.Success? <==> (a.Num? && b.Num?) || (a.Str? && b.Str?)) &&
      (r.Failure? ==> r.signal == Thrown(RuntimeError(op, "Operands must be two numbers or two strings."))) &&
      (a.Str? && b.Str? ==> r == Success(Str(a.s + b.s))) &&
      (a.Num? && b.Num? ==> r == Success(Num(a.n + b.n)))
    ensures op.kind == EqualEqual ==> r == Success(Bool(IsEqual(a, b)))
    ensures op.kind == ExclamationEqual ==> r == Success(Bool(!IsEqual(a, b)))
    ensures op.kind == Slash && a.Num? && b.Num? ==> (r == Failure(NonFinite) <==> b.n == 0.0)
    ensures op.kind in NumericOps && a.Num? && b.Num? ==> r == Arithmetic(op, a.n, b.n)
    ensures op.kind !in NumericOps + {Plus, EqualEqual, ExclamationEqual} ==> r == Success(Nil)
  {
    if op.kind in NumericOps then
      if a.Num? && b.Num? then Arithmetic(op, a.n, b.n) else Failure(OperandsMustBeNumbers(op))
    else
      match op.kind
      case ExclamationEqual => Success(Bool(!IsEqual(a, b)))
      case EqualEqual => Success(Bool(IsEqual(a, b)))
      case Plus =>
        if a.Num? && b.Num? then Success(Num(a.n + b.n))
        else if a.Str? && b.Str? then Success(Str(a.s + b.s))
        else Failure(Thrown(RuntimeError(op, "Operands must be two numbers or two strings.")))
      case _ => Success(Nil)
  }

  /** The error a call with the wrong number of arguments raises. */
  function ArityMismatch(paren: Token, arity: nat, count: nat): Error {
    RuntimeError(paren, "Expected " + Text.NatToString(arity) + " arguments but got " + Text.NatToString(count))
  }

  /** The names of a parameter list. */
  function Names(params: seq<Token>): set<string> {
    set p | p in params :: p.lexeme
  }

  /** No parameter repeats the name of one before it. */
  predicate Distinct(params: seq<Token>)
    decreases |params|
  {
    params == [] ||
      var n := |params| - 1;
      Distinct(params[..n]) && params[n].lexeme !in Names(params[..n])
  }

  /** The scope a user function's body starts in: each parameter defined,
      in order, to the argument at the same position. Defining a parameter
      name twice throws, as `Dictionary.Add` does. */
  function BindParams(params: seq<Token>, args: seq<Value>): (r: Result<Scope>)
    requires |params| == |args|
    ensures r.Ok? <==> Distinct(params)
    ensures r.Ok? ==> r.value.Keys == Names(params)
    ensures r.Err? ==> r.error.DuplicateKey?
    decreases |params|
  {
    if params == [] then Ok(map[])
    else
      var n := |params| - 1;
      var p := params[n].lexeme;
      match BindParams(params[..n], args[..n])
      case Err(err) => Err(err)
      case Ok(earlier) =>
        if p in earlier then Err(DuplicateKey(p))
        else
          assert Names(params) == Names(params[..n]) + {p} by {
            assert params == params[..n] + [params[n]];
          }
          Ok(earlier[p := args[n]])
  }

  /** Each parameter is bound to the argument at its position. */
  lemma {:induction false} BindParamsBinds(params: seq<Token>, args: seq<Value>)
    requires |params| == |args| && Distinct(params)
    ensures forall i :: 0 <= i < |params| ==> BindParams(params, args).value[params[i].lexeme] == args[i]
    decreases |params|
  {
    if params != [] {
      var n := |params| - 1;
      BindParamsBinds(params[..n], args[..n]);
      var earlier := BindParams(params[..n], args[..n]).value;
      var scope := BindParams(params, args).value;
      assert scope == earlier[params[n].lexeme := args[n]];
      forall i | 0 <= i < n
        ensures scope[params[i].lexeme] == args[i]
      {
        assert params[..n][i] == params[i] && args[..n][i] == args[i];
        assert params[i].lexeme in Names(params[..n]);
      }
    }
  }

  /** `Distinct` says that no two parameters share a name. */
  lemma {:induction false} DistinctMeansNoRepeats(params: seq<Token>)
    ensures Distinct(params) <==> forall i, j :: 0 <= i < j < |params| ==> params[i].lexeme != params[j].lexeme
    decreases |params|
  {
    if params != [] {
      var n := |params| - 1;
      DistinctMeansNoRepeats(params[..n]);
      assert forall i :: 0 <= i < n ==> params[..n][i] == params[i];
      if params[n].lexeme in Names(params[..n]) {
        var q :| q in params[..n] && q.lexeme == params[n].lexeme;
        var i :| 0 <= i < n && params[..n][i] == q;
        assert params[i].lexeme == params[n].lexeme;
      }
    }
  }

  /* ---------------- expressions ---------------- */

  function Eval(e: Expr, st: State, fuel: nat): (r: Outcome<Value>)
    requires |st.scopes| > 0
    ensures EvalFrame(st, r.state)
    decreases fuel, 1, e, 1
  {
    match e
    case Literal(l) => Normal(FromLiteral(l), st)
    case Grouping(inner) => Eval(inner, st, fuel)
    case Variable(name) =>
      (match Get(st.scopes, name)
       case Ok(v) => Normal(v, st)
       case Err(err) => Abrupt(Thrown(err), st))
    case Assign(_, _) => EvalAssign(e, st, fuel)
    case Unary(_, _) => EvalUnary(e, st, fuel)
    case Binary(_, _, _) => EvalBinary(e, st, fuel)
    case Logical(_, _, _) => EvalLogical(e, st, fuel)
    case Call(_, _, _) => EvalCall(e, st, fuel)
  }

  /** Evaluates the value, then rebinds the name where it is bound; the
      assignment's value is the assigned value. */
  function EvalAssign(e: Expr, st: State, fuel: nat): (r: Outcome<Value>)
    requires e.Assign? && |st.scopes| > 0
    ensures EvalFrame(st, r.state)
    decreases fuel, 1, e, 0
  {
    match Eval(e.value, st, fuel)
    case Abrupt(sig, st1) => Abrupt(sig, st1)
    case Normal(v, st1) =>
      match Environment.Assign(st1.scopes, e.name, v)
      case Ok(scopes) => Normal(v, st1.(scopes := scopes))
      case Err(err) => Abrupt(Thrown(err), st1)
  }

  function EvalUnary(e: Expr, st: State, fuel: nat): (r: Outcome<Value>)
    requires e.Unary? && |st.scopes| > 0
    ensures EvalFrame(st, r.state)
    decreases fuel, 1, e, 0
  {
    match Eval(e.right, st, fuel)
    case Abrupt(sig, st1) => Abrupt(sig, st1)
    case Normal(v, st1) =>
      match ApplyUnary(e.op, v)
      case Success(w) => Normal(w, st1)
      case Failure(sig) => Abrupt(sig, st1)
  }

  /** Both operands are evaluated, left first, before the operator checks
      their types. */
  function EvalBinary(e: Expr, st: State, fuel: nat): (r: Outcome<Value>)
    requires e.Binary? && |st.scopes| > 0
    ensures EvalFrame(st, r.state)
    decreases fuel, 1, e, 0
  {
    match Eval(e.left, st, fuel)
    case Abrupt(sig, st1) => Abrupt(sig, st1)
    case Normal(a, st1) =>
      match Eval(e.right, st1, fuel)
      case Abrupt(sig, st2) => Abrupt(sig, st2)
      case Normal(b, st2) =>
        match ApplyBinary(e.op, a, b)
        case Success(v) => Normal(v, st2)
        case Failure(sig) => Abrupt(sig, st2)
  }

  /** `or` yields a truthy left operand and `and` a falsy one without
      evaluating the right operand; otherwise the value is the right
      operand's. */
  function EvalLogical(e: Expr, st: State, fuel: nat): (r: Outcome<Value>)
    requires e.Logical? && |st.scopes| > 0
    ensures EvalFrame(st, r.state)
    decreases fuel, 1, e, 0
  {
    match Eval(e.left, st, fuel)
    case Abrupt(sig, st1) => Abrupt(sig, st1)
    case Normal(a, st1) =>
      if (e.op.kind == Kind.Or) == IsTruthy(a) then Normal(a, st1)
      else Eval(e.right, st1, fuel)
  }

  /** Evaluates the callee and then every argument, left to right, and only
      then checks that the callee is callable with that many arguments. */
  function EvalCall(e: Expr, st: State, fuel: nat): (r: Outcome<Value>)
    requires e.Call? && |st.scopes| > 0
    ensures EvalFrame(st, r.state)
    decreases fuel, 1, e, 0
  {
    match Eval(e.callee, st, fuel)
    case Abrupt(sig, st1) => Abrupt(sig, st1)
    case Normal(f, st1) =>
      match EvalArgs(e.args, st1, fuel)
      case Abrupt(sig, st2) => Abrupt(sig, st2)
      case Normal(vs, st2) =>
        if !f.Fn? then Abrupt(Thrown(RuntimeError(e.paren, "Can only call functions.")), st2)
        else if |vs| != Arity(f.callable) then
          Abrupt(Thrown(ArityMismatch(e.paren, Arity(f.callable), |vs|)), st2)
        else Invoke(f.callable, vs, st2, fuel)
  }

  /** The arguments' values in order; stops at the first that fails. */
  function EvalArgs(args: seq<Expr>, st: State, fuel: nat): (r: Outcome<seq<Value>>)
    requires |st.scopes| > 0
    ensures EvalFrame(st, r.state)
    ensures r.Normal? ==> |r.value| == |args|
    decreases fuel, 1, args, 1
  {
    if args == [] then Normal([], st)
    else
      match Eval(args[0], st, fuel)
      case Abrupt(sig, st1) => Abrupt(sig, st1)
      case Normal(v, st1) =>
        match EvalArgs(args[1..], st1, fuel)
        case Abrupt(sig, st2) => Abrupt(sig, st2)
        case Normal(vs, st2) => Normal([v] + vs, st2)
  }

  /** Calls a callable with the right number of arguments. `clock()` reads
      the clock and the two output functions do nothing; a user function
      runs its body in a new scope holding its parameters whose parent is
      the global scope, and yields null. Whatever the body did to the
      global scope stays; every scope of the caller below the global one is
      untouched. */
  function Invoke(c: Callable, args: seq<Value>, st: State, fuel: nat): (r: Outcome<Value>)
    requires |args| == Arity(c) && |st.scopes| > 0
    ensures EvalFrame(st, r.state)
    ensures r.state.scopes[..|st.scopes| - 1] == st.scopes[..|st.scopes| - 1]
    decreases fuel, 0
  {
    match c
    case NativeFn(Clock) => Normal(Long(st.clock), st)
    case NativeFn(_) => Normal(Nil, st)
    case UserFn(_, params, body) =>
      match BindParams(params, args)
      case Err(err) => Abrupt(Thrown(err), st)
      case Ok(scope) =>
        if fuel == 0 then Abrupt(OutOfFuel, st)
        else
          var n := |st.scopes|;
          var inner := ExecAll(body, st.(scopes := [scope, st.scopes[n - 1]]), fuel - 1);
          var back := inner.state.(scopes := st.scopes[..n - 1] + [inner.state.scopes[1]]);
          match inner
          case Normal(_, _) => Normal(Nil, back)
          case Abrupt(sig, _) => Abrupt(sig, back)
  }

  /* ---------------- statements ---------------- */

  function Exec(s: Stmt, st: State, fuel: nat): (r: Outcome<()>)
    requires |st.scopes| > 0
    ensures ExecFrame(st, r.state)
    decreases fuel, 1, s, 1
  {
    match s
    case ExpressionStatement(e) => Discard(Eval(e, st, fuel))
    case Print(e) => Discard(Eval(e, st, fuel))
    case Var(_, _) => ExecVar(s, st, fuel)
    case Function(name, params, body) =>
      var f := Fn(UserFn(name, params, body), st.nextId);
      (match Define(st.scopes, name.lexeme, f)
       case Ok(scopes) => Normal((), st.(scopes := scopes, nextId := st.nextId + 1))
       case Err(err) => Abrupt(Thrown(err), st))
    case Block(body) => ExecBlock(body, st, fuel)
    case If(_, _, _) => ExecIf(s, st, fuel)
    case While(_, _) => ExecWhile(s, st, fuel)
  }

  /** An expression statement's value is dropped. */
  function Discard(r: Outcome<Value>): (r': Outcome<()>)
    ensures r'.state == r.state && r'.Normal? == r.Normal?
    ensures r.Abrupt? ==> r'.signal == r.signal
  {
    match r
    case Normal(_, st) => Normal((), st)
    case Abrupt(sig, st) => Abrupt(sig, st)
  }

  /** Defines the name in the innermost scope, to the initializer's value
      or to null. */
  function ExecVar(s: Stmt, st: State, fuel: nat): (r: Outcome<()>)
    requires s.Var? && |st.scopes| > 0
    ensures ExecFrame(st, r.state)
    decreases fuel, 1, s, 0
  {
    var init := if s.init.Some? then Eval(s.init.value, st, fuel) else Normal(Nil, st);
    match init
    case Abrupt(sig, st1) => Abrupt(sig, st1)
    case Normal(v, st1) =>
      match Define(st1.scopes, s.name.lexeme, v)
      case Ok(scopes) => Normal((), st1.(scopes := scopes))
      case Err(err) => Abrupt(Thrown(err), st1)
  }

  /** Runs the statements in a new innermost scope, which is dropped again
      however they end. */
  function ExecBlock(body: seq<Stmt>, st: State, fuel: nat): (r: Outcome<()>)
    requires |st.scopes| > 0
    ensures EvalFrame(st, r.state)
    decreases fuel, 1, body, 2
  {
    var inner := ExecAll(body, st.(scopes := [map[]] + st.scopes), fuel);
    var back := inner.state.(scopes := inner.state.scopes[1..]);
    match inner
    case Normal(_, _) => Normal((), back)
    case Abrupt(sig, _) => Abrupt(sig, back)
  }

  function ExecIf(s: Stmt, st: State, fuel: nat): (r: Outcome<()>)
    requires s.If? && |st.scopes| > 0
    ensures ExecFrame(st, r.state)
    decreases fuel, 1, s, 0
  {
    match Eval(s.cond, st, fuel)
    case Abrupt(sig, st1) => Abrupt(sig, st1)
    case Normal(c, st1) =>
      if IsTruthy(c) then Exec(s.thenBranch, st1, fuel)
      else if s.elseBranch.Some? then Exec(s.elseBranch.value, st1, fuel)
      else Normal((), st1)
  }

  /** Evaluates the condition and, while it is truthy, runs the body; each
      iteration costs one unit of fuel. */
  function ExecWhile(s: Stmt, st: State, fuel: nat): (r: Outcome<()>)
    requires s.While? && |st.scopes| > 0
    ensures ExecFrame(st, r.state)
    decreases fuel, 1, s, 0
  {
    match Eval(s.cond, st, fuel)
    case Abrupt(sig, st1) => Abrupt(sig, st1)
    case Normal(c, st1) =>
      if !IsTruthy(c) then Normal((), st1)
      else
        match Exec(s.loopBody, st1, fuel)
        case Abrupt(sig, st2) => Abrupt(sig, st2)
        case Normal(_, st2) =>
          if fuel == 0 then Abrupt(OutOfFuel, st2) else ExecWhile(s, st2, fuel - 1)
  }

  /** Runs statements in order and stops at the first that ends abruptly. */
  function ExecAll(ss: seq<Stmt>, st: State, fuel: nat): (r: Outcome<()>)
    requires |st.scopes| > 0
    ensures ExecFrame(st, r.state)
    decreases fuel, 1, ss, 1
  {
    if ss == [] then Normal((), st)
    else
      match Exec(ss[0], st, fuel)
      case Abrupt(sig, st1) => Abrupt(sig, st1)
      case Normal(_, st1) => ExecAll(ss[1..], st1, fuel)
  }

  /* ---------------- the interpreter object ---------------- */

  /** The global scope a new or restarted interpreter starts with: the three
      native functions, as new objects numbered from `id`. */
  function NativeScope(id: nat): Scope {
    map["clock" := Fn(NativeFn(Clock), id),
        "write" := Fn(NativeFn(Write), id + 1),
        "writeLine" := Fn(NativeFn(WriteLine), id + 2)]
  }

  /** Empties the global scope, makes it the current one again and defines
      the natives anew; the runtime error flag is left as it was. */
  function Restart(st: State): (r: State)
    requires |st.scopes| > 0
    ensures r.scopes == [NativeScope(st.nextId)]
    ensures |r.scopes| == 1 && r.scopes[0].Keys == {"clock", "write", "writeLine"}
    ensures r.nextId == st.nextId + 3
    ensures r.clock == st.clock && r.hadRuntimeError == st.hadRuntimeError
  {
    var cleared := Clear([st.scopes[|st.scopes| - 1]]);
    var withClock := Define(cleared, "clock", Fn(NativeFn(Clock), st.nextId)).value;
    var withWrite := Define(withClock, "write", Fn(NativeFn(Write), st.nextId + 1)).value;
    var withWriteLine := Define(withWrite, "writeLine", Fn(NativeFn(WriteLine), st.nextId + 2)).value;
    st.(scopes := withWriteLine, nextId := st.nextId + 3)
  }

  /** A new interpreter, given the clock reading its `clock()` returns. */
  function Start(clock: int): State {
    Restart(State([map[]], 0, clock, false))
  }

  /** Runs a program in the global scope. A runtime error stops it and sets
      the error flag, keeping what the statements before it did; any other
      abrupt end propagates. */
  function Interpret(program: seq<Stmt>, st: State, fuel: nat): (r: Outcome<()>)
    requires |st.scopes| == 1
    ensures |r.state.scopes| == 1 && st.scopes[0].Keys <= r.state.scopes[0].Keys
    ensures r.state.clock == st.clock && st.nextId <= r.state.nextId
    ensures var run := ExecAll(program, st, fuel);
      r.state.hadRuntimeError <==> st.hadRuntimeError || (run.Abrupt? && run.signal.Thrown? && run.signal.error.RuntimeError?)
  {
    match ExecAll(program, st, fuel)
    case Normal(_, st1) => Normal((), st1)
    case Abrupt(Thrown(RuntimeError(t, m)), st1) => Normal((), st1.(hadRuntimeError := true))
    case Abrupt(sig, st1) => Abrupt(sig, st1)
  }
}

=== FILE: interpreter_properties.dfy ===
/** What the evaluator guarantees across its operations: short-circuit
    evaluation, scoping of declarations, function objects and calls, and how
    a runtime error ends a program. */
module InterpreterProperties {
  import Text
  import opened Tokens
  import opened Diagnostics
  import opened Ast
  import opened Values
  import opened Environment
  import opened Interpreter

  /* ---------------- logical operators ---------------- */

  /** Once the left operand decides an `or` (truthy) or an `and` (falsy),
      the logical expression yields the left operand's value and state,
      whatever the right operand is: it is never evaluated. */
  lemma ShortCircuitSkipsRight(left: Expr, op: Token, r1: Expr, r2: Expr, st: State, fuel: nat)
    requires |st.scopes| > 0 && op.kind in {Kind.Or, Kind.And}
    requires Eval(left, st, fuel).Normal?
    requires (op.kind == Kind.Or) == IsTruthy(Eval(left, st, fuel).value)
    ensures Eval(Logical(left, op, r1), st, fuel) == Eval(left, st, fuel)
    ensures Eval(Logical(left, op, r1), st, fuel) == Eval(Logical(left, op, r2), st, fuel)
  {
    assert Eval(Logical(left, op, r1), st, fuel) == EvalLogical(Logical(left, op, r1), st, fuel);
    assert Eval(Logical(left, op, r2), st, fuel) == EvalLogical(Logical(left, op, r2), st, fuel);
  }

  /** A completed `or` is truthy exactly when its left operand is or its
      right operand, evaluated after the left one, is; a truthy left operand
      is the result, state and all, and otherwise the result is the right
      operand's. */
  lemma OrIsDisjunction(left: Expr, op: Token, right: Expr, st: State, fuel: nat)
    requires |st.scopes| > 0 && op.kind == Kind.Or
    requires Eval(Logical(left, op, right), st, fuel).Normal?
    ensures var l := Eval(left, st, fuel);
      && l.Normal?
      && (IsTruthy(Eval(Logical(left, op, right), st, fuel).value) <==>
          IsTruthy(l.value) || (Eval(right, l.state, fuel).Normal? && IsTruthy(Eval(right, l.state, fuel).value)))
    ensures var l := Eval(left, st, fuel);
      IsTruthy(l.value) ==> Eval(Logical(left, op, right), st, fuel) == l
    ensures var l := Eval(left, st, fuel);
      !IsTruthy(l.value) ==> Eval(Logical(left, op, right), st, fuel) == Eval(right, l.state, fuel)
  {
    assert Eval(Logical(left, op, right), st, fuel) == EvalLogical(Logical(left, op, right), st, fuel);
  }

  /** A completed `and` is truthy exactly when both operands are, the right
      one evaluated after the left one; a falsy left operand is the result,
      state and all, and otherwise the result is the right operand's. */
  lemma AndIsConjunction(left: Expr, op: Token, right: Expr, st: State, fuel: nat)
    requires |st.scopes| > 0 && op.kind == Kind.And
    requires Eval(Logical(left, op, right), st, fuel).Normal?
    ensures var l := Eval(left, st, fuel);
      && l.Normal?
      && (IsTruthy(Eval(Logical(left, op, right), st, fuel).value) <==>
          IsTruthy(l.value) && Eval(right, l.state, fuel).Normal? && IsTruthy(Eval(right, l.state, fuel).value))
    ensures var l := Eval(left, st, fuel);
      !IsTruthy(l.value) ==> Eval(Logical(left, op, right), st, fuel) == l
    ensures var l := Eval(left, st, fuel);
      IsTruthy(l.value) ==> Eval(Logical(left, op, right), st, fuel) == Eval(right, l.state, fuel)
  {
    assert Eval(Logical(left, op, right), st, fuel) == EvalLogical(Logical(left, op, right), st, fuel);
  }

  /* ---------------- operators ---------------- */

  /** `==` is symmetric and `!=` is its negation, on any two values. */
  lemma EqualityOperators(eq: Token, ne: Token, a: Value, b: Value)
    requires eq.kind == EqualEqual && ne.kind == ExclamationEqual
    ensures ApplyBinary(eq, a, b) == ApplyBinary(eq, b, a)
    ensures ApplyBinary(eq, a, b).Success? && ApplyBinary(ne, a, b).Success?
    ensures ApplyBinary(ne, a, b).value.b == !ApplyBinary(eq, a, b).value.b
  {
    IsEqualIsEquivalence(a, b, a);
  }

  /** On two numbers the comparisons agree with one another: `<` is `>`
      with the operands swapped, and `<=` and `>=` are the negations of `>`
      and `<`. */
  lemma ComparisonsAgree(gt: Token, ge: Token, lt: Token, le: Token, x: real, y: real)
    requires gt.kind == Greater && ge.kind == GreaterEqual && lt.kind == Less && le.kind == LessEqual
    ensures ApplyBinary(lt, Num(x), Num(y)) == ApplyBinary(gt, Num(y), Num(x))
    ensures ApplyBinary(le, Num(x), Num(y)).value.b == !ApplyBinary(gt, Num(x), Num(y)).value.b
    ensures ApplyBinary(ge, Num(x), Num(y)).value.b == !ApplyBinary(lt, Num(x), Num(y)).value.b
  {
  }

  /** On two numbers `+` and `*` do not depend on the operands' order; this
      also holds for rounded doubles. */
  lemma SumAndProductCommute(plus: Token, star: Token, x: real, y: real)
    requires plus.kind == Plus && star.kind == Star
    ensures ApplyBinary(plus, Num(x), Num(y)) == ApplyBinary(plus, Num(y), Num(x))
    ensures ApplyBinary(star, Num(x), Num(y)) == ApplyBinary(star, Num(y), Num(x))
  {
    var p := x * y;
    assert y * x == p;
    assert ApplyBinary(star, Num(x), Num(y)) == Arithmetic(star, x, y) == Success(Num(p));
    assert ApplyBinary(star, Num(y), Num(x)) == Arithmetic(star, y, x) == Success(Num(p));
  }

  /** On two numbers `-` with the operands swapped gives the negation, by
      unary `-`, of the difference; this also holds for rounded doubles. */
  lemma DifferenceSwapNegates(minus: Token, x: real, y: real)
    requires minus.kind == Minus
    ensures ApplyBinary(minus, Num(x), Num(y)) == ApplyUnary(minus, ApplyBinary(minus, Num(y), Num(x)).value)
  {
  }

  /** The arity error's message names the expected and the actual number of
      arguments: no two different pairs of counts give the same error, and
      the actual count is the number the message ends with. */
  lemma ArityMismatchNamesBothCounts(paren: Token, a: nat, c: nat, a': nat, c': nat)
    ensures ArityMismatch(paren, a, c).message == ArityMismatch(paren, a', c').message ==> a == a' && c == c'
    ensures Text.TrailingNumber(ArityMismatch(paren, a, c).message) == c
  {
    var head, head' := ArityHead(a), ArityHead(a');
    ArityMessageSplits(paren, a, c);
    ArityMessageSplits(paren, a', c');
    Text.TrailingNumberOfRendered(head, c);
    Text.TrailingNumberOfRendered(head', c');
    if head + Text.NatToString(c) == head' + Text.NatToString(c') {
      assert c == c';
      CancelSuffix(head, head', Text.NatToString(c));
      CancelSuffix("Expected " + Text.NatToString(a), "Expected " + Text.NatToString(a'), " arguments but got ");
      CancelPrefix("Expected ", Text.NatToString(a), Text.NatToString(a'));
      Text.NatToStringInjective(a, a');
    }
  }

  /** The arity message up to the actual count. */
  function ArityHead(a: nat): string {
    "Expected " + Text.NatToString(a) + " arguments but got "
  }

  lemma ArityMessageSplits(paren: Token, a: nat, c: nat)
    ensures ArityMismatch(paren, a, c).message == ArityHead(a) + Text.NatToString(c)
    ensures !Text.IsDigit(ArityHead(a)[|ArityHead(a)| - 1])
  {
    var h := ArityHead(a);
    assert h[|h| - 1] == ' ';
  }

  lemma CancelPrefix(p: string, x: string, y: string)
    requires p + x == p + y
    ensures x == y
  {
    assert x == (p + x)[|p|..];
    assert y == (p + y)[|p|..];
  }

  lemma CancelSuffix(x: string, y: string, s: string)
    requires x + s == y + s
    ensures x == y
  {
    assert |x| == |y|;
    assert x == (x + s)[..|x|];
    assert y == (y + s)[..|y|];
  }

  /* ---------------- declarations and scopes ---------------- */

  /** `var` binds its name in the innermost scope to the initializer's value
      (null without one), after which the name reads back as that value; it
      throws instead when the innermost scope already binds the name. */
  lemma VarDeclares(name: Token, init: Option<Expr>, st: State, fuel: nat)
    requires |st.scopes| > 0
    ensures var v := if init.Some? then Eval(init.value, st, fuel) else Normal(Nil, st);
      var r := Exec(Stmt.Var(name, init), st, fuel);
      v.Normal? ==>
        && (r.Abrupt? <==> name.lexeme in v.state.scopes[0])
        && (r.Abrupt? ==> r.signal == Thrown(DuplicateKey(name.lexeme)))
        && (r.Normal? ==> Get(r.state.scopes, name) == Ok(v.value))
  {
    var v := if init.Some? then Eval(init.value, st, fuel) else Normal(Nil, st);
    assert Exec(Stmt.Var(name, init), st, fuel) == ExecVar(Stmt.Var(name, init), st, fuel);
    if v.Normal? && name.lexeme !in v.state.scopes[0] {
      GetAfterDefine(v.state.scopes, name, v.value, name);
    }
  }

  /** One round of `while (cond) body` is `if (cond) body` with no else:
      both evaluate the condition once, both stop there when it is falsy,
      both end as the body ends when it ends abruptly, and after a normal
      body the loop goes on from the state the `if` leaves, one unit of
      fuel poorer, or stops out of fuel when none is left. */
  lemma WhileIsIfThenLoop(cond: Expr, body: Stmt, st: State, fuel: nat)
    requires |st.scopes| > 0
    ensures var e := Eval(cond, st, fuel);
      var i := Exec(Stmt.If(cond, body, None), st, fuel);
      var w := Exec(Stmt.While(cond, body), st, fuel);
      && (e.Normal? && !IsTruthy(e.value) ==> i == Normal((), e.state) && w == i)
      && (i.Abrupt? ==> w == i)
      && (e.Normal? && IsTruthy(e.value) && i.Normal? ==>
            w == if fuel == 0 then Abrupt(OutOfFuel, i.state) else Exec(Stmt.While(cond, body), i.state, fuel - 1))
  {
    assert Exec(Stmt.If(cond, body, None), st, fuel) == ExecIf(Stmt.If(cond, body, None), st, fuel);
    assert Exec(Stmt.While(cond, body), st, fuel) == ExecWhile(Stmt.While(cond, body), st, fuel);
  }

  /** A name that no scope binds before a block is still unbound after it:
      what the block declares lives only as long as the block. */
  lemma BlockForgetsDeclarations(body: seq<Stmt>, st: State, fuel: nat, name: Token)
    requires |st.scopes| > 0 && Get(st.scopes, name).Err?
    ensures Get(Exec(Block(body), st, fuel).state.scopes, name).Err?
  {
    var after := Exec(Block(body), st, fuel).state.scopes;
    assert SameNames(st.scopes, after);
    GetFindsInnermost(st.scopes, name);
    GetFindsInnermost(after, name);
    assert forall i :: 0 <= i < |after| ==> after[i].Keys == st.scopes[i].Keys;
  }

  /** A function declaration binds its name to a new function object with
      the declaration's parameters and body, whose arity is its number of
      parameters. */
  lemma FunctionDeclares(name: Token, params: seq<Token>, body: seq<Stmt>, st: State, fuel: nat)
    requires |st.scopes| > 0 && name.lexeme !in st.scopes[0]
    ensures var r := Exec(Stmt.Function(name, params, body), st, fuel);
      && r.Normal?
      && Get(r.state.scopes, name) == Ok(Fn(UserFn(name, params, body), st.nextId))
      && Arity(UserFn(name, params, body)) == |params|
      && r.state.nextId == st.nextId + 1
  {
    GetAfterDefine(st.scopes, name, Fn(UserFn(name, params, body), st.nextId), name);
  }

  /** Executing a declaration twice makes two different objects: the second
      function value is not equal to the first, even though both come from
      the same declaration. */
  lemma EachDeclarationIsANewObject(s: Stmt, st: State, fuel: nat)
    requires s.Function? && |st.scopes| > 0 && s.name.lexeme !in st.scopes[0]
    ensures var first := Exec(s, st, fuel).state;
      var inner := first.(scopes := [map[]] + first.scopes);
      var second := Exec(s, inner, fuel).state;
      && Get(first.scopes, s.name).Ok? && Get(second.scopes, s.name).Ok?
      && !IsEqual(Get(first.scopes, s.name).value, Get(second.scopes, s.name).value)
  {
    var first := Exec(s, st, fuel).state;
    FunctionDeclares(s.name, s.params, s.body, st, fuel);
    var inner := first.(scopes := [map[]] + first.scopes);
    FunctionDeclares(s.name, s.params, s.body, inner, fuel);
  }

  /* ---------------- calls ---------------- */

  /** A call to a user function, when it completes, yields null; `clock()`
      yields the clock reading as a long and the output functions null. */
  lemma CallsYieldNull(c: Callable, args: seq<Value>, st: State, fuel: nat)
    requires |args| == Arity(c) && |st.scopes| > 0
    requires Invoke(c, args, st, fuel).Normal?
    ensures Invoke(c, args, st, fuel).value == if c == NativeFn(Clock) then Long(st.clock) else Nil
  {
  }

  /** A call depends on its caller's state only through the global scope,
      the id counter, the clock and the error flag: two callers that agree
      on those, whatever their other scopes hold, get the same value or
      signal back and are left with the same global scope, counter and
      flag. A user function's body sees its parameters and the globals and
      nothing of the scopes it was called from. */
  lemma CallIgnoresCallerScopes(c: Callable, args: seq<Value>, st1: State, st2: State, fuel: nat)
    requires |args| == Arity(c) && |st1.scopes| > 0 && |st2.scopes| > 0
    requires st1.scopes[|st1.scopes| - 1] == st2.scopes[|st2.scopes| - 1]
    requires st1.nextId == st2.nextId && st1.clock == st2.clock
    requires st1.hadRuntimeError == st2.hadRuntimeError
    ensures var r1, r2 := Invoke(c, args, st1, fuel), Invoke(c, args, st2, fuel);
      && r1.Normal? == r2.Normal?
      && (r1.Normal? ==> r1.value == r2.value)
      && (r1.Abrupt? ==> r1.signal == r2.signal)
      && r1.state.scopes[|st1.scopes| - 1] == r2.state.scopes[|st2.scopes| - 1]
      && r1.state.nextId == r2.state.nextId
      && r1.state.hadRuntimeError == r2.state.hadRuntimeError
  {
    match c
    case NativeFn(_) =>
    case UserFn(_, params, body) =>
      match BindParams(params, args)
      case Err(_) =>
      case Ok(scope) =>
        if fuel > 0 {
          var entry := [scope, st1.scopes[|st1.scopes| - 1]];
          assert st1.(scopes := entry) == st2.(scopes := entry);
        }
  }

  /** A call evaluates its callee and every argument first, and then throws
      at the closing parenthesis when the callee is not a function or the
      argument count differs from its arity; otherwise it invokes it. */
  lemma CallChecksAfterArguments(e: Expr, st: State, fuel: nat)
    requires e.Call? && |st.scopes| > 0
    requires Eval(e.callee, st, fuel).Normal?
    ensures var f := Eval(e.callee, st, fuel);
      var a := EvalArgs(e.args, f.state, fuel);
      var r := Eval(e, st, fuel);
      && (a.Abrupt? ==> r == Abrupt(a.signal, a.state))
      && (a.Normal? && !f.value.Fn? ==>
            r == Abrupt(Thrown(RuntimeError(e.paren, "Can only call functions.")), a.state))
      && (a.Normal? && f.value.Fn? && |a.value| != Arity(f.value.callable) ==>
            r == Abrupt(Thrown(ArityMismatch(e.paren, Arity(f.value.callable), |e.args|)), a.state))
      && (a.Normal? && f.value.Fn? && |a.value| == Arity(f.value.callable) ==>
            r == Invoke(f.value.callable, a.value, a.state, fuel))
  {
    assert Eval(e, st, fuel) == EvalCall(e, st, fuel);
  }

  /** Calling a literal never succeeds, yet its arguments still run first:
      the call ends abruptly in the state the arguments left, and, when they
      all complete, with "Can only call functions." at the parenthesis. So
      in `"s"(a = 1)` the assignment to `a` stays in effect after the
      error. */
  lemma LiteralCalleeRunsArgumentsThenFails(l: Lit, paren: Token, args: seq<Expr>, st: State, fuel: nat)
    requires |st.scopes| > 0
    ensures var r := Eval(Call(Literal(l), paren, args), st, fuel);
      var a := EvalArgs(args, st, fuel);
      && r.Abrupt?
      && r.state == a.state
      && (a.Normal? ==> r.signal == Thrown(RuntimeError(paren, "Can only call functions.")))
  {
    CallChecksAfterArguments(Call(Literal(l), paren, args), st, fuel);
    assert !FromLiteral(l).Fn?;
  }

  /* ---------------- programs ---------------- */

  /** Running two statement lists one after the other is running their
      concatenation. */
  lemma {:induction false} ExecAllAppend(a: seq<Stmt>, b: seq<Stmt>, st: State, fuel: nat)
    requires |st.scopes| > 0
    ensures ExecAll(a + b, st, fuel) ==
      match ExecAll(a, st, fuel)
      case Normal(_, st1) => ExecAll(b, st1, fuel)
      case Abrupt(sig, st1) => Abrupt(sig, st1)
    decreases |a|
  {
    if a == [] {
      assert a + b == b;
    } else {
      assert (a + b)[0] == a[0] && (a + b)[1..] == a[1..] + b;
      match Exec(a[0], st, fuel)
      case Abrupt(_, _) =>
      case Normal(_, st1) => ExecAllAppend(a[1..], b, st1, fuel);
    }
  }

  /** A runtime error in a statement ends the program there: the statements
      after it do not run, the effects of the ones before it remain, and
      the error flag is set. */
  lemma RuntimeErrorStopsProgram(before: seq<Stmt>, s: Stmt, after: seq<Stmt>, st: State, fuel: nat)
    requires |st.scopes| == 1
    requires ExecAll(before, st, fuel).Normal?
    requires var mid := ExecAll(before, st, fuel).state;
      Exec(s, mid, fuel).Abrupt? && Exec(s, mid, fuel).signal.Thrown? &&
      Exec(s, mid, fuel).signal.error.RuntimeError?
    ensures var stop := Exec(s, ExecAll(before, st, fuel).state, fuel).state;
      Interpret(before + [s] + after, st, fuel) == Normal((), stop.(hadRuntimeError := true))
  {
    var mid := ExecAll(before, st, fuel).state;
    ExecAllAppend(before, [s] + after, st, fuel);
    assert before + [s] + after == before + ([s] + after);
    assert ([s] + after)[0] == s && ([s] + after)[1..] == after;
  }

  /** Restarting forgets every global except the three natives, which are
      new objects, different from every function object made before. */
  lemma RestartForgetsGlobals(st: State, name: Token)
    requires |st.scopes| > 0
    ensures name.lexeme !in {"clock", "write", "writeLine"} ==>
      Get(Restart(st).scopes, name) == Err(Undefined(name))
    ensures name.lexeme == "clock" ==>
      Get(Restart(st).scopes, name) == Ok(Fn(NativeFn(Clock), st.nextId))
    ensures forall v :: v in Restart(st).scopes[0].Values ==> v.Fn? && v.id >= st.nextId
  {
    var g := Restart(st).scopes;
    GetFindsInnermost(g, name);
  }
}

=== FILE: parser.dfy ===
/** The recursive-descent parser: statements, then expressions by
    precedence from assignment down to primaries. The cursor is an index
    into the token list; every rule returns the node it built and the index
    after it. A syntax error ends the whole parse: the error helper raises an
    exception the statement-level recovery does not catch. */
module Parser {
  import opened Tokens
  import opened Diagnostics
  import opened Ast

  /** A node and the index of the first token after it. */
  datatype Parsed<+T> = Parsed(node: T, next: nat)

  /** What the scanner hands over: a non-empty list whose last token is EOF. */
  predicate ValidTokens(ts: seq<Token>) {
    |ts| > 0 && ts[|ts| - 1].kind == EndOfFile
  }

  /* ---------------- cursor helpers ---------------- */

  /** The current token is EOF. */
  predicate AtEnd(ts: seq<Token>, pos: nat)
    requires pos < |ts|
  {
    ts[pos].kind == EndOfFile
  }

  /** The current token has kind `k`; never true at EOF. */
  predicate Check(ts: seq<Token>, pos: nat, k: Kind)
    requires pos < |ts|
  {
    !AtEnd(ts, pos) && ts[pos].kind == k
  }

  /** The current token has one of the kinds `ks`; never true at EOF. */
  predicate CheckAny(ts: seq<Token>, pos: nat, ks: set<Kind>)
    requires pos < |ts|
  {
    !AtEnd(ts, pos) && ts[pos].kind in ks
  }

  /** A token the grammar requires: consumed when it is there, otherwise a
      syntax error at the current token. EOF is never consumed, so the
      cursor stays on a token. */
  function Expect(ts: seq<Token>, pos: nat, k: Kind, message: string): (r: Result<Parsed<Token>>)
    requires ValidTokens(ts) && pos < |ts|
    ensures r.Ok? <==> ts[pos].kind == k && k != EndOfFile
    ensures r.Ok? ==> r.value.node == ts[pos] && r.value.next == pos + 1 < |ts|
    ensures r.Err? ==> r.error == SyntaxError(ts[pos], message)
  {
    if Check(ts, pos, k) then Ok(Parsed(ts[pos], pos + 1))
    else Err(SyntaxError(ts[pos], message))
  }

  /** The outcome every expression rule guarantees: on success the cursor
      moved past at least one token and stayed on the list, and the node has
      a parser shape; a failure is always a syntax error. */
  predicate ExprStep(ts: seq<Token>, pos: nat, r: Result<Parsed<Expr>>) {
    && (r.Ok? ==> pos < r.value.next < |ts| && ValidExpr(r.value.node))
    && (r.Err? ==> r.error.SyntaxError?)
  }

  /** The same for statement rules. */
  predicate StmtStep(ts: seq<Token>, pos: nat, r: Result<Parsed<Stmt>>) {
    && (r.Ok? ==> pos < r.value.next < |ts| && ValidStmt(r.value.node))
    && (r.Err? ==> r.error.SyntaxError?)
  }

  /* ---------------- expressions ---------------- */

  /** The binary precedence levels, loosest first. */
  datatype Level = OrLevel | AndLevel | EqualityLevel | ComparisonLevel | TermLevel | FactorLevel

  /** The operator kinds a level loops on. */
  function Operators(l: Level): set<Kind> {
    match l
    case OrLevel => {Kind.Or}
    case AndLevel => {Kind.And}
    case EqualityLevel => EqualityOps
    case ComparisonLevel => ComparisonOps
    case TermLevel => TermOps
    case FactorLevel => FactorOps
  }

  /** The next tighter level. */
  function Tighter(l: Level): Level
    requires l != FactorLevel
  {
    match l
    case OrLevel => AndLevel
    case AndLevel => EqualityLevel
    case EqualityLevel => ComparisonLevel
    case ComparisonLevel => TermLevel
    case TermLevel => FactorLevel
  }

  /** Termination measure: tighter levels rank lower. */
  function Rank(l: Level): nat {
    match l
    case OrLevel => 10
    case AndLevel => 9
    case EqualityLevel => 8
    case ComparisonLevel => 7
    case TermLevel => 6
    case FactorLevel => 5
  }

  /** `and`/`or` build logical nodes, every other level binary ones. */
  function Combine(l: Level, left: Expr, op: Token, right: Expr): Expr {
    if l == OrLevel || l == AndLevel then Logical(left, op, right) else Binary(left, op, right)
  }

  function Expression(ts: seq<Token>, pos: nat): (r: Result<Parsed<Expr>>)
    requires ValidTokens(ts) && pos < |ts|
    ensures ExprStep(ts, pos, r)
    decreases |ts| - pos, 23
  {
    Assignment(ts, pos)
  }

  /** An `or`-level expression, optionally followed by `=` and a value. The
      value is parsed first (right associative), then the target must be a
      plain variable. */
  function Assignment(ts: seq<Token>, pos: nat): (r: Result<Parsed<Expr>>)
    requires ValidTokens(ts) && pos < |ts|
    ensures ExprStep(ts, pos, r)
    decreases |ts| - pos, 22
  {
    var target :- BinaryLevel(ts, pos, OrLevel);
    if Check(ts, target.next, Equal) then AssignedValue(ts, target.next, target.node)
    else Ok(target)
  }

  /** After the `=` at `equals`: the value, then the check that the target
      is a plain variable. */
  function AssignedValue(ts: seq<Token>, equals: nat, target: Expr): (r: Result<Parsed<Expr>>)
    requires ValidTokens(ts) && equals + 1 < |ts| && ValidExpr(target)
    ensures ExprStep(ts, equals, r)
    decreases |ts| - equals, 22
  {
    var value :- Assignment(ts, equals + 1);
    if target.Variable? then Ok(Parsed(Assign(target.name, value.node), value.next))
    else Err(SyntaxError(ts[equals], "Invalid assignment target."))
  }

  /** One binary level: an operand, then any number of operator-operand
      pairs, folded to the left. */
  function BinaryLevel(ts: seq<Token>, pos: nat, l: Level): (r: Result<Parsed<Expr>>)
    requires ValidTokens(ts) && pos < |ts|
    ensures ExprStep(ts, pos, r)
    decreases |ts| - pos, 2 * Rank(l) + 1
  {
    var first :- Operand(ts, pos, l);
    BinaryRest(ts, first.next, l, first.node)
  }

  /** The operand of a level: the next tighter level, or a unary expression
      below the factor level. */
  function Operand(ts: seq<Token>, pos: nat, l: Level): (r: Result<Parsed<Expr>>)
    requires ValidTokens(ts) && pos < |ts|
    ensures ExprStep(ts, pos, r)
    decreases |ts| - pos, 2 * Rank(l)
  {
    if l == FactorLevel then UnaryExpr(ts, pos) else BinaryLevel(ts, pos, Tighter(l))
  }

  /** The loop of a binary level, with `left` everything folded so far. */
  function BinaryRest(ts: seq<Token>, pos: nat, l: Level, left: Expr): (r: Result<Parsed<Expr>>)
    requires ValidTokens(ts) && pos < |ts| && ValidExpr(left)
    ensures r.Ok? ==> pos <= r.value.next < |ts| && ValidExpr(r.value.node)
    ensures r.Err? ==> r.error.SyntaxError?
    decreases |ts| - pos, 2 * Rank(l) + 1
  {
    if CheckAny(ts, pos, Operators(l)) then
      var right :- Operand(ts, pos + 1, l);
      BinaryRest(ts, right.next, l, Combine(l, left, ts[pos], right.node))
    else Ok(Parsed(left, pos))
  }

  /** `!` or `-` applied to a unary expression, or a call. */
  function UnaryExpr(ts: seq<Token>, pos: nat): (r: Result<Parsed<Expr>>)
    requires ValidTokens(ts) && pos < |ts|
    ensures ExprStep(ts, pos, r)
    decreases |ts| - pos, 4
  {
    if CheckAny(ts, pos, UnaryOps) then
      var right :- UnaryExpr(ts, pos + 1);
      Ok(Parsed(Unary(ts[pos], right.node), right.next))
    else CallExpr(ts, pos)
  }

  /** A primary followed by any number of argument lists. */
  function CallExpr(ts: seq<Token>, pos: nat): (r: Result<Parsed<Expr>>)
    requires ValidTokens(ts) && pos < |ts|
    ensures ExprStep(ts, pos, r)
    decreases |ts| - pos, 3
  {
    var callee :- Primary(ts, pos);
    CallRest(ts, callee.next, callee.node)
  }

  /** The call loop: each `(` wraps what was parsed so far in a new call. */
  function CallRest(ts: seq<Token>, pos: nat, callee: Expr): (r: Result<Parsed<Expr>>)
    requires ValidTokens(ts) && pos < |ts| && ValidExpr(callee)
    ensures r.Ok? ==> pos <= r.value.next < |ts| && ValidExpr(r.value.node)
    ensures r.Err? ==> r.error.SyntaxError?
    decreases |ts| - pos, 2
  {
    if Check(ts, pos, LeftParenthesis) then
      var call :- FinishCall(ts, pos + 1, callee);
      CallRest(ts, call.next, call.node)
    else Ok(Parsed(callee, pos))
  }

  /** The arguments after `(` and the closing `)`. */
  function FinishCall(ts: seq<Token>, pos: nat, callee: Expr): (r: Result<Parsed<Expr>>)
    requires ValidTokens(ts) && pos < |ts| && ValidExpr(callee)
    ensures ExprStep(ts, pos, r)
    ensures r.Ok? ==> r.value.node.Call? && r.value.node.callee == callee
    decreases |ts| - pos, 25
  {
    var args :- if Check(ts, pos, RightParenthesis) then Ok(Parsed([], pos)) else Arguments(ts, pos, []);
    var close :- Expect(ts, args.next, RightParenthesis, "Expect ')' after arguments.");
    Ok(Parsed(Call(callee, close.node, args.node), close.next))
  }

  /** Comma-separated arguments appended to `acc`. Starting a 256th
      argument is a syntax error at its first token. */
  function Arguments(ts: seq<Token>, pos: nat, acc: seq<Expr>): (r: Result<Parsed<seq<Expr>>>)
    requires ValidTokens(ts) && pos < |ts|
    requires |acc| <= MaxArity && forall a :: a in acc ==> ValidExpr(a)
    ensures r.Ok? ==> pos < r.value.next < |ts|
    ensures r.Ok? ==> |acc| < |r.value.node| <= MaxArity && r.value.node[..|acc|] == acc
    ensures r.Ok? ==> forall a :: a in r.value.node ==> ValidExpr(a)
    ensures r.Err? ==> r.error.SyntaxError?
    ensures |acc| == MaxArity ==> r == Err(SyntaxError(ts[pos], "Can't have more than 255 arguments."))
    decreases |ts| - pos, 24
  {
    if |acc| >= MaxArity then Err(SyntaxError(ts[pos], "Can't have more than 255 arguments."))
    else
      var arg :- Expression(ts, pos);
      var acc' := acc + [arg.node];
      if Check(ts, arg.next, Comma) then
        var r := Arguments(ts, arg.next + 1, acc');
        assert r.Ok? ==> r.value.node[..|acc|] == r.value.node[..|acc'|][..|acc|];
        r
      else Ok(Parsed(acc', arg.next))
  }

  /** Literals, variables and parenthesised expressions. */
  function Primary(ts: seq<Token>, pos: nat): (r: Result<Parsed<Expr>>)
    requires ValidTokens(ts) && pos < |ts|
    ensures ExprStep(ts, pos, r)
    ensures ts[pos].kind !in OneTokenKinds + {LeftParenthesis} ==>
      r == Err(SyntaxError(ts[pos], "Expected expression."))
    ensures ts[pos].kind == False ==> r == Ok(Parsed(Literal(LBool(false)), pos + 1))
    ensures ts[pos].kind == True ==> r == Ok(Parsed(Literal(LBool(true)), pos + 1))
    ensures ts[pos].kind == Null ==> r == Ok(Parsed(Literal(LNull), pos + 1))
    ensures ts[pos].kind in {String, Number} ==> r == Ok(Parsed(Literal(ts[pos].literal), pos + 1))
    ensures ts[pos].kind == Identifier ==> r == Ok(Parsed(Variable(ts[pos]), pos + 1))
    ensures ts[pos].kind == LeftParenthesis && r.Ok? ==>
      r.value.node.Grouping? && ts[r.value.next - 1].kind == RightParenthesis
    decreases |ts| - pos, 1
  {
    if CheckAny(ts, pos, OneTokenKinds) then Ok(OneTokenPrimary(ts, pos))
    else if Check(ts, pos, LeftParenthesis) then GroupingExpr(ts, pos + 1)
    else Err(SyntaxError(ts[pos], "Expected expression."))
  }

  /** The token kinds that are a whole primary by themselves. */
  const OneTokenKinds: set<Kind> := {False, True, Null, String, Number, Identifier}

  /** A literal or a variable: the node for the single token at the cursor. */
  function OneTokenPrimary(ts: seq<Token>, pos: nat): (r: Parsed<Expr>)
    requires pos < |ts| && ts[pos].kind in OneTokenKinds
    ensures r.next == pos + 1 && ValidExpr(r.node)
    ensures ts[pos].kind == False ==> r.node == Literal(LBool(false))
    ensures ts[pos].kind == True ==> r.node == Literal(LBool(true))
    ensures ts[pos].kind == Null ==> r.node == Literal(LNull)
    ensures ts[pos].kind in {String, Number} ==> r.node == Literal(ts[pos].literal)
    ensures ts[pos].kind == Identifier ==> r.node == Variable(ts[pos])
  {
    if ts[pos].kind == False then Parsed(Literal(LBool(false)), pos + 1)
    else if ts[pos].kind == True then Parsed(Literal(LBool(true)), pos + 1)
    else if ts[pos].kind == Null then Parsed(Literal(LNull), pos + 1)
    else if ts[pos].kind in {String, Number} then Parsed(Literal(ts[pos].literal), pos + 1)
    else Parsed(Variable(ts[pos]), pos + 1)
  }

  /** After `(`: an expression and the closing `)`. */
  function GroupingExpr(ts: seq<Token>, pos: nat): (r: Result<Parsed<Expr>>)
    requires ValidTokens(ts) && pos < |ts|
    ensures ExprStep(ts, pos, r)
    ensures r.Ok? ==> r.value.node.Grouping? && ts[r.value.next - 1].kind == RightParenthesis
    decreases |ts| - pos + 1, 0
  {
    var inner :- Expression(ts, pos);
    var close :- Expect(ts, inner.next, RightParenthesis, "Expect ')' after expression.");
    Ok(Parsed(Grouping(inner.node), close.next))
  }

  /* ---------------- statements ---------------- */

  /** A function, a variable declaration, or a statement. */
  function Declaration(ts: seq<Token>, pos: nat): (r: Result<Parsed<Stmt>>)
    requires ValidTokens(ts) && pos < |ts|
    ensures StmtStep(ts, pos, r)
    decreases |ts| - pos, 32
  {
    if Check(ts, pos, Fun) then FunctionDecl(ts, pos + 1)
    else if Check(ts, pos, Kind.Var) then VarDeclaration(ts, pos + 1)
    else Statement(ts, pos)
  }

  function Statement(ts: seq<Token>, pos: nat): (r: Result<Parsed<Stmt>>)
    requires ValidTokens(ts) && pos < |ts|
    ensures StmtStep(ts, pos, r)
    decreases |ts| - pos, 31
  {
    if Check(ts, pos, Kind.If) then IfStatement(ts, pos + 1)
    else if Check(ts, pos, For) then ForStatement(ts, pos + 1)
    else if Check(ts, pos, Kind.While) then WhileStatement(ts, pos + 1)
    else if Check(ts, pos, Kind.Print) then PrintStatement(ts, pos + 1)
    else if Check(ts, pos, LeftBrace) then BlockStatement(ts, pos + 1)
    else ExprStatement(ts, pos)
  }

  /** After `{`: a block statement. */
  function BlockStatement(ts: seq<Token>, pos: nat): (r: Result<Parsed<Stmt>>)
    requires ValidTokens(ts) && pos < |ts|
    ensures StmtStep(ts, pos, r)
    ensures r.Ok? ==> r.value.node.Block?
    decreases |ts| - pos + 1, 0
  {
    var body :- BlockBody(ts, pos, []);
    Ok(Parsed(Block(body.node), body.next))
  }

  /** After `fun`: name, parameter list and body. The rule's only caller
      names the kind "function", which the messages spell out. */
  function FunctionDecl(ts: seq<Token>, pos: nat): (r: Result<Parsed<Stmt>>)
    requires ValidTokens(ts) && pos < |ts|
    ensures StmtStep(ts, pos, r)
    ensures r.Ok? ==> r.value.node.Function? && r.value.node.name == ts[pos]
    decreases |ts| - pos, 0
  {
    var name :- Expect(ts, pos, Identifier, "Expect function name.");
    var open :- Expect(ts, name.next, LeftParenthesis, "Expect '(' after function name.");
    FunctionTail(ts, open.next, name.node)
  }

  /** The rest of a function after `(`: parameters, `)`, and the body. */
  function FunctionTail(ts: seq<Token>, pos: nat, name: Token): (r: Result<Parsed<Stmt>>)
    requires ValidTokens(ts) && pos < |ts| && name.kind == Identifier
    ensures StmtStep(ts, pos, r)
    ensures r.Ok? ==> r.value.node.Function? && r.value.node.name == name
    decreases |ts| - pos, 0
  {
    var params :- ParameterList(ts, pos);
    FunctionBody(ts, params.next, name, params.node)
  }

  /** The body of a function: `{`, then declarations up to the closing `}`. */
  function FunctionBody(ts: seq<Token>, pos: nat, name: Token, params: seq<Token>): (r: Result<Parsed<Stmt>>)
    requires ValidTokens(ts) && pos < |ts| && name.kind == Identifier
    requires |params| <= MaxArity && forall p :: p in params ==> p.kind == Identifier
    ensures StmtStep(ts, pos, r)
    ensures r.Ok? ==> r.value.node.Function? && r.value.node.name == name && r.value.node.params == params
    decreases |ts| - pos, 0
  {
    var brace :- Expect(ts, pos, LeftBrace, "Expect '{' before function body.");
    var body :- BlockBody(ts, brace.next, []);
    Ok(Parsed(Function(name, params, body.node), body.next))
  }

  /** The parameters after `(`, possibly none, and the closing `)`. */
  function ParameterList(ts: seq<Token>, pos: nat): (r: Result<Parsed<seq<Token>>>)
    requires ValidTokens(ts) && pos < |ts|
    ensures r.Ok? ==> pos < r.value.next < |ts| && ts[r.value.next - 1].kind == RightParenthesis
    ensures r.Ok? ==> |r.value.node| <= MaxArity && forall p :: p in r.value.node ==> p.kind == Identifier
    ensures r.Err? ==> r.error.SyntaxError?
  {
    var params :- if Check(ts, pos, RightParenthesis) then Ok(Parsed([], pos)) else Parameters(ts, pos, []);
    var close :- Expect(ts, params.next, RightParenthesis, "Expect ')' after parameters.");
    Ok(Parsed(params.node, close.next))
  }

  /** Comma-separated parameter names appended to `acc`. Starting a 256th
      parameter is a syntax error at its token. */
  function Parameters(ts: seq<Token>, pos: nat, acc: seq<Token>): (r: Result<Parsed<seq<Token>>>)
    requires ValidTokens(ts) && pos < |ts|
    requires |acc| <= MaxArity && forall p :: p in acc ==> p.kind == Identifier
    ensures r.Ok? ==> pos < r.value.next < |ts|
    ensures r.Ok? ==> |acc| < |r.value.node| <= MaxArity && r.value.node[..|acc|] == acc
    ensures r.Ok? ==> forall p :: p in r.value.node ==> p.kind == Identifier
    ensures r.Err? ==> r.error.SyntaxError?
    ensures |acc| == MaxArity ==> r == Err(SyntaxError(ts[pos], "Can't have more than 255 parameters."))
    decreases |ts| - pos
  {
    if |acc| >= MaxArity then Err(SyntaxError(ts[pos], "Can't have more than 255 parameters."))
    else
      var name :- Expect(ts, pos, Identifier, "Expect parameter name.");
      var acc' := acc + [name.node];
      if Check(ts, name.next, Comma) then
        var r := Parameters(ts, name.next + 1, acc');
        assert r.Ok? ==> r.value.node[..|acc|] == r.value.node[..|acc'|][..|acc|];
        r
      else Ok(Parsed(acc', name.next))
  }

  /** After `if`: the parenthesised condition, the then branch, and an
      `else` branch when the next token is `else` (so an `else` belongs to
      the nearest `if`). */
  function IfStatement(ts: seq<Token>, pos: nat): (r: Result<Parsed<Stmt>>)
    requires ValidTokens(ts) && pos < |ts|
    ensures StmtStep(ts, pos, r)
    decreases |ts| - pos, 0
  {
    var open :- Expect(ts, pos, LeftParenthesis, "Expect '(' after 'if'.");
    var cond :- Expression(ts, open.next);
    var close :- Expect(ts, cond.next, RightParenthesis, "Expect ')' after if condition.");
    IfBranches(ts, close.next, cond.node)
  }

  /** The branches of an `if` after its condition: a statement, then an
      `else` and another statement if the next token is `else`. */
  function IfBranches(ts: seq<Token>, pos: nat, cond: Expr): (r: Result<Parsed<Stmt>>)
    requires ValidTokens(ts) && pos < |ts| && ValidExpr(cond)
    ensures StmtStep(ts, pos, r)
    decreases |ts| - pos, 32
  {
    var thenBranch :- Statement(ts, pos);
    if Check(ts, thenBranch.next, Else) then
      var elseBranch :- Statement(ts, thenBranch.next + 1);
      Ok(Parsed(Stmt.If(cond, thenBranch.node, Some(elseBranch.node)), elseBranch.next))
    else Ok(Parsed(Stmt.If(cond, thenBranch.node, None), thenBranch.next))
  }

  /** After `{`: declarations until `}` or EOF, then the `}`. */
  function BlockBody(ts: seq<Token>, pos: nat, acc: seq<Stmt>): (r: Result<Parsed<seq<Stmt>>>)
    requires ValidTokens(ts) && pos < |ts| && ValidStmts(acc)
    ensures r.Ok? ==> pos < r.value.next < |ts| && ValidStmts(r.value.node)
    ensures r.Ok? ==> |acc| <= |r.value.node| && r.value.node[..|acc|] == acc
    ensures r.Err? ==> r.error.SyntaxError?
    decreases |ts| - pos, 33
  {
    if !Check(ts, pos, RightBrace) && !AtEnd(ts, pos) then
      var decl :- Declaration(ts, pos);
      var acc' := acc + [decl.node];
      var r := BlockBody(ts, decl.next, acc');
      assert r.Ok? ==> r.value.node[..|acc|] == r.value.node[..|acc'|][..|acc|];
      r
    else
      var close :- Expect(ts, pos, RightBrace, "Expect '}' after block.");
      Ok(Parsed(acc, close.next))
  }

  /** After `while`: the parenthesised condition and the body. */
  function WhileStatement(ts: seq<Token>, pos: nat): (r: Result<Parsed<Stmt>>)
    requires ValidTokens(ts) && pos < |ts|
    ensures StmtStep(ts, pos, r)
    decreases |ts| - pos, 0
  {
    var open :- Expect(ts, pos, LeftParenthesis, "Expect '(' after 'while'.");
    var cond :- Expression(ts, open.next);
    var close :- Expect(ts, cond.next, RightParenthesis, "Expect ')' after while condition.");
    var body :- Statement(ts, close.next);
    Ok(Parsed(Stmt.While(cond.node, body.node), body.next))
  }

  /** The three clauses between the parentheses of a `for` loop. */
  datatype ForHeader = ForHeader(init: Option<Stmt>, cond: Option<Expr>, increment: Option<Expr>)

  /** Each clause present has a parser shape. */
  predicate ValidHeader(h: ForHeader) {
    && (h.init.Some? ==> ValidStmt(h.init.value))
    && (h.cond.Some? ==> ValidExpr(h.cond.value))
    && (h.increment.Some? ==> ValidExpr(h.increment.value))
  }

  /** The `while` loop a `for` loop stands for: the increment runs after the
      body in a block, a missing condition is `true`, and the initializer
      runs once in a block around the loop. */
  function DesugarFor(init: Option<Stmt>, cond: Option<Expr>, increment: Option<Expr>, body: Stmt): Stmt
  {
    var loopBody := if increment.Some? then Block([body, Stmt.ExpressionStatement(increment.value)]) else body;
    var loop := Stmt.While(if cond.Some? then cond.value else Literal(LBool(true)), loopBody);
    if init.Some? then Block([init.value, loop]) else loop
  }

  /** The desugared loop has a parser shape when its parts do. */
  lemma DesugarForValid(init: Option<Stmt>, cond: Option<Expr>, increment: Option<Expr>, body: Stmt)
    requires init.Some? ==> ValidStmt(init.value)
    requires cond.Some? ==> ValidExpr(cond.value)
    requires increment.Some? ==> ValidExpr(increment.value)
    requires ValidStmt(body)
    ensures ValidStmt(DesugarFor(init, cond, increment, body))
  {
    var loopBody := if increment.Some? then Block([body, Stmt.ExpressionStatement(increment.value)]) else body;
    assert ValidStmt(loopBody);
  }

  /** An expression unless the current token is `stop`. */
  function OptionalExpression(ts: seq<Token>, pos: nat, stop: Kind): (r: Result<Parsed<Option<Expr>>>)
    requires ValidTokens(ts) && pos < |ts|
    ensures r.Ok? ==> pos <= r.value.next < |ts|
    ensures r.Ok? && r.value.node.Some? ==> ValidExpr(r.value.node.value)
    ensures r.Ok? ==> (r.value.node.None? <==> Check(ts, pos, stop))
    ensures r.Err? ==> r.error.SyntaxError?
  {
    if Check(ts, pos, stop) then Ok(Parsed(None, pos))
    else
      var e :- Expression(ts, pos);
      Ok(Parsed(Some(e.node), e.next))
  }

  /** An optional expression closed by a `stop` token, which is consumed. */
  function OptionalClause(ts: seq<Token>, pos: nat, stop: Kind, message: string): (r: Result<Parsed<Option<Expr>>>)
    requires ValidTokens(ts) && pos < |ts|
    ensures r.Ok? ==> pos < r.value.next < |ts| && ts[r.value.next - 1].kind == stop
    ensures r.Ok? && r.value.node.Some? ==> ValidExpr(r.value.node.value)
    ensures r.Ok? ==> (r.value.node.None? <==> Check(ts, pos, stop))
    ensures r.Err? ==> r.error.SyntaxError?
  {
    var e :- OptionalExpression(ts, pos, stop);
    var close :- Expect(ts, e.next, stop, message);
    Ok(Parsed(e.node, close.next))
  }

  /** The initializer clause of a `for`: nothing before a `;`, a variable
      declaration, or an expression statement. */
  function ForInitializer(ts: seq<Token>, pos: nat): (r: Result<Parsed<Option<Stmt>>>)
    requires ValidTokens(ts) && pos < |ts|
    ensures r.Ok? ==> pos < r.value.next < |ts|
    ensures r.Ok? && r.value.node.Some? ==> ValidStmt(r.value.node.value)
    ensures r.Err? ==> r.error.SyntaxError?
    decreases |ts| - pos, 0
  {
    if Check(ts, pos, Semicolon) then Ok(Parsed(None, pos + 1))
    else if Check(ts, pos, Kind.Var) then
      var decl :- VarDeclaration(ts, pos + 1);
      Ok(Parsed(Some(decl.node), decl.next))
    else
      var stmt :- ExprStatement(ts, pos);
      Ok(Parsed(Some(stmt.node), stmt.next))
  }

  const ConditionClose := "Expect ';' after loop condition."
  const IncrementClose := "Expect ')' after loop clauses."

  /** The header `h`, ending before `next`, is what the tokens at `pos` hold:
      `(`, then the initializer, then the clause closed by `;` as the
      condition, then the clause closed by `)` as the increment. */
  ghost predicate HeaderAt(ts: seq<Token>, pos: nat, h: ForHeader, next: nat)
    requires ValidTokens(ts) && pos < |ts|
  {
    && Check(ts, pos, LeftParenthesis) && pos + 1 < |ts|
    && var i := ForInitializer(ts, pos + 1);
       && i.Ok? && i.value.node == h.init
       && var c := OptionalClause(ts, i.value.next, Semicolon, ConditionClose);
          && c.Ok? && c.value.node == h.cond
          && var inc := OptionalClause(ts, c.value.next, RightParenthesis, IncrementClose);
             && inc.Ok? && inc.value.node == h.increment && inc.value.next == next
  }

  /** The parenthesised clauses of a `for` loop: the initializer, the
      optional condition and the optional increment, up to and including
      the `)`. */
  function ForClauses(ts: seq<Token>, pos: nat): (r: Result<Parsed<ForHeader>>)
    requires ValidTokens(ts) && pos < |ts|
    ensures r.Ok? ==> pos < r.value.next < |ts|
    ensures r.Ok? ==> ValidHeader(r.value.node)
    ensures r.Ok? ==> HeaderAt(ts, pos, r.value.node, r.value.next)
    ensures forall h, next :: HeaderAt(ts, pos, h, next) ==> r == Ok(Parsed(h, next))
    ensures r.Err? ==> r.error.SyntaxError?
    decreases |ts| - pos, 0
  {
    var open :- Expect(ts, pos, LeftParenthesis, "Expect '(' after 'for'.");
    var init :- ForInitializer(ts, open.next);
    var cond :- OptionalClause(ts, init.next, Semicolon, ConditionClose);
    var increment :- OptionalClause(ts, cond.next, RightParenthesis, IncrementClose);
    Ok(Parsed(ForHeader(init.node, cond.node, increment.node), increment.next))
  }

  /** After `for`: the three clauses and the body, rewritten as a `while`. */
  function ForStatement(ts: seq<Token>, pos: nat): (r: Result<Parsed<Stmt>>)
    requires ValidTokens(ts) && pos < |ts|
    ensures StmtStep(ts, pos, r)
    decreases |ts| - pos, 1
  {
    var header :- ForClauses(ts, pos);
    var body :- Statement(ts, header.next);
    var h := header.node;
    DesugarForValid(h.init, h.cond, h.increment, body.node);
    Ok(Parsed(DesugarFor(h.init, h.cond, h.increment, body.node), body.next))
  }

  /** After `print`: an expression and `;`. */
  function PrintStatement(ts: seq<Token>, pos: nat): (r: Result<Parsed<Stmt>>)
    requires ValidTokens(ts) && pos < |ts|
    ensures StmtStep(ts, pos, r)
    decreases |ts| - pos, 0
  {
    var e :- Expression(ts, pos);
    var semicolon :- Expect(ts, e.next, Semicolon, "Expect ';' after value.");
    Ok(Parsed(Stmt.Print(e.node), semicolon.next))
  }

  /** After `var`: a name, an optional `= initializer`, and `;`. */
  function VarDeclaration(ts: seq<Token>, pos: nat): (r: Result<Parsed<Stmt>>)
    requires ValidTokens(ts) && pos < |ts|
    ensures StmtStep(ts, pos, r)
    ensures r.Ok? ==> r.value.node.Var? && r.value.node.name == ts[pos]
    decreases |ts| - pos, 0
  {
    var name :- Expect(ts, pos, Identifier, "Expect variable name.");
    var init :- if Check(ts, name.next, Equal) then
                  var e :- Expression(ts, name.next + 1);
                  Ok(Parsed(Some(e.node), e.next))
                else Ok(Parsed(None, name.next));
    var semicolon :- Expect(ts, init.next, Semicolon, "Expect ';' after value.");
    Ok(Parsed(Stmt.Var(name.node, init.node), semicolon.next))
  }

  /** An expression and `;`. */
  function ExprStatement(ts: seq<Token>, pos: nat): (r: Result<Parsed<Stmt>>)
    requires ValidTokens(ts) && pos < |ts|
    ensures StmtStep(ts, pos, r)
    decreases |ts| - pos, 30
  {
    var e :- Expression(ts, pos);
    var semicolon :- Expect(ts, e.next, Semicolon, "Expect ';' after value.");
    Ok(Parsed(Stmt.ExpressionStatement(e.node), semicolon.next))
  }

  /* ---------------- programs ---------------- */

  /** Declarations from `pos` to EOF, appended to `acc` in source order. */
  function ParseFrom(ts: seq<Token>, pos: nat, acc: seq<Stmt>): (r: Result<seq<Stmt>>)
    requires ValidTokens(ts) && pos < |ts| && ValidStmts(acc)
    ensures r.Ok? ==> ValidStmts(r.value) && |acc| <= |r.value| && r.value[..|acc|] == acc
    ensures r.Err? ==> r.error.SyntaxError?
    ensures AtEnd(ts, pos) ==> r == Ok(acc)
    decreases |ts| - pos
  {
    if AtEnd(ts, pos) then Ok(acc)
    else
      var decl :- Declaration(ts, pos);
      var acc' := acc + [decl.node];
      var r := ParseFrom(ts, decl.next, acc');
      assert r.Ok? ==> r.value[..|acc|] == r.value[..|acc'|][..|acc|];
      r
  }

  /** `Parser.Parse`: every declaration up to EOF, or the first syntax
      error. */
  function Parse(ts: seq<Token>): (r: Result<seq<Stmt>>)
    requires ValidTokens(ts)
    ensures r.Ok? ==> ValidStmts(r.value)
    ensures r.Err? ==> r.error.SyntaxError?
    ensures ts[0].kind == EndOfFile ==> r == Ok([])
  {
    ParseFrom(ts, 0, [])
  }

  /* ---------------- error recovery ---------------- */

  /** Kinds at which recovery stops before the token. */
  const StatementStarts: set<Kind> := {For, Kind.While, Kind.If, Return}

  /** A point where recovery may stop: at EOF, after a `;`, or before a
      statement keyword. */
  predicate SyncPoint(ts: seq<Token>, p: nat)
    requires 0 < p < |ts|
  {
    AtEnd(ts, p) || ts[p - 1].kind == Semicolon || ts[p].kind in StatementStarts
  }

  /** `Synchronize`: skips the current token, then tokens up to the first
      sync point. Skipping the final EOF reads past the end. Recovery is
      never reached in the parser as written, since no syntax error is
      caught, so this stands alone. */
  function Synchronize(ts: seq<Token>, pos: nat): (r: Result<nat>)
    requires ValidTokens(ts) && pos < |ts|
    ensures r.Err? <==> pos == |ts| - 1
    ensures r.Err? ==> r.error == IndexOutOfRange
    ensures r.Ok? ==> pos < r.value < |ts| && SyncPoint(ts, r.value)
    ensures r.Ok? ==> forall p :: pos < p < r.value ==> !SyncPoint(ts, p)
  {
    if pos + 1 == |ts| then Err(IndexOutOfRange) else Ok(SyncFrom(ts, pos + 1))
  }

  function SyncFrom(ts: seq<Token>, p: nat): (q: nat)
    requires ValidTokens(ts) && 0 < p < |ts|
    ensures p <= q < |ts| && SyncPoint(ts, q)
    ensures forall i :: p <= i < q ==> !SyncPoint(ts, i)
    decreases |ts| - p
  {
    if SyncPoint(ts, p) then p else SyncFrom(ts, p + 1)
  }
}

=== FILE: parser_properties.dfy ===
/** Properties of the parser: how a number operand climbs the precedence
    levels, and whole programs worked through the grammar (precedence,
    associativity, assignment targets, the dangling `else`). */
module ParserProperties {
  import opened Tokens
  import opened Diagnostics
  import opened Ast
  import opened Parser

  /* ---------------- operands and levels ---------------- */

  /** The operator kinds of level `l` and of every tighter level. */
  function OpsFrom(l: Level): set<Kind>
    decreases Rank(l)
  {
    if l == FactorLevel then Operators(l) else Operators(l) + OpsFrom(Tighter(l))
  }

  /** The operator kinds strictly tighter than `l`. */
  function OpsBelow(l: Level): set<Kind> {
    if l == FactorLevel then {} else OpsFrom(Tighter(l))
  }

  /** A level starts with its operand and hands it to its loop. */
  lemma LevelStart(ts: seq<Token>, pos: nat, l: Level, first: Expr, next: nat)
    requires ValidTokens(ts) && pos < |ts|
    requires Operand(ts, pos, l) == Ok(Parsed(first, next))
    ensures next < |ts| && ValidExpr(first)
    ensures BinaryLevel(ts, pos, l) == BinaryRest(ts, next, l, first)
  {
    var r := Operand(ts, pos, l);
    assert !r.IsFailure() && r.Extract() == Parsed(first, next);
  }

  /** The loop of a level stops at a token that is none of its operators. */
  lemma RestStops(ts: seq<Token>, pos: nat, l: Level, left: Expr)
    requires ValidTokens(ts) && pos < |ts| && ValidExpr(left)
    requires ts[pos].kind !in Operators(l)
    ensures BinaryRest(ts, pos, l, left) == Ok(Parsed(left, pos))
  {
    assert !CheckAny(ts, pos, Operators(l));
  }

  /** Folding an operator of a level keeps the tree well formed. */
  lemma CombineValid(l: Level, left: Expr, op: Token, right: Expr)
    requires ValidExpr(left) && ValidExpr(right) && op.kind in Operators(l)
    ensures ValidExpr(Combine(l, left, op, right))
  {
  }

  /** The loop of a level folds one more operator and operand to the left. */
  lemma RestFolds(ts: seq<Token>, pos: nat, l: Level, left: Expr, right: Expr, next: nat)
    requires ValidTokens(ts) && pos + 1 < |ts| && ValidExpr(left)
    requires ts[pos].kind in Operators(l)
    requires Operand(ts, pos + 1, l) == Ok(Parsed(right, next))
    ensures next < |ts| && ValidExpr(Combine(l, left, ts[pos], right))
    ensures BinaryRest(ts, pos, l, left) == BinaryRest(ts, next, l, Combine(l, left, ts[pos], right))
  {
    var r := Operand(ts, pos + 1, l);
    assert !r.IsFailure() && r.Extract() == Parsed(right, next);
    CombineValid(l, left, ts[pos], right);
    assert CheckAny(ts, pos, Operators(l));
  }

  /** The token kinds that are a whole primary on their own. */
  const AtomKinds: set<Kind> := {Number, String, Identifier}

  /** The primary an atom token parses to: a variable for an identifier, a
      literal carrying the scanned value otherwise. */
  function AtomOf(t: Token): Expr {
    if t.kind == Identifier then Variable(t) else Literal(t.literal)
  }

  /** An atom not followed by `(` is a primary, and a call expression, on
      its own. */
  lemma AtomCall(ts: seq<Token>, pos: nat)
    requires ValidTokens(ts) && pos + 1 < |ts| && ts[pos].kind in AtomKinds
    requires ts[pos + 1].kind != LeftParenthesis
    ensures CallExpr(ts, pos) == Ok(Parsed(AtomOf(ts[pos]), pos + 1))
  {
    var atom := AtomOf(ts[pos]);
    assert !Check(ts, pos, False) && !Check(ts, pos, True) && !Check(ts, pos, Null);
    var p := Primary(ts, pos);
    assert p == Ok(Parsed(atom, pos + 1));
    assert !p.IsFailure() && p.Extract() == Parsed(atom, pos + 1);
    assert !Check(ts, pos + 1, LeftParenthesis);
  }

  /** An atom followed by a token that neither calls it nor continues any
      level from `l` down parses, at every such operand position, as the
      bare atom. */
  lemma {:induction false} AtomOperand(ts: seq<Token>, pos: nat, l: Level)
    requires ValidTokens(ts) && pos + 1 < |ts| && ts[pos].kind in AtomKinds
    requires ts[pos + 1].kind != LeftParenthesis && ts[pos + 1].kind !in OpsBelow(l)
    ensures Operand(ts, pos, l) == Ok(Parsed(AtomOf(ts[pos]), pos + 1))
    decreases Rank(l), 0
  {
    if l == FactorLevel {
      assert !CheckAny(ts, pos, UnaryOps);
      AtomCall(ts, pos);
    } else {
      AtomLevel(ts, pos, Tighter(l));
    }
  }

  lemma {:induction false} AtomLevel(ts: seq<Token>, pos: nat, l: Level)
    requires ValidTokens(ts) && pos + 1 < |ts| && ts[pos].kind in AtomKinds
    requires ts[pos + 1].kind != LeftParenthesis && ts[pos + 1].kind !in OpsFrom(l)
    ensures BinaryLevel(ts, pos, l) == Ok(Parsed(AtomOf(ts[pos]), pos + 1))
    decreases Rank(l), 1
  {
    var atom := AtomOf(ts[pos]);
    AtomOperand(ts, pos, l);
    LevelStart(ts, pos, l, atom, pos + 1);
    RestStops(ts, pos + 1, l, atom);
  }

  /** An atom is a whole operand of `+` or `-` unless `*`, `/` or `(`
      follows it. */
  lemma AtomTerm(ts: seq<Token>, pos: nat)
    requires ValidTokens(ts) && pos + 1 < |ts| && ts[pos].kind in AtomKinds
    requires ts[pos + 1].kind !in {LeftParenthesis, Star, Slash}
    ensures Operand(ts, pos, TermLevel) == Ok(Parsed(AtomOf(ts[pos]), pos + 1))
  {
    assert OpsBelow(TermLevel) == FactorOps;
    AtomOperand(ts, pos, TermLevel);
  }

  /** An atom is a whole operand of `*` or `/` unless `(` follows it. */
  lemma AtomFactor(ts: seq<Token>, pos: nat)
    requires ValidTokens(ts) && pos + 1 < |ts| && ts[pos].kind in AtomKinds
    requires ts[pos + 1].kind != LeftParenthesis
    ensures Operand(ts, pos, FactorLevel) == Ok(Parsed(AtomOf(ts[pos]), pos + 1))
  {
    AtomOperand(ts, pos, FactorLevel);
  }

  /** An atom followed by `;`, `)`, `,` or `=` is a whole `or`-level
      expression. */
  lemma AtomAlone(ts: seq<Token>, pos: nat)
    requires ValidTokens(ts) && pos + 1 < |ts| && ts[pos].kind in AtomKinds
    requires ts[pos + 1].kind in {Semicolon, RightParenthesis, Comma, Equal}
    ensures BinaryLevel(ts, pos, OrLevel) == Ok(Parsed(AtomOf(ts[pos]), pos + 1))
  {
    AtomLevel(ts, pos, OrLevel);
  }

  /** A level adds nothing when the token after its operand is none of its
      operators. */
  lemma LevelPassesThrough(ts: seq<Token>, pos: nat, l: Level, e: Expr, next: nat)
    requires ValidTokens(ts) && pos < |ts| && l != FactorLevel
    requires BinaryLevel(ts, pos, Tighter(l)) == Ok(Parsed(e, next))
    requires next < |ts| && ts[next].kind !in Operators(l)
    ensures BinaryLevel(ts, pos, l) == Ok(Parsed(e, next))
  {
    assert Operand(ts, pos, l) == Ok(Parsed(e, next));
    LevelStart(ts, pos, l, e, next);
    RestStops(ts, next, l, e);
  }

  /** A level with exactly one operator folds its two operands. */
  lemma FoldsOnce(ts: seq<Token>, pos: nat, l: Level, x: Expr, mid: nat, y: Expr, next: nat)
    requires ValidTokens(ts) && pos < |ts| && mid + 1 < |ts| && next < |ts|
    requires Operand(ts, pos, l) == Ok(Parsed(x, mid)) && ts[mid].kind in Operators(l)
    requires Operand(ts, mid + 1, l) == Ok(Parsed(y, next)) && ts[next].kind !in Operators(l)
    ensures BinaryLevel(ts, pos, l) == Ok(Parsed(Combine(l, x, ts[mid], y), next))
  {
    LevelStart(ts, pos, l, x, mid);
    RestFolds(ts, mid, l, x, y, next);
    RestStops(ts, next, l, Combine(l, x, ts[mid], y));
  }

  /** A level with exactly two operators folds its three operands to the
      left. */
  lemma FoldsTwice(ts: seq<Token>, pos: nat, l: Level, x: Expr, m1: nat, y: Expr, m2: nat, z: Expr, next: nat)
    requires ValidTokens(ts) && pos < |ts| && m1 + 1 < |ts| && m2 + 1 < |ts| && next < |ts|
    requires Operand(ts, pos, l) == Ok(Parsed(x, m1)) && ts[m1].kind in Operators(l)
    requires Operand(ts, m1 + 1, l) == Ok(Parsed(y, m2)) && ts[m2].kind in Operators(l)
    requires Operand(ts, m2 + 1, l) == Ok(Parsed(z, next)) && ts[next].kind !in Operators(l)
    ensures BinaryLevel(ts, pos, l) == Ok(Parsed(Combine(l, Combine(l, x, ts[m1], y), ts[m2], z), next))
  {
    var xy := Combine(l, x, ts[m1], y);
    LevelStart(ts, pos, l, x, m1);
    RestFolds(ts, m1, l, x, y, m2);
    RestFolds(ts, m2, l, xy, z, next);
    RestStops(ts, next, l, Combine(l, xy, ts[m2], z));
  }

  /* ---------------- whole programs ---------------- */

  /** The tokens of `ts` have the kinds `ks`, in order. */
  predicate HasKinds(ts: seq<Token>, ks: seq<Kind>) {
    |ts| == |ks| && forall i :: 0 <= i < |ts| ==> ts[i].kind == ks[i]
  }

  /** `a + b * c` at the term level: the product is the right operand. */
  lemma ProductGroupsFirst(ts: seq<Token>)
    requires ValidTokens(ts) && |ts| > 5
    requires ts[0].kind == Number && ts[1].kind == Plus && ts[2].kind == Number
    requires ts[3].kind == Star && ts[4].kind == Number && ts[5].kind !in {LeftParenthesis, Star, Slash, Plus, Minus}
    ensures BinaryLevel(ts, 0, TermLevel) ==
      Ok(Parsed(Binary(AtomOf(ts[0]), ts[1], Binary(AtomOf(ts[2]), ts[3], AtomOf(ts[4]))), 5))
  {
    var a, b, c := AtomOf(ts[0]), AtomOf(ts[2]), AtomOf(ts[4]);
    var product := Binary(b, ts[3], c);
    AtomFactor(ts, 2);
    AtomFactor(ts, 4);
    FoldsOnce(ts, 2, FactorLevel, b, 3, c, 5);
    assert Operand(ts, 2, TermLevel) == Ok(Parsed(product, 5));
    AtomTerm(ts, 0);
    FoldsOnce(ts, 0, TermLevel, a, 1, product, 5);
  }

  /** `a + b * c;` groups the product: factor binds tighter than term. */
  lemma ProductBindsTighter(ts: seq<Token>)
    requires HasKinds(ts, [Number, Plus, Number, Star, Number, Semicolon, EndOfFile])
    ensures Parse(ts) == Ok([Stmt.ExpressionStatement(
      Binary(AtomOf(ts[0]), ts[1], Binary(AtomOf(ts[2]), ts[3], AtomOf(ts[4]))))])
  {
    assert ts[0].kind == Number && ts[1].kind == Plus && ts[2].kind == Number;
    assert ts[3].kind == Star && ts[4].kind == Number && ts[5].kind == Semicolon && ts[6].kind == EndOfFile;
    var sum := Binary(AtomOf(ts[0]), ts[1], Binary(AtomOf(ts[2]), ts[3], AtomOf(ts[4])));
    ProductGroupsFirst(ts);
    ClimbToExpression(ts, 0, sum, 5);
    ExpressionDeclaration(ts, 0, sum, 5);
    SingleDeclarationProgram(ts, Stmt.ExpressionStatement(sum));
  }

  /** `a - b - c` at the term level folds to the left. */
  lemma MinusFoldsLeft(ts: seq<Token>)
    requires ValidTokens(ts) && |ts| > 5
    requires ts[0].kind == Number && ts[1].kind == Minus && ts[2].kind == Number
    requires ts[3].kind == Minus && ts[4].kind == Number && ts[5].kind !in {LeftParenthesis, Star, Slash, Plus, Minus}
    ensures BinaryLevel(ts, 0, TermLevel) ==
      Ok(Parsed(Binary(Binary(AtomOf(ts[0]), ts[1], AtomOf(ts[2])), ts[3], AtomOf(ts[4])), 5))
  {
    var a, b, c := AtomOf(ts[0]), AtomOf(ts[2]), AtomOf(ts[4]);
    AtomTerm(ts, 0);
    AtomTerm(ts, 2);
    AtomTerm(ts, 4);
    FoldsTwice(ts, 0, TermLevel, a, 1, b, 3, c, 5);
  }

  /** `a - b - c;` folds to the left. */
  lemma MinusIsLeftAssociative(ts: seq<Token>)
    requires HasKinds(ts, [Number, Minus, Number, Minus, Number, Semicolon, EndOfFile])
    ensures Parse(ts) == Ok([Stmt.ExpressionStatement(
      Binary(Binary(AtomOf(ts[0]), ts[1], AtomOf(ts[2])), ts[3], AtomOf(ts[4])))])
  {
    assert ts[0].kind == Number && ts[1].kind == Minus && ts[2].kind == Number;
    assert ts[3].kind == Minus && ts[4].kind == Number && ts[5].kind == Semicolon && ts[6].kind == EndOfFile;
    var whole := Binary(Binary(AtomOf(ts[0]), ts[1], AtomOf(ts[2])), ts[3], AtomOf(ts[4]));
    MinusFoldsLeft(ts);
    ClimbToExpression(ts, 0, whole, 5);
    ExpressionDeclaration(ts, 0, whole, 5);
    SingleDeclarationProgram(ts, Stmt.ExpressionStatement(whole));
  }

  /** From the term level up to a whole expression when a `;` follows. */
  lemma ClimbToExpression(ts: seq<Token>, pos: nat, e: Expr, next: nat)
    requires ValidTokens(ts) && pos < |ts| && next < |ts| && ts[next].kind == Semicolon
    requires BinaryLevel(ts, pos, TermLevel) == Ok(Parsed(e, next))
    ensures Expression(ts, pos) == Ok(Parsed(e, next))
  {
    LevelPassesThrough(ts, pos, ComparisonLevel, e, next);
    LevelPassesThrough(ts, pos, EqualityLevel, e, next);
    LevelPassesThrough(ts, pos, AndLevel, e, next);
    LevelPassesThrough(ts, pos, OrLevel, e, next);
  }

  /** A statement that starts with none of the statement keywords is an
      expression statement. */
  lemma StatementIsExpressionStatement(ts: seq<Token>, pos: nat)
    requires ValidTokens(ts) && pos < |ts|
    requires ts[pos].kind !in {Kind.If, For, Kind.While, Kind.Print, LeftBrace}
    ensures Statement(ts, pos) == ExprStatement(ts, pos)
  {
    assert !Check(ts, pos, Kind.If) && !Check(ts, pos, For) && !Check(ts, pos, Kind.While);
    assert !Check(ts, pos, Kind.Print) && !Check(ts, pos, LeftBrace);
  }

  /** A declaration that starts with neither `fun` nor `var` nor a statement
      keyword is an expression statement. */
  lemma DeclarationIsExpressionStatement(ts: seq<Token>, pos: nat)
    requires ValidTokens(ts) && pos < |ts|
    requires ts[pos].kind !in {Fun, Kind.Var, Kind.If, For, Kind.While, Kind.Print, LeftBrace}
    ensures Declaration(ts, pos) == ExprStatement(ts, pos)
  {
    assert !Check(ts, pos, Fun) && !Check(ts, pos, Kind.Var);
    StatementIsExpressionStatement(ts, pos);
  }

  /** An expression followed by `;` is an expression statement. */
  lemma ExpressionThenSemicolon(ts: seq<Token>, pos: nat, e: Expr, next: nat)
    requires ValidTokens(ts) && pos < |ts| && next + 1 < |ts| && ts[next].kind == Semicolon
    requires Expression(ts, pos) == Ok(Parsed(e, next))
    ensures ExprStatement(ts, pos) == Ok(Parsed(Stmt.ExpressionStatement(e), next + 1))
  {
    var ex := Expression(ts, pos);
    var semicolon := Expect(ts, next, Semicolon, "Expect ';' after value.");
    assert semicolon == Ok(Parsed(ts[next], next + 1));
    assert !ex.IsFailure() && ex.Extract() == Parsed(e, next);
    assert !semicolon.IsFailure();
  }

  /** The program loop appends each declaration and carries on after it. */
  lemma ParseFromStep(ts: seq<Token>, pos: nat, acc: seq<Stmt>, s: Stmt, next: nat)
    requires ValidTokens(ts) && pos < |ts| && ValidStmts(acc) && !AtEnd(ts, pos)
    requires Declaration(ts, pos) == Ok(Parsed(s, next))
    ensures next < |ts| && ValidStmts(acc + [s])
    ensures ParseFrom(ts, pos, acc) == ParseFrom(ts, next, acc + [s])
  {
    var decl := Declaration(ts, pos);
    assert !decl.IsFailure() && decl.Extract() == Parsed(s, next);
  }

  /** An expression and `;`, not starting with a keyword of another
      statement, is a whole declaration. */
  lemma ExpressionDeclaration(ts: seq<Token>, pos: nat, e: Expr, next: nat)
    requires ValidTokens(ts) && pos < |ts| && next + 1 < |ts| && ts[next].kind == Semicolon
    requires ts[pos].kind !in {Fun, Kind.Var, Kind.If, For, Kind.While, Kind.Print, LeftBrace}
    requires Expression(ts, pos) == Ok(Parsed(e, next))
    ensures Declaration(ts, pos) == Ok(Parsed(Stmt.ExpressionStatement(e), next + 1))
  {
    ExpressionThenSemicolon(ts, pos, e, next);
    DeclarationIsExpressionStatement(ts, pos);
  }

  /** A program that is one declaration ending just before EOF. */
  lemma SingleDeclarationProgram(ts: seq<Token>, s: Stmt)
    requires ValidTokens(ts) && |ts| >= 2 && ts[0].kind != EndOfFile
    requires Declaration(ts, 0) == Ok(Parsed(s, |ts| - 1))
    ensures Parse(ts) == Ok([s])
  {
    var last := |ts| - 1;
    ParseFromStep(ts, 0, [], s, last);
    assert [] + [s] == [s];
    assert ParseFrom(ts, last, [s]) == Ok([s]) by {
      assert AtEnd(ts, last);
    }
    assert Parse(ts) == ParseFrom(ts, 0, []);
  }

  /* ---------------- assignment ---------------- */

  /** Without `=` after it, an `or`-level expression is the whole
      assignment. */
  lemma AssignmentIsTarget(ts: seq<Token>, pos: nat, e: Expr, next: nat)
    requires ValidTokens(ts) && pos < |ts| && next < |ts| && ts[next].kind != Equal
    requires BinaryLevel(ts, pos, OrLevel) == Ok(Parsed(e, next))
    ensures Assignment(ts, pos) == Ok(Parsed(e, next))
  {
    var target := BinaryLevel(ts, pos, OrLevel);
    assert !target.IsFailure() && target.Extract() == Parsed(e, next);
    assert !Check(ts, next, Equal);
  }

  /** A variable followed by `=` takes the value parsed after the `=`, which
      is itself an assignment: `=` groups to the right. */
  lemma AssignmentOfVariable(ts: seq<Token>, pos: nat, name: Token, mid: nat, v: Expr, next: nat)
    requires ValidTokens(ts) && pos < |ts| && mid + 1 < |ts| && ts[mid].kind == Equal
    requires BinaryLevel(ts, pos, OrLevel) == Ok(Parsed(Variable(name), mid))
    requires Assignment(ts, mid + 1) == Ok(Parsed(v, next))
    ensures Assignment(ts, pos) == Ok(Parsed(Assign(name, v), next))
  {
    var target := BinaryLevel(ts, pos, OrLevel);
    assert !target.IsFailure() && target.Extract() == Parsed(Variable(name), mid);
    assert Check(ts, mid, Equal);
    var value := Assignment(ts, mid + 1);
    assert !value.IsFailure() && value.Extract() == Parsed(v, next);
    assert AssignedValue(ts, mid, Variable(name)) == Ok(Parsed(Assign(name, v), next));
  }

  /** Any other target before `=` is a syntax error at the `=`; the value
      is parsed first, so an error inside the value is the one reported. */
  lemma InvalidAssignmentTarget(ts: seq<Token>, pos: nat, e: Expr, mid: nat)
    requires ValidTokens(ts) && pos < |ts| && mid + 1 < |ts| && ts[mid].kind == Equal
    requires BinaryLevel(ts, pos, OrLevel) == Ok(Parsed(e, mid)) && !e.Variable?
    ensures Assignment(ts, mid + 1).Ok? ==> Assignment(ts, pos) == Err(SyntaxError(ts[mid], "Invalid assignment target."))
    ensures Assignment(ts, mid + 1).Err? ==> Assignment(ts, pos) == Assignment(ts, mid + 1).PropagateFailure()
  {
    var target := BinaryLevel(ts, pos, OrLevel);
    assert !target.IsFailure() && target.Extract() == Parsed(e, mid);
    assert Check(ts, mid, Equal);
    assert Assignment(ts, pos) == AssignedValue(ts, mid, e);
  }

  /** `a = b = c;` assigns `c` to `b` and the result to `a`. */
  lemma AssignmentGroupsRight(ts: seq<Token>)
    requires HasKinds(ts, [Identifier, Equal, Identifier, Equal, Identifier, Semicolon, EndOfFile])
    ensures Parse(ts) == Ok([Stmt.ExpressionStatement(Assign(ts[0], Assign(ts[2], Variable(ts[4]))))])
  {
    assert ts[0].kind == Identifier && ts[1].kind == Equal && ts[2].kind == Identifier;
    assert ts[3].kind == Equal && ts[4].kind == Identifier && ts[5].kind == Semicolon && ts[6].kind == EndOfFile;
    var c := Variable(ts[4]);
    var whole := Assign(ts[0], Assign(ts[2], c));
    AtomAlone(ts, 4);
    AssignmentIsTarget(ts, 4, c, 5);
    AtomAlone(ts, 2);
    AssignmentOfVariable(ts, 2, ts[2], 3, c, 5);
    AtomAlone(ts, 0);
    AssignmentOfVariable(ts, 0, ts[0], 1, Assign(ts[2], c), 5);
    ExpressionDeclaration(ts, 0, whole, 5);
    SingleDeclarationProgram(ts, Stmt.ExpressionStatement(whole));
  }

  /** An expression that fails to parse fails its statement with the same
      error. */
  lemma ExpressionFails(ts: seq<Token>, pos: nat)
    requires ValidTokens(ts) && pos < |ts| && Expression(ts, pos).Err?
    ensures ExprStatement(ts, pos) == Err(Expression(ts, pos).error)
  {
    assert Expression(ts, pos).IsFailure();
  }

  /** The first declaration that fails ends the whole parse with its error. */
  lemma ParseFromFails(ts: seq<Token>, pos: nat, acc: seq<Stmt>)
    requires ValidTokens(ts) && pos < |ts| && ValidStmts(acc) && !AtEnd(ts, pos)
    requires Declaration(ts, pos).Err?
    ensures ParseFrom(ts, pos, acc) == Err(Declaration(ts, pos).error)
  {
    assert Declaration(ts, pos).IsFailure();
  }

  /** `n = 1;` with a number on the left is rejected at the `=`. */
  lemma NumberIsNoTarget(ts: seq<Token>)
    requires HasKinds(ts, [Number, Equal, Number, Semicolon, EndOfFile])
    ensures Parse(ts) == Err(SyntaxError(ts[1], "Invalid assignment target."))
  {
    assert ts[0].kind == Number && ts[1].kind == Equal && ts[2].kind == Number;
    assert ts[3].kind == Semicolon && ts[4].kind == EndOfFile;
    var err := SyntaxError(ts[1], "Invalid assignment target.");
    AtomAlone(ts, 2);
    AssignmentIsTarget(ts, 2, AtomOf(ts[2]), 3);
    AtomAlone(ts, 0);
    InvalidAssignmentTarget(ts, 0, AtomOf(ts[0]), 1);
    assert Expression(ts, 0) == Err(err);
    ExpressionFails(ts, 0);
    DeclarationIsExpressionStatement(ts, 0);
    ParseFromFails(ts, 0, []);
  }

  /* ---------------- the dangling else ---------------- */

  /** The branches of an `if` build an `if` node on the given condition, and
      one without `else` stops at a token that is not `else`. */
  lemma IfBranchesShape(ts: seq<Token>, pos: nat, cond: Expr)
    requires ValidTokens(ts) && pos < |ts| && ValidExpr(cond) && IfBranches(ts, pos, cond).Ok?
    ensures IfBranches(ts, pos, cond).value.node.If? && IfBranches(ts, pos, cond).value.node.cond == cond
    ensures IfBranches(ts, pos, cond).value.node.elseBranch.None? ==> !Check(ts, IfBranches(ts, pos, cond).value.next, Else)
  {
    var t := Statement(ts, pos);
    assert !t.IsFailure();
  }

  /** The then branch of an `if` is the statement after its condition, and
      the `if` has no `else` exactly when no `else` follows that statement. */
  lemma IfBranchesParts(ts: seq<Token>, pos: nat, cond: Expr)
    requires ValidTokens(ts) && pos < |ts| && ValidExpr(cond) && IfBranches(ts, pos, cond).Ok?
    ensures Statement(ts, pos).Ok?
    ensures IfBranches(ts, pos, cond).value.node.If?
    ensures IfBranches(ts, pos, cond).value.node.thenBranch == Statement(ts, pos).value.node
    ensures IfBranches(ts, pos, cond).value.node.elseBranch.None? <==> !Check(ts, Statement(ts, pos).value.next, Else)
  {
    var t := Statement(ts, pos);
    assert !t.IsFailure();
  }

  /** The same for a whole `if` statement after the `if` keyword. */
  lemma IfStatementShape(ts: seq<Token>, pos: nat)
    requires ValidTokens(ts) && pos < |ts| && IfStatement(ts, pos).Ok?
    ensures IfStatement(ts, pos).value.node.If?
    ensures IfStatement(ts, pos).value.node.elseBranch.None? ==> !Check(ts, IfStatement(ts, pos).value.next, Else)
  {
    var open := Expect(ts, pos, LeftParenthesis, "Expect '(' after 'if'.");
    assert !open.IsFailure();
    var cond := Expression(ts, open.Extract().next);
    assert !cond.IsFailure();
    var close := Expect(ts, cond.Extract().next, RightParenthesis, "Expect ')' after if condition.");
    assert !close.IsFailure();
    assert IfStatement(ts, pos) == IfBranches(ts, close.Extract().next, cond.Extract().node);
    IfBranchesShape(ts, close.Extract().next, cond.Extract().node);
  }

  /** An `else` belongs to the nearest `if`: when the then branch of an
      `if` is itself an `if`, the outer `if` can only have an `else` if the
      inner one has one too. */
  lemma ElseBindsNearest(ts: seq<Token>, pos: nat, cond: Expr)
    requires ValidTokens(ts) && pos < |ts| && ValidExpr(cond) && IfBranches(ts, pos, cond).Ok?
    requires ts[pos].kind == Kind.If
    ensures IfBranches(ts, pos, cond).value.node.thenBranch.If?
    ensures IfBranches(ts, pos, cond).value.node.thenBranch.elseBranch.None? ==>
      IfBranches(ts, pos, cond).value.node.elseBranch.None?
  {
    IfBranchesParts(ts, pos, cond);
    IfStatementAtShape(ts, pos);
  }

  /** A statement starting with `if` is an `if` node, and one without
      `else` stops at a token that is not `else`. */
  lemma IfStatementAtShape(ts: seq<Token>, pos: nat)
    requires ValidTokens(ts) && pos < |ts| && ts[pos].kind == Kind.If && Statement(ts, pos).Ok?
    ensures Statement(ts, pos).value.node.If?
    ensures Statement(ts, pos).value.node.elseBranch.None? ==> !Check(ts, Statement(ts, pos).value.next, Else)
  {
    StatementIsIf(ts, pos);
    IfStatementShape(ts, pos + 1);
  }

  /** A statement starting with `if` is an `if` statement. */
  lemma StatementIsIf(ts: seq<Token>, pos: nat)
    requires ValidTokens(ts) && pos < |ts| && ts[pos].kind == Kind.If
    ensures pos + 1 < |ts| && Statement(ts, pos) == IfStatement(ts, pos + 1)
  {
    assert Check(ts, pos, Kind.If);
  }

  /* ---------------- for loops ---------------- */

  /** `for (;;) body` has no initializer, condition or increment: it is a
      `while` loop on the literal `true` around the unchanged body. */
  lemma EmptyForIsWhileTrue(ts: seq<Token>, pos: nat, body: Stmt, next: nat)
    requires ValidTokens(ts) && pos + 4 < |ts|
    requires ts[pos].kind == LeftParenthesis && ts[pos + 1].kind == Semicolon
    requires ts[pos + 2].kind == Semicolon && ts[pos + 3].kind == RightParenthesis
    requires Statement(ts, pos + 4) == Ok(Parsed(body, next))
    ensures ForStatement(ts, pos) == Ok(Parsed(Stmt.While(Literal(LBool(true)), body), next))
  {
    EmptyForClauses(ts, pos);
    var b := Statement(ts, pos + 4);
    assert !b.IsFailure() && b.Extract() == Parsed(body, next);
    assert DesugarFor(None, None, None, body) == Stmt.While(Literal(LBool(true)), body);
  }

  /** `for (init; cond; increment) body` with all three clauses present
      becomes a block that runs `init` once and then a `while (cond)` loop
      whose body is a block of `body` followed by `increment` as a
      statement. */
  lemma FullForIsBlockWithWhile(ts: seq<Token>, pos: nat, init: Stmt, cond: Expr, increment: Expr,
                                body: Stmt, c: nat, next: nat)
    requires ValidTokens(ts) && pos < |ts|
    requires HeaderAt(ts, pos, ForHeader(Some(init), Some(cond), Some(increment)), c)
    requires c < |ts| && Statement(ts, c) == Ok(Parsed(body, next))
    ensures ForStatement(ts, pos) ==
      Ok(Parsed(Block([init, Stmt.While(cond, Block([body, Stmt.ExpressionStatement(increment)]))]), next))
  {
    assert ForClauses(ts, pos) == Ok(Parsed(ForHeader(Some(init), Some(cond), Some(increment)), c));
    var r := Statement(ts, c);
    assert !r.IsFailure() && r.Extract() == Parsed(body, next);
  }

  /** The three rules of the rewrite: without an initializer there is no
      block around the loop, and with one the block runs it once before the
      loop; a missing condition loops on the literal `true`; a missing
      increment leaves the body unchanged, and a present one runs after the
      body in a block. */
  lemma DesugarForRules(init: Option<Stmt>, cond: Option<Expr>, increment: Option<Expr>, body: Stmt)
    ensures var r := DesugarFor(init, cond, increment, body);
      && (init.None? <==> r.While?)
      && (init.Some? ==> r.Block? && |r.statements| == 2 && r.statements[0] == init.value && r.statements[1].While?)
      && var loop := if init.Some? then r.statements[1] else r;
         && (cond.None? ==> loop.cond == Literal(LBool(true)))
         && (cond.Some? ==> loop.cond == cond.value)
         && (increment.None? ==> loop.loopBody == body)
         && (increment.Some? ==> loop.loopBody == Block([body, Stmt.ExpressionStatement(increment.value)]))
  {
  }

  /** Whatever clauses the header holds, `for` parses to the `while` loop
      that `DesugarFor` builds from them and the body after the header. */
  lemma ForIsDesugaredHeader(ts: seq<Token>, pos: nat, h: ForHeader, c: nat, body: Stmt, next: nat)
    requires ValidTokens(ts) && pos < |ts| && HeaderAt(ts, pos, h, c)
    requires c < |ts| && Statement(ts, c) == Ok(Parsed(body, next))
    ensures ForStatement(ts, pos) == Ok(Parsed(DesugarFor(h.init, h.cond, h.increment, body), next))
  {
    assert ForClauses(ts, pos) == Ok(Parsed(h, c));
    var r := Statement(ts, c);
    assert !r.IsFailure() && r.Extract() == Parsed(body, next);
  }

  /** `for (; cond;) body`, with only a condition, is exactly
      `while (cond) body`: no block around the loop or inside it. */
  lemma ConditionOnlyForIsWhile(ts: seq<Token>, pos: nat, cond: Expr, c: nat, body: Stmt, next: nat)
    requires ValidTokens(ts) && pos < |ts| && HeaderAt(ts, pos, ForHeader(None, Some(cond), None), c)
    requires c < |ts| && Statement(ts, c) == Ok(Parsed(body, next))
    ensures ForStatement(ts, pos) == Ok(Parsed(Stmt.While(cond, body), next))
  {
    ForIsDesugaredHeader(ts, pos, ForHeader(None, Some(cond), None), c, body, next);
    DesugarForRules(None, Some(cond), None, body);
  }

  /** `for (init;; increment) body`, with no condition, loops on the literal
      `true` inside the block that runs `init` once. */
  lemma MissingConditionForIsWhileTrue(ts: seq<Token>, pos: nat, init: Stmt, increment: Expr, c: nat,
                                       body: Stmt, next: nat)
    requires ValidTokens(ts) && pos < |ts| && HeaderAt(ts, pos, ForHeader(Some(init), None, Some(increment)), c)
    requires c < |ts| && Statement(ts, c) == Ok(Parsed(body, next))
    ensures ForStatement(ts, pos) ==
      Ok(Parsed(Block([init, Stmt.While(Literal(LBool(true)), Block([body, Stmt.ExpressionStatement(increment)]))]), next))
  {
    ForIsDesugaredHeader(ts, pos, ForHeader(Some(init), None, Some(increment)), c, body, next);
    DesugarForRules(Some(init), None, Some(increment), body);
  }

  /** `(`, an initializer, a clause closed by `;` and a clause closed by `)`
      read in turn give the header of those three parts. */
  lemma ForClausesRead(ts: seq<Token>, pos: nat, init: Option<Stmt>, p1: nat, cond: Option<Expr>, p2: nat,
                       increment: Option<Expr>, p3: nat)
    requires ValidTokens(ts) && pos + 1 < |ts| && ts[pos].kind == LeftParenthesis
    requires ForInitializer(ts, pos + 1) == Ok(Parsed(init, p1))
    requires p1 < |ts| && OptionalClause(ts, p1, Semicolon, ConditionClose) == Ok(Parsed(cond, p2))
    requires p2 < |ts| && OptionalClause(ts, p2, RightParenthesis, IncrementClose) == Ok(Parsed(increment, p3))
    ensures ForClauses(ts, pos) == Ok(Parsed(ForHeader(init, cond, increment), p3))
  {
    assert HeaderAt(ts, pos, ForHeader(init, cond, increment), p3);
  }

  /** A clause is its optional expression followed by its `stop` token. */
  lemma ClauseRead(ts: seq<Token>, pos: nat, stop: Kind, message: string, e: Option<Expr>, next: nat)
    requires ValidTokens(ts) && pos < |ts| && stop != EndOfFile
    requires OptionalExpression(ts, pos, stop) == Ok(Parsed(e, next))
    requires next + 1 < |ts| && ts[next].kind == stop
    ensures OptionalClause(ts, pos, stop, message) == Ok(Parsed(e, next + 1))
  {
    assert Expect(ts, next, stop, message) == Ok(Parsed(ts[next], next + 1));
  }

  /** The clauses of `for (;;)` are all empty and end before the body. */
  lemma EmptyForClauses(ts: seq<Token>, pos: nat)
    requires ValidTokens(ts) && pos + 4 < |ts|
    requires ts[pos].kind == LeftParenthesis && ts[pos + 1].kind == Semicolon
    requires ts[pos + 2].kind == Semicolon && ts[pos + 3].kind == RightParenthesis
    ensures Expect(ts, pos, LeftParenthesis, "Expect '(' after 'for'.") == Ok(Parsed(ts[pos], pos + 1))
    ensures ForInitializer(ts, pos + 1) == Ok(Parsed(None, pos + 2))
    ensures OptionalClause(ts, pos + 2, Semicolon, ConditionClose) == Ok(Parsed(None, pos + 3))
    ensures OptionalClause(ts, pos + 3, RightParenthesis, IncrementClose) == Ok(Parsed(None, pos + 4))
    ensures ForClauses(ts, pos) == Ok(Parsed(ForHeader(None, None, None), pos + 4))
  {
  }
}

=== FILE: scanner.dfy ===
/** The scanner: turns the input text into a token list that ends in one EOF
    token. It reads through an `InputStream.Stream`; every read of the
    character under the cursor at the end of the input is a host
    IndexOutOfRangeException, and the paths that do so are kept as such. */
module Scanner {
  import Text
  import opened Tokens
  import opened Diagnostics
  import opened InputStream

  /* ---------------- character classes ---------------- */

  /** Whitespace is exactly space, tab, newline and carriage return. */
  predicate IsWhitespace(c: char) {
    c == ' ' || c == '\t' || c == '\n' || c == '\r'
  }

  /** A comment runs up to, not including, the next newline. */
  predicate IsCommentChar(c: char) {
    c != '\n'
  }

  predicate IsDigit(c: char) {
    Text.IsDigit(c)
  }

  predicate IsIdentifierStart(c: char) {
    ('a' <= c <= 'z') || ('A' <= c <= 'Z') || c == '_'
  }

  predicate IsIdentifierChar(c: char) {
    IsIdentifierStart(c) || IsDigit(c)
  }

  /** The string loop stops at the first double quote; a backslash is an
      ordinary character (the source compares the char with the string "\\",
      which is never equal, so its escape flag is never set). */
  predicate IsStringChar(c: char) {
    c != '"'
  }

  /** The keyword table. "return" is not in it. */
  const Keywords: map<string, Kind> := map[
    "null" := Null, "void" := Void, "if" := If, "else" := Else,
    "true" := True, "false" := False, "for" := For, "while" := While,
    "print" := Print, "var" := Var, "or" := Or, "fun" := Fun, "and" := And]

  /** Characters that are a token on their own. */
  const SingleCharKinds: map<char, Kind> := map[
    '(' := LeftParenthesis, ')' := RightParenthesis,
    '{' := LeftBrace, '}' := RightBrace, ',' := Comma, '.' := Dot,
    '-' := Minus, '+' := Plus, ';' := Semicolon, '*' := Star]

  /** Characters that start a one-or-two-character operator, with the kind
      alone and the kind followed by '='. */
  const OperatorKinds: map<char, (Kind, Kind)> := map[
    '!' := (Exclamation, ExclamationEqual), '=' := (Equal, EqualEqual),
    '<' := (Less, LessEqual), '>' := (Greater, GreaterEqual)]

  /** The fixed text of every punctuation and operator kind. */
  function Spelling(k: Kind): string {
    match k
    case LeftParenthesis => "("
    case RightParenthesis => ")"
    case LeftBrace => "{"
    case RightBrace => "}"
    case Comma => ","
    case Dot => "."
    case Minus => "-"
    case Plus => "+"
    case Semicolon => ";"
    case Slash => "/"
    case Star => "*"
    case Exclamation => "!"
    case ExclamationEqual => "!="
    case Equal => "="
    case EqualEqual => "=="
    case Greater => ">"
    case GreaterEqual => ">="
    case Less => "<"
    case LessEqual => "<="
    case _ => ""
  }

  /* ---------------- lexeme shapes ---------------- */

  predicate IsIdentifierWord(w: string) {
    |w| > 0 && IsIdentifierStart(w[0]) && forall i :: 0 <= i < |w| ==> IsIdentifierChar(w[i])
  }

  /** Index of the first '.' of `x`, or |x| when there is none. */
  function DotIndex(x: string): (k: nat)
    ensures k <= |x| && (k < |x| ==> x[k] == '.')
    ensures forall i :: 0 <= i < k ==> x[i] != '.'
  {
    if x == [] then 0 else if x[0] == '.' then 0 else 1 + DotIndex(x[1..])
  }

  /** A number lexeme: one or more digits, optionally followed by '.' and one
      or more digits. */
  predicate IsNumberLexeme(x: string) {
    var k := DotIndex(x);
    && 0 < k
    && Text.AllDigits(x[..k])
    && (k < |x| ==> k + 1 < |x| && Text.AllDigits(x[k + 1..]))
  }

  function Pow10(n: nat): (r: nat)
    ensures r > 0
  {
    if n == 0 then 1 else 10 * Pow10(n - 1)
  }

  /** The exact decimal value of a number lexeme (Double.Parse without the
      rounding to the nearest double). */
  function NumberValue(x: string): real
    requires IsNumberLexeme(x)
  {
    var k := DotIndex(x);
    var whole := Text.DigitsToNat(x[..k]) as real;
    if k < |x| then whole + (Text.DigitsToNat(x[k + 1..]) as real) / (Pow10(|x| - k - 1) as real)
    else whole
  }

  /** The relation between a token's kind, lexeme and literal that every
      scanned token satisfies. */
  predicate WellFormed(t: Token) {
    match t.kind
    case String =>
      && |t.lexeme| >= 2 && t.lexeme[0] == '"' && t.lexeme[|t.lexeme| - 1] == '"'
      && t.literal == LStr(t.lexeme[1..|t.lexeme| - 1])
      && (forall i :: 1 <= i < |t.lexeme| - 1 ==> t.lexeme[i] != '"')
    case Number => IsNumberLexeme(t.lexeme) && t.literal == LNum(NumberValue(t.lexeme))
    case Identifier => IsIdentifierWord(t.lexeme) && t.lexeme !in Keywords && t.literal == LNull
    case EndOfFile => t.lexeme == "" && t.literal == LNull
    case Boolean => false
    case Return => false
    case Null | Void | If | Else | True | False | For | While | Print | Var | Or | And | Fun =>
      t.lexeme in Keywords && Keywords[t.lexeme] == t.kind && t.literal == LNull
    case _ => t.lexeme == Spelling(t.kind) && t.literal == LNull
  }

  /** Scanned tokens of punctuation and operator kinds are well formed. */
  lemma SpelledTokenWellFormed(t: Token)
    requires |t.lexeme| > 0 && t.lexeme == Spelling(t.kind) && t.literal == LNull
    ensures WellFormed(t) && t.kind != EndOfFile
  {
  }

  lemma SingleCharSpelling(c: char)
    requires c in SingleCharKinds
    ensures Spelling(SingleCharKinds[c]) == [c]
  {
  }

  lemma OperatorSpelling(c: char)
    requires c in OperatorKinds
    ensures Spelling(OperatorKinds[c].0) == [c]
    ensures Spelling(OperatorKinds[c].1) == [c, '=']
  {
  }

  /** Every keyword of the table is spelled as its kind expects. */
  lemma KeywordWellFormed(t: Token)
    requires t.lexeme in Keywords && t.kind == Keywords[t.lexeme] && t.literal == LNull
    ensures WellFormed(t) && t.kind != EndOfFile
  {
  }

  lemma DotIndexSkipsDigits(d: string, rest: string)
    requires Text.AllDigits(d)
    ensures DotIndex(d + rest) == |d| + DotIndex(rest)
  {
    if d == [] {
      assert d + rest == rest;
    } else {
      assert Text.IsDigit(d[0]) && (d + rest)[0] == d[0];
      assert (d + rest)[1..] == d[1..] + rest;
      DotIndexSkipsDigits(d[1..], rest);
    }
  }

  /** A run of digits is a number lexeme. */
  lemma WholeNumberLexeme(digits: string)
    requires |digits| > 0 && Text.AllDigits(digits)
    ensures IsNumberLexeme(digits)
  {
    DotIndexSkipsDigits(digits, []);
    assert digits + [] == digits && digits[..|digits|] == digits;
  }

  /** Two runs of digits joined by a '.' are a number lexeme. */
  lemma FractionalNumberLexeme(digits: string, fraction: string)
    requires |digits| > 0 && Text.AllDigits(digits)
    requires |fraction| > 0 && Text.AllDigits(fraction)
    ensures IsNumberLexeme(digits + "." + fraction)
  {
    var text := digits + "." + fraction;
    DotIndexSkipsDigits(digits, "." + fraction);
    assert text == digits + ("." + fraction);
    assert text[..|digits|] == digits && text[|digits| + 1..] == fraction;
  }

  lemma StringTokenWellFormed(body: string, line: nat)
    requires forall i :: 0 <= i < |body| ==> body[i] != '"'
    ensures var text := ['"'] + body + ['"'];
      WellFormed(Token(String, text, LStr(body), line))
  {
    var text := ['"'] + body + ['"'];
    assert text[1..|text| - 1] == body;
    assert forall i :: 1 <= i < |text| - 1 ==> text[i] == body[i - 1];
  }

  lemma NumberTokenWellFormed(text: string, line: nat)
    requires IsNumberLexeme(text)
    ensures WellFormed(Token(Number, text, LNum(NumberValue(text)), line))
  {
  }

  /* ---------------- reading ---------------- */

  /** What one scanning step produced (zero or one token) and where it left
      the cursor. */
  datatype Lexed = Lexed(tokens: seq<Token>, rest: Stream)

  /** What every successful step guarantees: the cursor moved forward over
      the same input, the last character it consumed is not a newline, and
      it produced at most one well-formed, non-EOF token. */
  ghost predicate Progress(s: Stream, r: Lexed) {
    var q := r.rest.position;
    && InBounds(r.rest) && r.rest.input == s.input
    && s.position < q
    && s.input[q - 1] != '\n'
    && |r.tokens| <= 1
    && (forall t :: t in r.tokens ==> WellFormed(t) && t.kind != EndOfFile)
  }

  /** Consumes characters while they satisfy `p`; returns them and the cursor
      at the first character that does not (or at the end). */
  function ReadWhile(s: Stream, p: char -> bool): (r: (string, Stream))
    requires InBounds(s)
    ensures InBounds(r.1) && r.1.input == s.input && s.position <= r.1.position
    ensures r.0 == s.input[s.position..r.1.position]
    ensures forall i :: s.position <= i < r.1.position ==> p(s.input[i])
    ensures Eof(r.1) || !p(Peek(r.1))
    decreases |s.input| - s.position
  {
    if Eof(s) || !p(Peek(s)) then ("", s)
    else
      var (c, s1) := Next(s);
      var (rest, s2) := ReadWhile(s1, p);
      ([c] + rest, s2)
  }

  /** Consumes one punctuation character and emits it as a token of its kind. */
  function Single(s: Stream, kind: Kind): (r: Lexed)
    requires InBounds(s) && !Eof(s) && Spelling(kind) == [Peek(s)]
    ensures Progress(s, r)
    ensures r.rest.position == s.position + 1
    ensures r.tokens == [Token(kind, [Peek(s)], LNull, r.rest.line)]
    ensures r.tokens[0].lexeme == s.input[s.position..r.rest.position]
  {
    var (c, s1) := Next(s);
    SliceOfOne(s.input, s.position);
    SpelledTokenWellFormed(Token(kind, [c], LNull, s1.line));
    Lexed([Token(kind, [c], LNull, s1.line)], s1)
  }

  /** A string literal: the opening quote, everything up to the first
      following quote, and that quote. With no closing quote the loop reads
      past the end of the input. */
  function ScanString(s: Stream): (r: Result<Lexed>)
    requires InBounds(s) && !Eof(s) && Peek(s) == '"'
    ensures r.Err? <==> NoQuote(s.input, s.position + 1, |s.input|)
    ensures r.Err? ==> r.error == IndexOutOfRange
    ensures r.Ok? ==> Progress(s, r.value)
    ensures r.Ok? ==> var q := r.value.rest.position;
      && s.position + 2 <= q && s.input[q - 1] == '"'
      && NoQuote(s.input, s.position + 1, q - 1)
      && r.value.tokens == [Token(String, s.input[s.position..q], LStr(s.input[s.position + 1..q - 1]), r.value.rest.line)]
  {
    var s1 := Next(s).1;
    var s2 := ReadWhile(s1, IsStringChar).1;
    assert NoQuote(s.input, s.position + 1, s2.position);
    if Eof(s2) then Err(IndexOutOfRange)
    else
      assert s.input[s2.position] == '"';
      var s3 := Next(s2).1;
      StringStepProgress(s, s3);
      Ok(Lexed([Token(String, s.input[s.position..s3.position], LStr(s.input[s.position + 1..s3.position - 1]), s3.line)], s3))
  }

  /** No quote among `input[from..to]`. */
  predicate NoQuote(input: string, from: int, to: int) {
    forall i :: from <= i < to && 0 <= i < |input| ==> input[i] != '"'
  }

  /** Emitting a string token for a quoted text just consumed is a proper
      step. */
  lemma StringStepProgress(s: Stream, rest: Stream)
    requires InBounds(rest) && rest.input == s.input && s.position + 2 <= rest.position
    requires s.input[s.position] == '"' && s.input[rest.position - 1] == '"'
    requires NoQuote(s.input, s.position + 1, rest.position - 1)
    ensures var q := rest.position;
      Progress(s, Lexed([Token(String, s.input[s.position..q], LStr(s.input[s.position + 1..q - 1]), rest.line)], rest))
  {
    var q := rest.position;
    var body := s.input[s.position + 1..q - 1];
    assert s.input[s.position..q] == ['"'] + body + ['"'];
    StringTokenWellFormed(body, rest.line);
  }

  /** A number: a maximal run of digits, extended by '.' and a second run
      only when a digit follows the '.'. */
  function ScanNumber(s: Stream): (r: Lexed)
    requires InBounds(s) && !Eof(s) && IsDigit(Peek(s))
    ensures Progress(s, r)
    ensures |r.tokens| == 1 && r.tokens[0].kind == Number
    ensures r.tokens[0].lexeme == s.input[s.position..r.rest.position]
    ensures Eof(r.rest) || !IsDigit(Peek(r.rest))
    ensures DotIndex(r.tokens[0].lexeme) == |r.tokens[0].lexeme| ==>
      Eof(r.rest) || Peek(r.rest) != '.' || !IsDigit(PeekNext(r.rest))
  {
    var (digits, s1) := ReadWhile(s, IsDigit);
    if !Eof(s1) && Peek(s1) == '.' && IsDigit(PeekNext(s1)) then ScanFraction(s, digits, s1)
    else
      WholeNumberLexeme(digits);
      NumberStepProgress(s, s1, digits);
      Lexed([Token(Number, digits, LNum(NumberValue(digits)), s1.line)], s1)
  }

  /** The fractional part of a number: the '.' under the cursor and the run
      of digits after it, appended to the whole part already read. */
  function ScanFraction(s: Stream, digits: string, s1: Stream): (r: Lexed)
    requires InBounds(s1) && s1.input == s.input && s.position < s1.position
    requires digits == s.input[s.position..s1.position] && Text.AllDigits(digits)
    requires !Eof(s1) && Peek(s1) == '.' && IsDigit(PeekNext(s1))
    ensures Progress(s, r)
    ensures |r.tokens| == 1 && r.tokens[0].kind == Number
    ensures r.tokens[0].lexeme == s.input[s.position..r.rest.position]
    ensures DotIndex(r.tokens[0].lexeme) < |r.tokens[0].lexeme|
    ensures Eof(r.rest) || !IsDigit(Peek(r.rest))
  {
    var s3 := ReadWhile(Next(s1).1, IsDigit).1;
    var text := s.input[s.position..s3.position];
    FractionText(s.input, s.position, s1.position, s3.position);
    NumberStepProgress(s, s3, text);
    Lexed([Token(Number, text, LNum(NumberValue(text)), s3.line)], s3)
  }

  /** Digits, a '.', and at least one more digit, read as one lexeme. */
  lemma FractionText(input: string, start: nat, dot: nat, end: nat)
    requires start < dot && dot + 1 < end <= |input|
    requires Text.AllDigits(input[start..dot]) && input[dot] == '.'
    requires forall i :: dot < i < end ==> IsDigit(input[i])
    ensures IsNumberLexeme(input[start..end])
    ensures DotIndex(input[start..end]) == dot - start
  {
    var digits := input[start..dot];
    var fraction := input[dot + 1..end];
    assert Text.AllDigits(fraction) by {
      forall i | 0 <= i < |fraction| ensures Text.IsDigit(fraction[i]) {
        assert fraction[i] == input[dot + 1 + i];
      }
    }
    FractionalNumberLexeme(digits, fraction);
    DotIndexSkipsDigits(digits, "." + fraction);
    assert input[start..end] == digits + ("." + fraction);
  }

  /** A number lexeme ends in a digit. */
  lemma NumberLexemeEndsInDigit(x: string)
    requires IsNumberLexeme(x)
    ensures IsDigit(x[|x| - 1])
  {
  }

  /** Emitting a number token for the text just consumed is a proper step. */
  lemma NumberStepProgress(s: Stream, rest: Stream, text: string)
    requires InBounds(rest) && rest.input == s.input && s.position < rest.position
    requires text == s.input[s.position..rest.position] && IsNumberLexeme(text)
    ensures Progress(s, Lexed([Token(Number, text, LNum(NumberValue(text)), rest.line)], rest))
  {
    NumberLexemeEndsInDigit(text);
    assert s.input[rest.position - 1] == text[|text| - 1];
  }

  /** An identifier or keyword: a maximal run of identifier characters,
      classified through the keyword table. */
  function ScanIdentifier(s: Stream): (r: Lexed)
    requires InBounds(s) && !Eof(s) && IsIdentifierStart(Peek(s))
    ensures Progress(s, r)
    ensures |r.tokens| == 1 && r.tokens[0].lexeme == s.input[s.position..r.rest.position]
    ensures IsIdentifierWord(r.tokens[0].lexeme)
    ensures r.tokens[0].lexeme in Keywords ==> r.tokens[0].kind == Keywords[r.tokens[0].lexeme]
    ensures r.tokens[0].lexeme !in Keywords ==> r.tokens[0].kind == Identifier
    ensures Eof(r.rest) || !IsIdentifierChar(Peek(r.rest))
  {
    var (word, s1) := ReadWhile(s, IsIdentifierChar);
    var kind := if word in Keywords then Keywords[word] else Identifier;
    var t := Token(kind, word, LNull, s1.line);
    if word in Keywords then KeywordWellFormed(t); Lexed([t], s1)
    else Lexed([t], s1)
  }

  /** `!`, `=`, `<`, `>`: the kind is chosen by looking one character ahead,
      then the operator is consumed with its '=' if one follows. When the
      operator is the last character, the second look reads past the end. */
  function ScanOperator(s: Stream): (r: Result<Lexed>)
    requires InBounds(s) && !Eof(s) && Peek(s) in OperatorKinds
    ensures r.Err? <==> s.position + 1 == |s.input|
    ensures r.Err? ==> r.error == IndexOutOfRange
    ensures r.Ok? ==> Progress(s, r.value) && |r.value.tokens| == 1
    ensures r.Ok? ==> var t := r.value.tokens[0]; var kinds := OperatorKinds[Peek(s)];
      && t.lexeme == s.input[s.position..r.value.rest.position]
      && (s.input[s.position + 1] == '=' ==> t.kind == kinds.1 && t.lexeme == [Peek(s), '='])
      && (s.input[s.position + 1] != '=' ==> t.kind == kinds.0 && t.lexeme == [Peek(s)])
  {
    var kinds := OperatorKinds[Peek(s)];
    var kind := if PeekNext(s) == '=' then kinds.1 else kinds.0;
    OperatorSpelling(Peek(s));
    var (c, s1) := Next(s);
    if Eof(s1) then Err(IndexOutOfRange)
    else
      assert Peek(s1) == s.input[s.position + 1] == PeekNext(s);
      if Peek(s1) == '=' then
        var (c2, s2) := Next(s1);
        SliceOfTwo(s.input, s.position);
        SpelledTokenWellFormed(Token(kind, [c, c2], LNull, s2.line));
        Ok(Lexed([Token(kind, [c, c2], LNull, s2.line)], s2))
      else
        SliceOfOne(s.input, s.position);
        SpelledTokenWellFormed(Token(kind, [c], LNull, s1.line));
        Ok(Lexed([Token(kind, [c], LNull, s1.line)], s1))
  }

  /** A slice one element wide. */
  lemma SliceOfOne(xs: string, i: nat)
    requires i < |xs|
    ensures xs[i..i + 1] == [xs[i]]
  {
    assert |xs[i..i + 1]| == 1 && xs[i..i + 1][0] == xs[i];
  }

  /** A slice two elements wide. */
  lemma SliceOfTwo(xs: string, i: nat)
    requires i + 1 < |xs|
    ensures xs[i..i + 2] == [xs[i], xs[i + 1]]
  {
    assert |xs[i..i + 2]| == 2 && xs[i..i + 2][0] == xs[i] && xs[i..i + 2][1] == xs[i + 1];
  }

  /** `//` starts a comment that is discarded up to the next newline. */
  function SkipComment(s: Stream): (r: Lexed)
    requires InBounds(s) && !Eof(s) && Peek(s) == '/' && PeekNext(s) == '/'
    ensures Progress(s, r) && r.tokens == []
    ensures forall i :: s.position <= i < r.rest.position ==> s.input[i] != '\n'
    ensures Eof(r.rest) || Peek(r.rest) == '\n'
    ensures Skipped(s.input, s.position, r.rest.position, false)
  {
    var (_, s1) := ReadWhile(s, IsCommentChar);
    assert s.input[s.position + 1] == PeekNext(s);
    CommentSkipped(s.input, s.position, s1.position);
    Lexed([], s1)
  }

  /* ---------------- what the main loop skips ---------------- */

  /** `x[i..j]` is text the main loop passes over without emitting a token:
      whitespace, and `//` comments, each running up to a newline. With
      `inComment` a comment is already open at `i`; a newline closes it. */
  ghost predicate Skipped(x: string, i: nat, j: nat, inComment: bool)
    requires i <= j <= |x|
    decreases j - i
  {
    if i == j then true
    else if inComment && x[i] != '\n' then Skipped(x, i + 1, j, true)
    else
      || (IsWhitespace(x[i]) && Skipped(x, i + 1, j, false))
      || (i + 1 < j && x[i] == '/' && x[i + 1] == '/' && Skipped(x, i + 2, j, true))
  }

  /** Text without a newline is skipped inside an open comment. */
  lemma {:induction false} CommentBodySkipped(x: string, i: nat, j: nat)
    requires i <= j <= |x|
    requires forall k :: i <= k < j ==> x[k] != '\n'
    ensures Skipped(x, i, j, true)
    decreases j - i
  {
    if i < j {
      CommentBodySkipped(x, i + 1, j);
    }
  }

  /** `//` and then text without a newline is a skipped comment. */
  lemma CommentSkipped(x: string, i: nat, j: nat)
    requires i + 2 <= j <= |x| && x[i] == '/' && x[i + 1] == '/'
    requires forall k :: i <= k < j ==> x[k] != '\n'
    ensures Skipped(x, i, j, false)
  {
    CommentBodySkipped(x, i + 2, j);
  }

  /** The kind the main loop gives a token that starts with `c` and reads
      `lexeme`: the first character alone decides it, except that an
      operator's kind depends on whether its '=' was read and a word's on
      the keyword table. */
  function KindFor(c: char, lexeme: string): Kind {
    if c == '"' then String
    else if c in SingleCharKinds then SingleCharKinds[c]
    else if c in OperatorKinds then (if |lexeme| == 2 then OperatorKinds[c].1 else OperatorKinds[c].0)
    else if c == '/' then Slash
    else if IsDigit(c) then Number
    else if lexeme in Keywords then Keywords[lexeme]
    else Identifier
  }

  /** What a successful step read from the cursor on: a comment exactly when
      the cursor is on `//`, and then only skipped text; otherwise one token
      whose lexeme is exactly the text consumed and whose kind `KindFor`
      gives. */
  ghost predicate ReadsInput(s: Stream, step: Lexed) {
    && s.position < step.rest.position <= |s.input|
    && (step.tokens == [] <==> Peek(s) == '/' && PeekNext(s) == '/')
    && (step.tokens == [] ==> Skipped(s.input, s.position, step.rest.position, false))
    && (step.tokens != [] ==>
          && step.tokens[0].lexeme == s.input[s.position..step.rest.position]
          && step.tokens[0].kind == KindFor(Peek(s), step.tokens[0].lexeme))
  }

  /** The characters some case of the main loop handles. */
  predicate StartsToken(c: char) {
    c == '"' || c in SingleCharKinds || c in OperatorKinds || c == '/' || IsDigit(c) || IsIdentifierStart(c)
  }

  /** One iteration of the main loop, after whitespace: dispatch on the
      character under the cursor. */
  function ScanOne(s: Stream): (r: Result<Lexed>)
    requires InBounds(s) && !Eof(s)
    ensures r.Ok? ==> Progress(s, r.value) && ReadsInput(s, r.value)
    ensures r.Err? ==> r.error == IndexOutOfRange || r.error.InputError?
    ensures (r.Err? && r.error.InputError?) <==> !StartsToken(Peek(s))
    ensures !StartsToken(Peek(s)) ==>
      r == Err(InputError("Can't handle character: " + [Peek(s)], s.line, s.column))
  {
    var c := Peek(s);
    if c == '"' then ScanString(s)
    else if c in SingleCharKinds then SingleCharSpelling(c); Ok(Single(s, SingleCharKinds[c]))
    else if c in OperatorKinds then ScanOperator(s)
    else if c == '/' then
      if PeekNext(s) == '/' then Ok(SkipComment(s)) else Ok(Single(s, Slash))
    else if IsDigit(c) then Ok(ScanNumber(s))
    else if IsIdentifierStart(c) then Ok(ScanIdentifier(s))
    else Err(InputError("Can't handle character: " + [c], s.line, s.column))
  }

  /** The tokens are well formed and none is the EOF token. */
  ghost predicate ProperTokens(ts: seq<Token>) {
    forall t :: t in ts ==> WellFormed(t) && t.kind != EndOfFile
  }

  /** A scanner result: well-formed tokens ending in exactly one EOF token. */
  ghost predicate Terminated(ts: seq<Token>) {
    && |ts| > 0 && ProperTokens(ts[..|ts| - 1])
    && ts[|ts| - 1].kind == EndOfFile && WellFormed(ts[|ts| - 1])
  }

  lemma ProperTokensAppend(a: seq<Token>, b: seq<Token>)
    requires ProperTokens(a) && ProperTokens(b)
    ensures ProperTokens(a + b)
  {
  }

  lemma TerminatedByEof(acc: seq<Token>, line: nat)
    requires ProperTokens(acc)
    ensures var r := acc + [Token(EndOfFile, "", LNull, line)];
      Terminated(r) && r[..|acc|] == acc
  {
    var r := acc + [Token(EndOfFile, "", LNull, line)];
    assert r[..|r| - 1] == acc;
  }

  /** The main loop: skip whitespace, then scan one item, until the end of
      the input; then append the EOF token. Reading the next character after
      trailing whitespace goes past the end. */
  function ScanFrom(s: Stream, acc: seq<Token>): (r: Result<seq<Token>>)
    requires InBounds(s) && ProperTokens(acc)
    ensures r.Ok? ==> Terminated(r.value) && |r.value| > |acc| && r.value[..|acc|] == acc
    ensures r.Err? ==> r.error == IndexOutOfRange || r.error.InputError?
    ensures r.Ok? ==> EndsClean(s)
    decreases |s.input| - s.position
  {
    if Eof(s) then
      TerminatedByEof(acc, s.line);
      Ok(acc + [Token(EndOfFile, "", LNull, s.line)])
    else
      var s1 := ReadWhile(s, IsWhitespace).1;
      if Eof(s1) then Err(IndexOutOfRange)
      else
        match ScanOne(s1)
        case Err(e) => Err(e)
        case Ok(step) =>
          ProperTokensAppend(acc, step.tokens);
          EndAfterStep(s, s1, step);
          var r := ScanFrom(step.rest, acc + step.tokens);
          PrefixOfPrefix(acc, step.tokens, r);
          r
  }

  /** The input is consumed, or it does not end in a newline. */
  predicate EndsClean(s: Stream) {
    Eof(s) || s.input[|s.input| - 1] != '\n'
  }

  /** A step that reaches the end of the input did not end on a newline. */
  lemma EndAfterStep(s: Stream, s1: Stream, step: Lexed)
    requires !Eof(s) && s1.input == s.input && Progress(s1, step)
    ensures EndsClean(step.rest) ==> EndsClean(s)
  {
  }

  lemma PrefixOfPrefix(a: seq<Token>, b: seq<Token>, r: Result<seq<Token>>)
    requires r.Ok? ==> |r.value| > |a + b| && r.value[..|a + b|] == a + b
    ensures r.Ok? ==> r.value[..|a|] == a
  {
    if r.Ok? {
      assert r.value[..|a|] == r.value[..|a + b|][..|a|];
    }
  }

  /** `TokenStream.ReadTokens` over a fresh cursor: on success, well-formed
      tokens that end in exactly one EOF token; the only failures are an
      input error or a read past the end, and any non-empty input that
      scans ends in something other than a newline. */
  function Scan(input: string): (r: Result<seq<Token>>)
    ensures r.Ok? ==> Terminated(r.value)
    ensures r.Ok? && |input| > 0 ==> input[|input| - 1] != '\n'
    ensures r.Err? ==> r.error == IndexOutOfRange || r.error.InputError?
  {
    ScanFrom(Start(input), [])
  }
}

=== FILE: scanner_properties.dfy ===
/** Properties of whole scans: the cursor invariant across every step, the
    line each token is stamped with, and the order of the stamps. */
module ScannerProperties {
  import opened Tokens
  import opened Diagnostics
  import opened InputStream
  import opened Scanner

  /* ---------------- the cursor invariant ---------------- */

  /** Consuming a run of characters keeps the line and column counters in
      step with the text consumed. */
  lemma {:induction false} ReadWhileKeepsValid(s: Stream, p: char -> bool)
    requires Valid(s)
    ensures Valid(ReadWhile(s, p).1)
    decreases |s.input| - s.position
  {
    if !Eof(s) && p(Peek(s)) {
      NextPreservesValid(s);
      ReadWhileKeepsValid(Next(s).1, p);
    }
  }

  /** Counting newlines over a longer prefix never gives fewer. */
  lemma {:induction false} NewlinesMonotone(x: string, i: nat, j: nat)
    requires i <= j <= |x|
    ensures Newlines(x[..i]) <= Newlines(x[..j])
    decreases j - i
  {
    if i < j {
      assert x[..j][..j - 1] == x[..j - 1];
      NewlinesMonotone(x, i, j - 1);
    }
  }

  /** Under the invariant, a cursor further along the same input is on the
      same line or a later one. */
  lemma LineAdvances(s: Stream, t: Stream)
    requires Valid(s) && Valid(t) && s.input == t.input && s.position <= t.position
    ensures s.line <= t.line
  {
    NewlinesMonotone(s.input, s.position, t.position);
  }

  lemma StringKeepsValid(s: Stream)
    requires Valid(s) && !Eof(s) && Peek(s) == '"'
    ensures ScanString(s).Ok? ==> Valid(ScanString(s).value.rest)
  {
    NextPreservesValid(s);
    var s2 := ReadWhile(Next(s).1, IsStringChar).1;
    ReadWhileKeepsValid(Next(s).1, IsStringChar);
    if !Eof(s2) {
      NextPreservesValid(s2);
    }
  }

  lemma NumberKeepsValid(s: Stream)
    requires Valid(s) && !Eof(s) && IsDigit(Peek(s))
    ensures Valid(ScanNumber(s).rest)
  {
    var s1 := ReadWhile(s, IsDigit).1;
    ReadWhileKeepsValid(s, IsDigit);
    if !Eof(s1) && Peek(s1) == '.' && IsDigit(PeekNext(s1)) {
      NextPreservesValid(s1);
      ReadWhileKeepsValid(Next(s1).1, IsDigit);
    }
  }

  lemma OperatorKeepsValid(s: Stream)
    requires Valid(s) && !Eof(s) && Peek(s) in OperatorKinds
    ensures ScanOperator(s).Ok? ==> Valid(ScanOperator(s).value.rest)
  {
    NextPreservesValid(s);
    var s1 := Next(s).1;
    if !Eof(s1) {
      NextPreservesValid(s1);
    }
  }

  /** Every scanning step keeps the cursor invariant. */
  lemma ScanOneKeepsValid(s: Stream)
    requires Valid(s) && !Eof(s)
    ensures ScanOne(s).Ok? ==> Valid(ScanOne(s).value.rest)
  {
    var c := Peek(s);
    if c == '"' {
      StringKeepsValid(s);
    } else if c in SingleCharKinds || c in OperatorKinds || c == '/' {
      NextPreservesValid(s);
      if c in OperatorKinds {
        OperatorKeepsValid(s);
      } else if c == '/' && PeekNext(s) == '/' {
        ReadWhileKeepsValid(s, IsCommentChar);
      }
    } else if IsDigit(c) {
      NumberKeepsValid(s);
    } else if IsIdentifierStart(c) {
      ReadWhileKeepsValid(s, IsIdentifierChar);
    }
  }

  /* ---------------- line stamps ---------------- */

  /** Every token of the step carries the line the cursor is on after it. */
  predicate Stamped(r: Lexed) {
    forall t :: t in r.tokens ==> t.line == r.rest.line
  }

  /** A scanning step stamps its token with the line it ends on. */
  lemma ScanOneStamped(s: Stream)
    requires InBounds(s) && !Eof(s)
    ensures ScanOne(s).Ok? ==> Stamped(ScanOne(s).value)
  {
    var c := Peek(s);
    if c == '"' {
      assert ScanOne(s) == ScanString(s);
    } else if c in SingleCharKinds {
      SingleCharSpelling(c);
      assert ScanOne(s) == Ok(Single(s, SingleCharKinds[c]));
    } else if c in OperatorKinds {
      assert ScanOne(s) == ScanOperator(s);
    } else if c == '/' {
      if PeekNext(s) == '/' {
        assert ScanOne(s) == Ok(SkipComment(s));
      } else {
        assert ScanOne(s) == Ok(Single(s, Slash));
      }
    } else if IsDigit(c) {
      assert ScanOne(s) == Ok(ScanNumber(s));
    } else if IsIdentifierStart(c) {
      assert ScanOne(s) == Ok(ScanIdentifier(s));
    }
  }

  /* ---------------- longest match ---------------- */

  /** An operator step takes its `=` exactly when one follows, and has the
      two-character kind exactly then. */
  lemma OperatorMunchesEquals(s: Stream)
    requires InBounds(s) && !Eof(s) && Peek(s) in OperatorKinds
    ensures var r := ScanOne(s);
      r.Ok? ==>
        && |r.value.tokens| == 1
        && (|r.value.tokens[0].lexeme| == 2 <==> PeekNext(s) == '=')
        && (r.value.tokens[0].kind == OperatorKinds[Peek(s)].1 <==> PeekNext(s) == '=')
  {
    var c := Peek(s);
    assert c == '!' || c == '=' || c == '<' || c == '>';
    assert c != '"' && c !in SingleCharKinds;
    assert ScanOne(s) == ScanOperator(s);
  }

  /** A number step stops at a character that cannot extend the number: not
      before a digit, and a whole number not before `.` and a digit. */
  lemma NumberMunchesDigits(s: Stream)
    requires InBounds(s) && !Eof(s) && IsDigit(Peek(s))
    ensures var r := ScanOne(s);
      && r.Ok? && |r.value.tokens| == 1
      && (Eof(r.value.rest) || !IsDigit(Peek(r.value.rest)))
      && (DotIndex(r.value.tokens[0].lexeme) == |r.value.tokens[0].lexeme| ==>
            Eof(r.value.rest) || Peek(r.value.rest) != '.' || !IsDigit(PeekNext(r.value.rest)))
  {
    var c := Peek(s);
    assert c != '"' && c !in SingleCharKinds && c !in OperatorKinds && c != '/';
    assert ScanOne(s) == Ok(ScanNumber(s));
  }

  /** A word step stops at a character that cannot continue the word. */
  lemma WordMunchesLetters(s: Stream)
    requires InBounds(s) && !Eof(s) && IsIdentifierStart(Peek(s))
    ensures var r := ScanOne(s);
      && r.Ok? && |r.value.tokens| == 1
      && (Eof(r.value.rest) || !IsIdentifierChar(Peek(r.value.rest)))
  {
    var c := Peek(s);
    assert c != '"' && c !in SingleCharKinds && c !in OperatorKinds && c != '/' && !IsDigit(c);
    assert ScanOne(s) == Ok(ScanIdentifier(s));
  }

  /** Line stamps never decrease along the token list. */
  ghost predicate LinesAscending(ts: seq<Token>) {
    forall i, j :: 0 <= i < j < |ts| ==> ts[i].line <= ts[j].line
  }

  /** Every stamp lies between `lo` and `hi`. */
  ghost predicate LinesWithin(ts: seq<Token>, lo: nat, hi: nat) {
    forall i :: 0 <= i < |ts| ==> lo <= ts[i].line <= hi
  }

  lemma AppendAscending(a: seq<Token>, b: seq<Token>, line: nat)
    requires LinesAscending(a) && LinesWithin(a, 1, line)
    requires forall t :: t in b ==> t.line == line
    requires line >= 1
    ensures LinesAscending(a + b) && LinesWithin(a + b, 1, line)
  {
  }

  /** A successful scan result whose stamps ascend from at least 1 up to
      the EOF token's line `last`. */
  ghost predicate LinesEndAt(r: Result<seq<Token>>, last: nat) {
    r.Ok? ==> && |r.value| > 0 && LinesAscending(r.value) && LinesWithin(r.value, 1, last)
              && r.value[|r.value| - 1].line == last
  }

  lemma EofLines(acc: seq<Token>, line: nat)
    requires LinesAscending(acc) && LinesWithin(acc, 1, line) && line >= 1
    ensures LinesEndAt(Ok(acc + [Token(EndOfFile, "", LNull, line)]), line)
  {
    AppendAscending(acc, [Token(EndOfFile, "", LNull, line)], line);
  }

  /** The loop from a cursor in step with its input: the stamps ascend, all
      are at least 1, and the EOF token is on the line after the last
      newline of the input. */
  lemma {:induction false} ScanFromLines(s: Stream, acc: seq<Token>)
    requires Valid(s) && ProperTokens(acc)
    requires LinesAscending(acc) && LinesWithin(acc, 1, s.line)
    ensures LinesEndAt(ScanFrom(s, acc), 1 + Newlines(s.input))
    decreases |s.input| - s.position
  {
    if Eof(s) {
      EofLinesAtEnd(s, acc);
    } else if ScanFrom(s, acc).Ok? {
      var next := ScanStepLines(s, acc);
      ScanFromLines(next.rest, acc + next.tokens);
    }
  }

  /** At the end of the input the loop appends the EOF token on the line
      after the input's last newline. */
  lemma EofLinesAtEnd(s: Stream, acc: seq<Token>)
    requires Valid(s) && Eof(s) && ProperTokens(acc)
    requires LinesAscending(acc) && LinesWithin(acc, 1, s.line)
    ensures LinesEndAt(ScanFrom(s, acc), 1 + Newlines(s.input))
  {
    assert s.input[..s.position] == s.input;
    EofLines(acc, s.line);
  }

  /** One turn of the loop keeps the cursor in step with its input and the
      stamps ascending up to the cursor's line. */
  lemma ScanStepLines(s: Stream, acc: seq<Token>) returns (next: Lexed)
    requires Valid(s) && !Eof(s) && ProperTokens(acc) && ScanFrom(s, acc).Ok?
    requires LinesAscending(acc) && LinesWithin(acc, 1, s.line)
    ensures Valid(next.rest) && ProperTokens(acc + next.tokens)
    ensures LinesAscending(acc + next.tokens) && LinesWithin(acc + next.tokens, 1, next.rest.line)
    ensures s.position < next.rest.position && next.rest.input == s.input
    ensures ScanFrom(s, acc) == ScanFrom(next.rest, acc + next.tokens)
  {
    var s1 := ReadWhile(s, IsWhitespace).1;
    ReadWhileKeepsValid(s, IsWhitespace);
    next := ScanOne(s1).value;
    ScanOneKeepsValid(s1);
    ScanOneStamped(s1);
    LineAdvances(s, next.rest);
    ProperTokensAppend(acc, next.tokens);
    AppendAscending(acc, next.tokens, next.rest.line);
  }

  /** A successful scan stamps its tokens with ascending lines, starting no
      lower than line 1, and the EOF token with one more than the number of
      newlines in the input. */
  lemma ScanLines(input: string)
    ensures LinesEndAt(Scan(input), 1 + Newlines(input))
  {
    var s := Start(input);
    assert s.input[..s.position] == [];
    ScanFromLines(s, []);
    assert Scan(input) == ScanFrom(s, []);
  }

  /** "return" is not in the keyword table, and nothing produces a boolean
      token: a successful scan contains neither kind. */
  lemma ScanNeverReturns(input: string)
    ensures Scan(input).Ok? ==> NoReturnOrBoolean(Scan(input).value)
  {
    var r := Scan(input);
    if r.Ok? {
      TerminatedHasNoReturn(r.value);
    }
  }

  predicate NoReturnOrBoolean(ts: seq<Token>) {
    forall i :: 0 <= i < |ts| ==> ts[i].kind != Return && ts[i].kind != Boolean
  }

  /** No well-formed token and no EOF token is a `return` or a boolean. */
  lemma TerminatedHasNoReturn(ts: seq<Token>)
    requires Terminated(ts)
    ensures NoReturnOrBoolean(ts)
  {
    forall i | 0 <= i < |ts|
      ensures ts[i].kind != Return && ts[i].kind != Boolean
    {
      if i < |ts| - 1 {
        assert ts[i] in ts[..|ts| - 1];
      }
    }
  }

  /* ---------------- tokens as slices of the input ---------------- */

  /** `ts` are, in order, the slices `x[sp[k].0..sp[k].1]` of the text from
      `from` on, and only skipped text lies before, between and after them. */
  ghost predicate Segments(x: string, from: nat, ts: seq<Token>, sp: seq<(nat, nat)>)
    decreases |ts|
  {
    && from <= |x| && |sp| == |ts|
    && (if ts == [] then Skipped(x, from, |x|, false)
        else
          && from <= sp[0].0 < sp[0].1 <= |x|
          && Skipped(x, from, sp[0].0, false)
          && ts[0].lexeme == x[sp[0].0..sp[0].1]
          && Segments(x, sp[0].1, ts[1..], sp[1..]))
  }

  /** A run of whitespace is skipped text. */
  lemma {:induction false} WhitespaceSkipped(x: string, i: nat, j: nat)
    requires i <= j <= |x|
    requires forall k :: i <= k < j ==> IsWhitespace(x[k])
    ensures Skipped(x, i, j, false)
    decreases j - i
  {
    if i < j {
      WhitespaceSkipped(x, i + 1, j);
    }
  }

  /** Text skipped from outside a comment is also skipped from inside one:
      it starts with whitespace or a new comment, and neither ends the open
      comment before the newline that would. */
  lemma {:induction false} SkippedInComment(x: string, i: nat, j: nat)
    requires i <= j <= |x| && Skipped(x, i, j, false)
    ensures Skipped(x, i, j, true)
    decreases j - i
  {
    if i < j && x[i] != '\n' {
      if IsWhitespace(x[i]) && Skipped(x, i + 1, j, false) {
        SkippedInComment(x, i + 1, j);
      } else {
        assert x[i + 1] == '/' && Skipped(x, i + 2, j, true);
        assert Skipped(x, i + 1, j, true);
      }
    }
  }

  /** Skipped text followed by skipped text is skipped text. */
  lemma {:induction false} SkippedAppend(x: string, a: nat, b: nat, c: nat, inComment: bool)
    requires a <= b <= c <= |x|
    requires Skipped(x, a, b, inComment) && Skipped(x, b, c, false)
    ensures Skipped(x, a, c, inComment)
    decreases b - a
  {
    if a == b {
      if inComment {
        SkippedInComment(x, b, c);
      }
    } else if inComment && x[a] != '\n' {
      SkippedAppend(x, a + 1, b, c, true);
    } else if IsWhitespace(x[a]) && Skipped(x, a + 1, b, false) {
      SkippedAppend(x, a + 1, b, c, false);
    } else {
      SkippedAppend(x, a + 2, b, c, true);
    }
  }

  /** `ts` can be traced as slices of `x` from `from` on. */
  ghost predicate Traced(x: string, from: nat, ts: seq<Token>) {
    exists sp :: Segments(x, from, ts, sp)
  }

  /** Skipped text in front of a traced run of tokens leaves it traced. */
  lemma SkippedBeforeSegments(x: string, a: nat, b: nat, ts: seq<Token>, sp: seq<(nat, nat)>)
    requires a <= b && Segments(x, b, ts, sp) && Skipped(x, a, b, false)
    ensures Segments(x, a, ts, sp)
  {
    if ts == [] {
      SkippedAppend(x, a, b, |x|, false);
    } else {
      SkippedAppend(x, a, b, sp[0].0, false);
    }
  }

  /** One turn of the loop in front of a traced run of tokens: skipped
      text from `from` to the step's cursor `s1`, then the step, then the
      run. What the step emits followed by the run is traced from `from`. */
  lemma StepBeforeTraced(x: string, from: nat, s1: Stream, step: Lexed, tail: seq<Token>)
    requires Turn(x, from, s1, step)
    requires Traced(x, step.rest.position, tail)
    ensures Traced(x, from, step.tokens + tail)
  {
    var sp :| Segments(x, step.rest.position, tail, sp);
    if step.tokens == [] {
      SkippedAppend(x, from, s1.position, step.rest.position, false);
      SkippedBeforeSegments(x, from, step.rest.position, tail, sp);
      assert step.tokens + tail == tail;
    } else {
      TokenBeforeSegments(x, from, s1.position, step.rest.position, step.tokens[0], tail, sp);
      assert step.tokens + tail == [step.tokens[0]] + tail;
    }
  }

  /** Skipped text, a token read from `x[i..j]`, then a traced run. */
  lemma TokenBeforeSegments(x: string, from: nat, i: nat, j: nat, t: Token, tail: seq<Token>, sp: seq<(nat, nat)>)
    requires from <= i < j <= |x| && Skipped(x, from, i, false) && t.lexeme == x[i..j]
    requires Segments(x, j, tail, sp)
    ensures Segments(x, from, [t] + tail, [(i, j)] + sp)
  {
    assert ([t] + tail)[1..] == tail;
    assert ([(i, j)] + sp)[1..] == sp;
  }

  /** A scan result from which the tokens after the first `n`, up to the
      EOF token, are traced in `x` from `from`. */
  ghost predicate TracedResult(x: string, from: nat, r: Result<seq<Token>>, n: nat) {
    r.Ok? ==> n < |r.value| && Traced(x, from, r.value[n..|r.value| - 1])
  }

  /** The loop from any cursor: the tokens it adds before the EOF token are,
      in order, slices of the input from the cursor on, separated by
      whitespace and comments only. */
  lemma {:induction false} ScanFromSegments(s: Stream, acc: seq<Token>)
    requires InBounds(s) && ProperTokens(acc)
    ensures TracedResult(s.input, s.position, ScanFrom(s, acc), |acc|)
    decreases |s.input| - s.position
  {
    if ScanFrom(s, acc).Ok? {
      if Eof(s) {
        EndTraced(s, acc);
      } else {
        var s1, step := ScanStepOk(s, acc);
        ScanFromSegments(step.rest, acc + step.tokens);
        StepTraced(s.input, s.position, s1, step, acc, ScanFrom(s, acc));
      }
    }
  }

  /** One turn of the loop in front of the rest of the scan keeps the scan
      traced from where the turn began. */
  lemma StepTraced(x: string, from: nat, s1: Stream, step: Lexed, acc: seq<Token>, r: Result<seq<Token>>)
    requires Turn(x, from, s1, step)
    requires r.Ok? ==> |r.value| > |acc + step.tokens| && r.value[..|acc + step.tokens|] == acc + step.tokens
    requires TracedResult(x, step.rest.position, r, |acc + step.tokens|)
    ensures TracedResult(x, from, r, |acc|)
  {
    if r.Ok? {
      var tail := r.value[|acc + step.tokens|..|r.value| - 1];
      StepBeforeTraced(x, from, s1, step, tail);
      SplitAfter(r.value, acc, step.tokens);
    }
  }

  /** One turn of the loop from `from`: skipped whitespace up to the cursor
      `s1`, then a successful step from there. */
  ghost predicate Turn(x: string, from: nat, s1: Stream, step: Lexed) {
    && s1.input == x && from <= s1.position < |x| && step.rest.input == x
    && Skipped(x, from, s1.position, false)
    && ReadsInput(s1, step) && |step.tokens| <= 1
  }

  /** A turn of the loop that leads to a successful scan: skipped
      whitespace up to a cursor `s1`, then a successful `step` from `s1`,
      and the loop continues after it with the step's tokens added. */
  lemma ScanStepOk(s: Stream, acc: seq<Token>) returns (s1: Stream, step: Lexed)
    requires InBounds(s) && !Eof(s) && ProperTokens(acc) && ScanFrom(s, acc).Ok?
    ensures Turn(s.input, s.position, s1, step)
    ensures InBounds(step.rest) && s.position < step.rest.position && ProperTokens(acc + step.tokens)
    ensures ScanFrom(s, acc) == ScanFrom(step.rest, acc + step.tokens)
  {
    s1 := ReadWhile(s, IsWhitespace).1;
    step := ScanOne(s1).value;
    WhitespaceSkipped(s.input, s.position, s1.position);
    ProperTokensAppend(acc, step.tokens);
  }

  /** At the end of the input the loop adds only the EOF token. */
  lemma EndTraced(s: Stream, acc: seq<Token>)
    requires InBounds(s) && Eof(s) && ProperTokens(acc)
    ensures TracedResult(s.input, s.position, ScanFrom(s, acc), |acc|)
  {
    var r := ScanFrom(s, acc);
    assert r.value == acc + [Token(EndOfFile, "", LNull, s.line)];
    assert r.value[|acc|..|r.value| - 1] == [];
    assert Segments(s.input, s.position, [], []);
  }

  /** Cutting a list that starts with `a + b` after `a`. */
  lemma SplitAfter(v: seq<Token>, a: seq<Token>, b: seq<Token>)
    requires |v| > |a + b| && v[..|a + b|] == a + b
    ensures v[|a|..|v| - 1] == b + v[|a + b|..|v| - 1]
  {
    assert v[|a|..|a + b|] == b;
  }

  /** A successful scan reads the whole input: the tokens before the EOF
      token are, in order, slices of the input, and only whitespace and
      comments lie before, between and after them. */
  lemma ScanTracesInput(input: string)
    ensures Scan(input).Ok? ==> Traced(input, 0, Scan(input).value[..|Scan(input).value| - 1])
  {
    ScanFromSegments(Start(input), []);
    var r := Scan(input);
    if r.Ok? {
      assert r.value[..|r.value| - 1] == r.value[0..|r.value| - 1];
    }
  }
}

=== FILE: text.dfy ===
/** Decimal rendering of counters (line numbers, columns, arities) as the
    .NET runtime does when an int is concatenated to a string, and the
    inverse reading used to recover a number from the end of a message. */
module Text {

  predicate IsDigit(c: char) {
    '0' <= c <= '9'
  }

  predicate AllDigits(s: string) {
    forall i :: 0 <= i < |s| ==> IsDigit(s[i])
  }

  function DigitChar(d: nat): (c: char)
    requires d < 10
    ensures IsDigit(c) && DigitValue(c) == d
  {
    (('0' as int) + d) as char
  }

  function DigitValue(c: char): nat
    requires IsDigit(c)
  {
    (c as int) - ('0' as int)
  }

  /** The decimal text of a natural number, most significant digit first,
      with no leading zeros. */
  function NatToString(n: nat): (r: string)
    ensures |r| > 0 && AllDigits(r)
    ensures n < 10 <==> |r| == 1
    ensures |r| > 1 ==> r[0] != '0'
    decreases n
  {
    if n < 10 then [DigitChar(n)] else NatToString(n / 10) + [DigitChar(n % 10)]
  }

  /** Int32.ToString for a value of either sign. */
  function IntToString(i: int): (r: string)
    ensures |r| > 0
    ensures i < 0 <==> r[0] == '-'
  {
    if i < 0 then "-" + NatToString(-i) else NatToString(i)
  }

  /** The value of a string of decimal digits (the empty string reads as 0). */
  function DigitsToNat(s: string): nat
    requires AllDigits(s)
  {
    if s == [] then 0 else DigitsToNat(s[..|s| - 1]) * 10 + DigitValue(s[|s| - 1])
  }

  /** Reading back a rendered number gives the number. */
  lemma {:induction false} NatToStringRoundTrip(n: nat)
    ensures DigitsToNat(NatToString(n)) == n
    decreases n
  {
    if n >= 10 {
      var s := NatToString(n);
      assert s[..|s| - 1] == NatToString(n / 10);
      NatToStringRoundTrip(n / 10);
    }
  }

  /** Rendering is injective: different numbers never print alike. */
  lemma NatToStringInjective(m: nat, n: nat)
    requires NatToString(m) == NatToString(n)
    ensures m == n
  {
    NatToStringRoundTrip(m);
    NatToStringRoundTrip(n);
  }

  /** The longest suffix of `s` made of digits. */
  function TrailingDigits(s: string): (r: string)
    ensures AllDigits(r) && |r| <= |s|
  {
    if s == [] || !IsDigit(s[|s| - 1]) then []
    else TrailingDigits(s[..|s| - 1]) + [s[|s| - 1]]
  }

  /** The number written at the very end of `s`. */
  function TrailingNumber(s: string): nat {
    DigitsToNat(TrailingDigits(s))
  }

  lemma {:induction false} TrailingDigitsOfSuffix(p: string, d: string)
    requires AllDigits(d)
    requires p == [] || !IsDigit(p[|p| - 1])
    ensures TrailingDigits(p + d) == d
    decreases |d|
  {
    if d == [] {
      assert p + d == p;
    } else {
      var s, d' := p + d, d[..|d| - 1];
      assert AllDigits(d') by {
        assert forall i :: 0 <= i < |d'| ==> d'[i] == d[i];
      }
      assert IsDigit(s[|s| - 1]) && s[|s| - 1] == d[|d| - 1];
      assert TrailingDigits(s) == TrailingDigits(s[..|s| - 1]) + [s[|s| - 1]];
      assert s[..|s| - 1] == p + d';
      TrailingDigitsOfSuffix(p, d');
      assert d == d' + [d[|d| - 1]];
    }
  }

  /** A number appended to text that does not end in a digit can be read back
      from the end. */
  lemma TrailingNumberOfRendered(p: string, n: nat)
    requires p == [] || !IsDigit(p[|p| - 1])
    ensures TrailingNumber(p + NatToString(n)) == n
  {
    TrailingDigitsOfSuffix(p, NatToString(n));
    NatToStringRoundTrip(n);
  }
}

=== FILE: tokens.dfy ===
/** Tokens: the closed set of token kinds, literal payloads, and the
    immutable token record with its debug rendering. */
module Tokens {
  import Text

  /** The token kinds, in declaration order. BOOLEAN and RETURN exist but
      the scanner never produces them. */
  datatype Kind =
    // single-character tokens
    | LeftParenthesis | RightParenthesis | LeftBrace | RightBrace
    | Comma | Dot | Minus | Plus | Semicolon | Slash | Star
    // one- or two-character tokens
    | Exclamation | ExclamationEqual | Equal | EqualEqual
    | Greater | GreaterEqual | Less | LessEqual
    // literals and names
    | String | Number | Boolean | Identifier
    // keywords
    | Null | Void | If | Else | True | False | For | While | Return
    | Print | Var | Or | And | Fun
    // end of input
    | EndOfFile

  /** The enum member's name, as `TokenType.ToString()` prints it. */
  function KindName(k: Kind): (r: string)
    ensures |r| > 0 && ' ' !in r
  {
    match k
    case LeftParenthesis => "LEFT_PARENTHESIS"
    case RightParenthesis => "RIGHT_PARENTHESIS"
    case LeftBrace => "LEFT_BRACE"
    case RightBrace => "RIGHT_BRACE"
    case Comma => "COMMA"
    case Dot => "DOT"
    case Minus => "MINUS"
    case Plus => "PLUS"
    case Semicolon => "SEMICOLON"
    case Slash => "SLASH"
    case Star => "STAR"
    case Exclamation => "EXCLAMATION"
    case ExclamationEqual => "EXCLAMATION_EQUAL"
    case Equal => "EQUAL"
    case EqualEqual => "EQUAL_EQUAL"
    case Greater => "GREATER"
    case GreaterEqual => "GREATER_EQUAL"
    case Less => "LESS"
    case LessEqual => "LESS_EQUAL"
    case String => "STRING"
    case Number => "NUMBER"
    case Boolean => "BOOLEAN"
    case Identifier => "IDENTIFIER"
    case Null => "NULL"
    case Void => "VOID"
    case If => "IF"
    case Else => "ELSE"
    case True => "TRUE"
    case False => "FALSE"
    case For => "FOR"
    case While => "WHILE"
    case Return => "RETURN"
    case Print => "PRINT"
    case Var => "VAR"
    case Or => "OR"
    case And => "AND"
    case Fun => "FUN"
    case EndOfFile => "EOF"
  }

  /** The value a token (or a literal expression) carries: the source stores
      an object that is null, a bool, a double or a string. Numbers are kept
      as exact reals. */
  datatype Lit = LNull | LBool(b: bool) | LNum(n: real) | LStr(s: string)

  /** A token: kind, lexeme, literal value and the line the scanner was on
      when the token was created. Fields never change after construction. */
  datatype Token = Token(kind: Kind, lexeme: string, literal: Lit, line: nat)

  /** `Object.ToString()` of a literal as string concatenation renders it;
      null concatenates as the empty string, and the double formatter is a
      parameter because IEEE-754 formatting is not modelled. */
  function LiteralText(l: Lit, formatNumber: real -> string): string {
    match l
    case LNull => ""
    case LBool(b) => if b then "True" else "False"
    case LNum(n) => formatNumber(n)
    case LStr(s) => s
  }

  /** `Token.ToString()`: kind name, lexeme, literal and line. */
  function Render(t: Token, formatNumber: real -> string): string {
    KindName(t.kind) + " " + t.lexeme + " " + LiteralText(t.literal, formatNumber) + " linia:" + Text.NatToString(t.line)
  }

  /** The text of `s` before its first space. */
  function UpToSpace(s: string): (r: string)
    ensures r <= s
  {
    if s == [] || s[0] == ' ' then [] else [s[0]] + UpToSpace(s[1..])
  }

  /** The kind whose name is `name`, if any: the inverse of `KindName`. */
  function KindNamed(name: string): (bool, Kind) {
    match name
    case "LEFT_PARENTHESIS" => (true, LeftParenthesis)
    case "RIGHT_PARENTHESIS" => (true, RightParenthesis)
    case "LEFT_BRACE" => (true, LeftBrace)
    case "RIGHT_BRACE" => (true, RightBrace)
    case "COMMA" => (true, Comma)
    case "DOT" => (true, Dot)
    case "MINUS" => (true, Minus)
    case "PLUS" => (true, Plus)
    case "SEMICOLON" => (true, Semicolon)
    case "SLASH" => (true, Slash)
    case "STAR" => (true, Star)
    case "EXCLAMATION" => (true, Exclamation)
    case "EXCLAMATION_EQUAL" => (true, ExclamationEqual)
    case "EQUAL" => (true, Equal)
    case "EQUAL_EQUAL" => (true, EqualEqual)
    case "GREATER" => (true, Greater)
    case "GREATER_EQUAL" => (true, GreaterEqual)
    case "LESS" => (true, Less)
    case "LESS_EQUAL" => (true, LessEqual)
    case "STRING" => (true, String)
    case "NUMBER" => (true, Number)
    case "BOOLEAN" => (true, Boolean)
    case "IDENTIFIER" => (true, Identifier)
    case "NULL" => (true, Null)
    case "VOID" => (true, Void)
    case "IF" => (true, If)
    case "ELSE" => (true, Else)
    case "TRUE" => (true, True)
    case "FALSE" => (true, False)
    case "FOR" => (true, For)
    case "WHILE" => (true, While)
    case "RETURN" => (true, Return)
    case "PRINT" => (true, Print)
    case "VAR" => (true, Var)
    case "OR" => (true, Or)
    case "AND" => (true, And)
    case "FUN" => (true, Fun)
    case "EOF" => (true, EndOfFile)
    case _ => (false, EndOfFile)
  }

  lemma {:induction false} UpToSpaceOfPrefix(p: string, s: string)
    requires ' ' !in p
    ensures UpToSpace(p + " " + s) == p
    decreases |p|
  {
    if p != [] {
      assert (p + " " + s)[1..] == p[1..] + " " + s;
      assert p == [p[0]] + p[1..];
      UpToSpaceOfPrefix(p[1..], s);
    }
  }

  /** The rendering of a token starts with the name of its kind, so the kind
      can be read back from the debug text. */
  lemma RenderRecoversKind(t: Token, formatNumber: real -> string)
    ensures KindNamed(UpToSpace(Render(t, formatNumber))) == (true, t.kind)
  {
    var name := KindName(t.kind);
    var rest := t.lexeme + " " + LiteralText(t.literal, formatNumber) + " linia:" + Text.NatToString(t.line);
    assert Render(t, formatNumber) == name + " " + rest;
    UpToSpaceOfPrefix(name, rest);
    KindNamedFinds(t.kind);
  }

  /** The line a token was created on can be read back from the end of its
      rendering. */
  lemma RenderRecoversLine(t: Token, formatNumber: real -> string)
    ensures Text.TrailingNumber(Render(t, formatNumber)) == t.line
  {
    var p := KindName(t.kind) + " " + t.lexeme + " " + LiteralText(t.literal, formatNumber) + " linia:";
    assert Render(t, formatNumber) == p + Text.NatToString(t.line);
    Text.TrailingNumberOfRendered(p, t.line);
  }

  /** Distinct kinds print distinct names. */
  lemma KindNameInjective(j: Kind, k: Kind)
    requires KindName(j) == KindName(k)
    ensures j == k
  {
    KindNamedFinds(j);
    KindNamedFinds(k);
  }

  /** Looking a kind's name up finds that kind. */
  lemma KindNamedFinds(k: Kind)
    ensures KindNamed(KindName(k)) == (true, k)
  {
    match k
    case LeftParenthesis | RightParenthesis | LeftBrace | RightBrace
      | Comma | Dot | Minus | Plus | Semicolon | Slash | Star => PunctuationNamed(k);
    case Exclamation | ExclamationEqual | Equal | EqualEqual
      | Greater | GreaterEqual | Less | LessEqual => OperatorNamed(k);
    case String | Number | Boolean | Identifier | Null | Void | If | Else => WordNamed(k);
    case True | False | For | While | Return => KeywordNamed(k);
    case Print | Var | Or => LateNamed(k);
    case And | Fun | EndOfFile => LastNamed(k);
  }

  lemma PunctuationNamed(k: Kind)
    requires k in {LeftParenthesis, RightParenthesis, LeftBrace, RightBrace, Comma, Dot, Minus, Plus, Semicolon, Slash, Star}
    ensures KindNamed(KindName(k)) == (true, k)
  {
  }

  lemma OperatorNamed(k: Kind)
    requires k in {Exclamation, ExclamationEqual, Equal, EqualEqual, Greater, GreaterEqual, Less, LessEqual}
    ensures KindNamed(KindName(k)) == (true, k)
  {
  }

  lemma WordNamed(k: Kind)
    requires k in {String, Number, Boolean, Identifier, Null, Void, If, Else}
    ensures KindNamed(KindName(k)) == (true, k)
  {
  }

  lemma KeywordNamed(k: Kind)
    requires k in {True, False, For, While, Return}
    ensures KindNamed(KindName(k)) == (true, k)
  {
  }

  lemma LateNamed(k: Kind)
    requires k in {Print, Var, Or}
    ensures KindNamed(KindName(k)) == (true, k)
  {
  }

  lemma LastNamed(k: Kind)
    requires k in {And, Fun, EndOfFile}
    ensures KindNamed(KindName(k)) == (true, k)
  {
  }
}

=== FILE: values.dfy ===
/** Runtime values: what evaluating an expression produces, and the
    interpreter's truthiness, equality and text rules for them. */
module Values {
  import Text
  import opened Tokens
  import opened Ast

  /** The three functions the interpreter registers in the global scope. */
  datatype Native = Clock | Write | WriteLine

  /** What a call can invoke: a native, or a user function with the name,
      parameters and body of its declaration. */
  datatype Callable =
    | NativeFn(native: Native)
    | UserFn(name: Token, params: seq<Token>, body: seq<Stmt>)

  /** A value. `Num` is a double, `Long` the integer `clock()` returns, and
      `Fn` a callable object together with its allocation number: every
      function object the interpreter creates gets a new number, so two
      `Fn` values are the same object exactly when their numbers agree. */
  datatype Value =
    | Nil
    | Bool(b: bool)
    | Num(n: real)
    | Str(s: string)
    | Long(l: int)
    | Fn(callable: Callable, id: nat)

  /** The value a literal node evaluates to. */
  function FromLiteral(l: Lit): (v: Value)
    ensures l.LNull? <==> v.Nil?
    ensures l.LBool? <==> v.Bool?
    ensures l.LNum? <==> v.Num?
    ensures l.LStr? <==> v.Str?
  {
    match l
    case LNull => Nil
    case LBool(b) => Bool(b)
    case LNum(n) => Num(n)
    case LStr(s) => Str(s)
  }

  /** How many arguments a callable takes: none for `clock`, one for
      `write` and `writeLine`, and one per declared parameter otherwise. */
  function Arity(c: Callable): nat {
    match c
    case NativeFn(Clock) => 0
    case NativeFn(_) => 1
    case UserFn(_, params, _) => |params|
  }

  /** Truthiness: null and `false` are false, everything else is true. */
  predicate IsTruthy(v: Value) {
    match v
    case Nil => false
    case Bool(b) => b
    case _ => true
  }

  /** Equality as `==` sees it: null equals only null; otherwise both
      values must have the same runtime type and equal contents, and
      function objects must be the same object. */
  predicate IsEqual(a: Value, b: Value) {
    match (a, b)
    case (Nil, Nil) => true
    case (Nil, _) => false
    case (Bool(x), Bool(y)) => x == y
    case (Num(x), Num(y)) => x == y
    case (Str(x), Str(y)) => x == y
    case (Long(x), Long(y)) => x == y
    case (Fn(_, i), Fn(_, j)) => i == j
    case _ => false
  }

  /** The type name `Object.ToString()` prints for a callable object. */
  function CallableTypeName(c: Callable): string {
    match c
    case NativeFn(Clock) => "Interpreter.Interpreter+ClockFunction"
    case NativeFn(Write) => "Interpreter.Interpreter+Write"
    case NativeFn(WriteLine) => "Interpreter.Interpreter+WriteLine"
    case UserFn(_, _, _) => "Interpreter.AST.FunctionObject"
  }

  /** `s` without a trailing ".0", if it has one. */
  function StripPointZero(s: string): (r: string)
    ensures r <= s
  {
    if |s| >= 2 && s[|s| - 2..] == ".0" then s[..|s| - 2] else s
  }

  /** The text of a value: "null" for null, a number's text without a
      trailing ".0", and `ToString()` otherwise. Doubles are printed by
      `formatNumber`, since IEEE-754 formatting is not modelled. */
  function Stringify(v: Value, formatNumber: real -> string): string {
    match v
    case Nil => "null"
    case Num(n) => StripPointZero(formatNumber(n))
    case Bool(b) => if b then "True" else "False"
    case Str(s) => s
    case Long(l) => Text.IntToString(l)
    case Fn(c, _) => CallableTypeName(c)
  }

  /* ---------------- properties ---------------- */

  /** Exactly null and `false` are falsy: zero, the empty string and every
      function are true. */
  lemma FalsyValues(v: Value)
    ensures !IsTruthy(v) <==> v == Nil || v == Bool(false)
    ensures IsTruthy(Num(0.0)) && IsTruthy(Str("")) && IsTruthy(Long(0))
  {
  }

  /** Equality is an equivalence relation. */
  lemma IsEqualIsEquivalence(a: Value, b: Value, c: Value)
    ensures IsEqual(a, a)
    ensures IsEqual(a, b) ==> IsEqual(b, a)
    ensures IsEqual(a, b) && IsEqual(b, c) ==> IsEqual(a, c)
  {
  }

  /** Apart from function objects, which compare by identity, equality is
      equality of values; null equals only null, and values of different
      runtime types (a double and a `clock()` long, say) are never equal. */
  lemma IsEqualMeansSameValue(a: Value, b: Value)
    ensures !a.Fn? ==> (IsEqual(a, b) <==> a == b)
    ensures a.Fn? ==> (IsEqual(a, b) <==> b.Fn? && a.id == b.id)
    ensures a.Nil? ==> (IsEqual(a, b) <==> b.Nil?)
    ensures IsEqual(a, b) ==> a.Nil? == b.Nil? && a.Bool? == b.Bool? && a.Num? == b.Num? && a.Str? == b.Str? && a.Long? == b.Long?
  {
  }

  /** Stringify drops exactly a trailing ".0" from a number's text and
      leaves any other text as the formatter printed it. */
  lemma StringifyNumber(n: real, formatNumber: real -> string)
    ensures var t := formatNumber(n);
      |t| >= 2 && t[|t| - 2..] == ".0" ==> Stringify(Num(n), formatNumber) + ".0" == t
    ensures var t := formatNumber(n);
      !(|t| >= 2 && t[|t| - 2..] == ".0") ==> Stringify(Num(n), formatNumber) == t
  {
    var t := formatNumber(n);
    if |t| >= 2 && t[|t| - 2..] == ".0" {
      assert t == t[..|t| - 2] + t[|t| - 2..];
    }
  }

  /** Strings print as themselves and null as "null". */
  lemma StringifyStringAndNull(s: string, formatNumber: real -> string)
    ensures Stringify(Str(s), formatNumber) == s
    ensures Stringify(Nil, formatNumber) == "null"
  {
  }
}
